=== FILE: README.md ===
# BCM63xx platform core, modelled in Dafny

This project models the decision logic of the OpenWrt BCM63xx MIPS platform
code (Broadcom BCM63xx DSL/cable SoCs), with the hardware taken as plain
inputs. Flash images and memory windows are byte sequences. Strap and register
words are explicit values. The CPU id is a number. Register writes come back as
returned values or as lists of steps.

The model is split into modules:

- **Kernel** holds the shared constants: errno values, CPU ids and PCI vendor ids.
- **Bytes** holds byte sequences and NUL-terminated C strings (`strcmp`,
  `strncmp`, `strstarts`), decimal and hex printing, and big-endian words.
- **Nvram** models `nvram.c`:
  - how the checksum region is chosen;
  - the NVRAM fields;
  - the MAC address pool (`bcm63xx_nvram_get_mac_address`);
  - the PSI size;
  - the two-entry SPROM MAC cache keyed by (bus, slot).
- **Rt2x00Fixup** models `pci-rt2x00-fixup.c`: the two-entry registration
  table and its first-match lookup by PCI slot.
- **Clk** models `clk-bcm63xx.c`:
  - CKCTL is a 32-bit register, modelled as the set of its 1-bits.
  - enable, disable and is_enabled act on the gate bit; recalc_rate is covered too.
  - parameter derivation in `bcm63xx_clock_init`.
  - the `clk_match` table and the reset hooks.
- **DevFlash** models `dev-flash.c`: flash-type detection from the strap
  registers, and the registration plan in `bcm63xx_flash_register`.
- **Setup** models `setup.c`:
  - the 32-byte-aligned walk over the built-in device-tree blobs (`find_compatible_tree`);
  - `bcm63xx_is_compatible`;
  - tree selection in `device_tree_init`;
  - register and method selection in `bcm63xx_machine_reboot`.
- **BoardId** models the start of `board_prom_init` and `boardid_fixup` in
  `board_bcm963xx.c`: the CFE version decode, and how the board name is rewritten.
- **Board** models the rest of `board_bcm963xx.c`:
  - the boot address;
  - board lookup;
  - `board_setup`;
  - the GPIO mode multiplexing;
  - the rules of `board_register_devices`;
  - `bcm63xx_get_fallback_sprom`.

Several things are parameters of the model rather than modelled:
- **CRC32.** Nvram takes it as a function parameter.
- **Register masks from `bcm63xx_regs.h`.** These are the strap bits, the
  external IRQ masks and `SYS_PLL_SOFT_RESET`. Their values do not appear in
  the modelled files, so they are record parameters (`DevFlash.StrapLayout`,
  `Setup.RebootLayout`).
- **The GPIO mode bits.** They are an enumeration.
- **The device-tree compatibility test.** It is an oracle on (blob, compatible string).

The `find_compatible_tree` loop does not always terminate. A blob with a bad
magic makes it `continue` without advancing the cursor. So does a `totalsize`
whose 32-byte round-up is 0. The model reports both as `Hangs` and never claims
termination on them.

## Model

| member | source | states |
|---|---|---|
| Nvram.ChecksumPlanOf | target/linux/brcm63xx/files/arch/mips/bcm63xx/nvram.c:88-97 | Up to version 4 the CRC covers the bytes before reserved3, with checksum_old read as zero, and is compared with checksum_old. Later versions cover the whole struct and compare with checksum_high. |
| Nvram.ChecksumRegionIgnoresStoredField | target/linux/brcm63xx/files/arch/mips/bcm63xx/nvram.c:88-99 | Two images that differ only in the selected checksum field checksum the same bytes. |
| Nvram.SealedImagePassesChecksum | target/linux/brcm63xx/files/arch/mips/bcm63xx/nvram.c:88-103 | An image whose selected field holds the CRC of its own region passes the check, for any CRC function. |
| Nvram.NvramInit | target/linux/brcm63xx/files/arch/mips/bcm63xx/nvram.c:75-113 | The struct fields are read big-endian at their offsets; nvram_buf is the first 32 KiB; the checksum flag says whether the CRC matched; on a 3368 the pool is forced to 00:10:18:ff:ff:ff with count 2. |
| Nvram.ChecksumMismatchOnlyWarns | target/linux/brcm63xx/files/arch/mips/bcm63xx/nvram.c:99-103 | The parsed NVRAM does not depend on the CRC outcome: a mismatch only warns. |
| Nvram.PsiSize | target/linux/brcm63xx/files/arch/mips/bcm63xx/nvram.c:156-163 | The PSI size is psi_size KiB when 1 <= psi_size <= 512, else 64 KiB; it is always a whole number of KiB between 1 KiB and 512 KiB. |
| Nvram.FetchMacAddress | target/linux/brcm63xx/files/arch/mips/bcm63xx/nvram.c:121-153 | Reference definition. Call n succeeds exactly when n < count and the base's low 24 bits plus n do not carry into the OUI. It then yields the base OUI with low 24 bits base+n and advances the counter by one. Any failure leaves the counter unchanged. |
| Nvram.IncrementLow24 | target/linux/brcm63xx/files/arch/mips/bcm63xx/nvram.c:136-143 | The byte-wise increment loop adds 1 to the 24-bit counter in bytes 3..5, keeps the OUI, and reaches the OUI exactly when the counter was 0xffffff. |
| Nvram.GetMacAddress | target/linux/brcm63xx/files/arch/mips/bcm63xx/nvram.c:121-153 | The C loop (copy the base, increment once per address already used) computes exactly the reference definition, the failure cases included. |
| Nvram.ConsecutiveAddresses | target/linux/brcm63xx/files/arch/mips/bcm63xx/nvram.c:131-151 | Two successful calls in a row hand out consecutive addresses. |
| Nvram.Hcs3368PoolYieldsOneAddress | target/linux/brcm63xx/files/arch/mips/bcm63xx/nvram.c:109-112 | With the forced 3368 pool the first call returns the base itself and the second fails with -ENODEV, leaving the counter at 1. |
| Nvram.FindSprom | target/linux/brcm63xx/files/arch/mips/bcm63xx/nvram.c:171-176 | The index found is the first used entry recorded for (bus, slot); None means no used entry matches. |
| Nvram.GetSpromMacAddress | target/linux/brcm63xx/files/arch/mips/bcm63xx/nvram.c:166-209 | A pair already cached returns 0 and its cached address, and changes neither cache nor pool. A new pair when both entries are used gets -EINVAL and changes nothing. A new pair otherwise takes the next entry and gets the status of one pool fetch. On success it also gets that fetch's address and pool, and the entry records (bus, slot, address). On failure that entry keeps its previous value. Other entries never change. |
| Nvram.SpromCacheStaysValid | target/linux/brcm63xx/files/arch/mips/bcm63xx/nvram.c:54-64 | Entries past the counter keep their static bus = slot = -1 value initially and after every call. |
| Nvram.RepeatedPairIsCached | target/linux/brcm63xx/files/arch/mips/bcm63xx/nvram.c:171-176 | A pair asked for again gets the same address and takes nothing from the pool. |
| Nvram.NewPairBeyondCapacityFails | target/linux/brcm63xx/files/arch/mips/bcm63xx/nvram.c:184-194 | A new pair once both entries are used gets -EINVAL, and nothing changes. |
| Nvram.FailedFetchUsesUpEntry | target/linux/brcm63xx/files/arch/mips/bcm63xx/nvram.c:184-199 | A new pair whose MAC fetch fails returns -ENODEV but still uses up an entry, which stays at bus = slot = -1. |
| Nvram.EmptyPoolExhaustsCache | target/linux/brcm63xx/files/arch/mips/bcm63xx/nvram.c:178-199 | With an empty pool, two new pairs use up the cache and a third is refused with -EINVAL, although no address was ever handed out. |
| Rt2x00Fixup.EnableFixup | target/linux/brcm63xx/files/arch/mips/bcm63xx/pci-rt2x00-fixup.c:58-71 | On a full table the call changes nothing. Otherwise the next entry takes the slot, the EEPROM name and the fetched address. A successful fetch also sets mac_address and grows the count by one; a failed one leaves the count. No other entry changes. |
| Rt2x00Fixup.FindFixup | target/linux/brcm63xx/files/arch/mips/bcm63xx/pci-rt2x00-fixup.c:46-52 | The index found is the first registered entry with that slot; None means no registered entry has it. |
| Rt2x00Fixup.PciFixup | target/linux/brcm63xx/files/arch/mips/bcm63xx/pci-rt2x00-fixup.c:41-55 | The device gets platform data exactly when some registered entry has its PCI slot, and then that of the first such entry. |
| Rt2x00Fixup.UnregisteredEntriesInvisible | target/linux/brcm63xx/files/arch/mips/bcm63xx/pci-rt2x00-fixup.c:46-54 | Entries at or past the count never influence the lookup. |
| Rt2x00Fixup.FailedRegistrationIsOverwritten | target/linux/brcm63xx/files/arch/mips/bcm63xx/pci-rt2x00-fixup.c:63-70 | A registration whose fetch fails is invisible to the lookup, and the next registration reuses its entry. |
| Rt2x00Fixup.RegisteredSlotIsFound | target/linux/brcm63xx/files/arch/mips/bcm63xx/pci-rt2x00-fixup.c:46-70 | After a successful registration for a new slot, a device in that slot gets the new entry's EEPROM name and address. |
| Clk.ClkSet | target/linux/brcm63xx/files/drivers/clk/clk-bcm63xx.c:33-50 | The chosen bit ends up set (enable) or clear (disable), and every other bit of CKCTL is as it was. |
| Clk.ClkSetKeepsOtherBits | target/linux/brcm63xx/files/drivers/clk/clk-bcm63xx.c:40-46 | Setting or clearing one bit leaves any other bit's state unchanged. |
| Clk.Enable | target/linux/brcm63xx/files/drivers/clk/clk-bcm63xx.c:52-63 | The return is always 0; the reset hook runs when present; a gated clock sets its bit, keeping the others; an ungated one leaves CKCTL alone. |
| Clk.Disable | target/linux/brcm63xx/files/drivers/clk/clk-bcm63xx.c:65-71 | A gated clock clears its bit, keeping the others; an ungated one leaves CKCTL alone. |
| Clk.IsEnabled | target/linux/brcm63xx/files/drivers/clk/clk-bcm63xx.c:73-81 | An ungated clock reports enabled; a gated one reports enabled exactly when its bit is set. |
| Clk.EnableDisableObserved | target/linux/brcm63xx/files/drivers/clk/clk-bcm63xx.c:52-81 | After enable the clock reads enabled and after disable (when gated) it reads disabled, whatever CKCTL held. |
| Clk.GatesAreIndependent | target/linux/brcm63xx/files/drivers/clk/clk-bcm63xx.c:33-48 | Enabling or disabling one clock does not change what a clock with another gate bit reports. |
| Clk.GateBitAsWritten | target/linux/brcm63xx/files/drivers/clk/clk-bcm63xx.c:142-144 | As written: a gate-bit property up to and including 32 is taken, anything else gives -1. |
| Clk.GateBit32IsOutsideRegister | target/linux/brcm63xx/files/drivers/clk/clk-bcm63xx.c:142-144 | As written, a gate-bit property of 32 is stored as the gate bit. The model's BIT(32) is an empty mask, so enabling such a clock leaves CKCTL unchanged and it never reads as enabled. |
| Clk.GateBit | target/linux/brcm63xx/files/drivers/clk/clk-bcm63xx.c:142-144 | Corrected: the gate bit is the property exactly when it is below 32, else -1. |
| Clk.ClockInit | target/linux/brcm63xx/files/drivers/clk/clk-bcm63xx.c:130-194 | As written. A failed allocation or clk_register registers nothing. Otherwise the rate is clock-frequency (0 if absent). The gate bit is the property when that is at most 32, so 32 is stored, and -1 otherwise. A clock with a parent has exactly that one parent; one without is CLK_IS_ROOT with none. The primary name comes first among the lookup names, followed by one alias per further output name. |
| Clk.ClockInitCorrected | target/linux/brcm63xx/files/drivers/clk/clk-bcm63xx.c:130-194 | Corrected: the same registration as as-written, except that the gate bit is the property only when it is below 32. |
| Clk.CorrectedInitClocksAreObservable | target/linux/brcm63xx/files/drivers/clk/clk-bcm63xx.c:52-81 | For a gate-bit property of 32, the as-written clock stores 32 and does not read as enabled after enable. The corrected clock reads enabled after enable and disabled after disable. |
| Clk.OutputNamesAreRegistered | target/linux/brcm63xx/files/drivers/clk/clk-bcm63xx.c:148-193 | The lookup names are all output names in order when the property lists any, else the node name alone. |
| Clk.RecalcRateIsNodeFrequency | target/linux/brcm63xx/files/drivers/clk/clk-bcm63xx.c:83-87 | A registered clock reports its node's clock-frequency (0 when absent), whatever its parent's rate. |
| Clk.RecalcRate | target/linux/brcm63xx/files/drivers/clk/clk-bcm63xx.c:83-87 | recalc_rate reports the clock's own stored rate, whatever the parent rate. |
| Clk.ResetSequence | target/linux/brcm63xx/files/drivers/clk/clk-bcm63xx.c:96-128 | No hook does nothing. The switch reset asserts the enetsw reset, waits 100 ms, deasserts it and waits 100 ms. The SAR reset does the same with 1 ms. The 6368 switch reset enables enetsw-sar then enetsw-usb, runs the switch reset, and disables them in reverse order. |
| Clk.ClockMatchAsWritten | target/linux/brcm63xx/files/drivers/clk/clk-bcm63xx.c:216-233 | As written, exactly the four listed compatible strings match. The generic clock gets no reset, the SAR clock the SAR reset, and both switch clocks the generic switch reset. |
| Clk.Bcm6368EnetswResetUnreachable | target/linux/brcm63xx/files/drivers/clk/clk-bcm63xx.c:216-233 | As written, no compatible string selects the 6368 switch reset; the 6368 switch clock runs the generic reset, which never enables enetsw-sar. |
| Clk.ClockMatch | target/linux/brcm63xx/files/drivers/clk/clk-bcm63xx.c:206-228 | Corrected table: the 6368 switch clock selects the 6368 reset, and every other entry is as written. |
| Clk.Bcm6368EnetswResetBracketed | target/linux/brcm63xx/files/drivers/clk/clk-bcm63xx.c:104-120 | With the corrected table, the 6368 switch reset is bracketed: both secondary clocks are enabled first and disabled last, and the core reset runs in between. |
| DevFlash.DetectAsWritten | target/linux/brcm63xx/files/arch/mips/bcm63xx/dev-flash.c:83-144 | As written: on a 6368 the flash type is set from the boot-select field and -EINVAL is returned anyway; other CPUs behave as the corrected detection. |
| DevFlash.Detect | target/linux/brcm63xx/files/arch/mips/bcm63xx/dev-flash.c:83-144 | Per-CPU type and speed from the straps: 6328 speed and serial/NAND; 6338/6345/6348 parallel; 3368/6358 parallel/serial; 6362 serial/NAND at the default speed; 6368 fast speed and boot-select. The return is 0 exactly when a type was found, else -EINVAL. |
| DevFlash.Bcm6368DetectionReportsFailure | target/linux/brcm63xx/files/arch/mips/bcm63xx/dev-flash.c:121-140 | A 6368 with a recognised boot-select reports -EINVAL as written and 0 when corrected. |
| DevFlash.DetectionsAgreeOnType | target/linux/brcm63xx/files/arch/mips/bcm63xx/dev-flash.c:121-141 | The two detections agree on flash type and speed. |
| DevFlash.DetectedSpeeds | target/linux/brcm63xx/files/arch/mips/bcm63xx/dev-flash.c:77-124 | The SPI speed is one of 781000, 33333334, 16666667 or 20000000, and differs from the default only on 6328 and 6368. |
| DevFlash.Plan | target/linux/brcm63xx/files/arch/mips/bcm63xx/dev-flash.c:156-188 | Parallel flash is a physmap from the CS0 base, plus 0x400000 for "V2500V_BB", up to 0x1FFFFFFF. Serial flash is an m25p80 at the detected speed, on bus 1 with the HSSPI transfer limit on 6328/6362 and on bus 0 otherwise. NAND and unknown register nothing. |
| DevFlash.CopyCaldata | target/linux/brcm63xx/files/arch/mips/bcm63xx/dev-flash.c:151-152 | The first n parser slots take the caldata offsets in order; the others keep their values. |
| DevFlash.FlashRegister | target/linux/brcm63xx/files/arch/mips/bcm63xx/dev-flash.c:146-189 | The caldata offsets are copied, the plan follows the detected type, and the return is -ENODEV exactly when nothing is registered, else the registration's result. |
| DevFlash.FallThroughIsHarmless | target/linux/brcm63xx/files/arch/mips/bcm63xx/dev-flash.c:154-156 | The registration ignores the detection's return code, so as-written and corrected detections lead to the same plan. |
| DevFlash.UnlistedCpuRegistersNothing | target/linux/brcm63xx/files/arch/mips/bcm63xx/dev-flash.c:184-187 | A CPU the detection does not list registers no flash and returns -ENODEV. |
| DevFlash.HsspiFlashOn6328 | target/linux/brcm63xx/files/arch/mips/bcm63xx/dev-flash.c:173-180 | A 6328 strapped for serial boot registers its SPI flash on bus 1 with the HSSPI transfer limit. |
| Setup.RoundUp32 | target/linux/brcm63xx/files/arch/mips/bcm63xx/setup.c:203-204 | The step is a multiple of 32 at least totalsize and below totalsize + 32, except that it wraps to 0 in 32-bit arithmetic for the largest sizes. |
| Setup.FindCompatibleTree | target/linux/brcm63xx/files/arch/mips/bcm63xx/setup.c:192-208 | An empty window gives NULL, a bad magic at the cursor hangs, and a blob found lies inside the window. |
| Setup.FoundBlobIsCompatible | target/linux/brcm63xx/files/arch/mips/bcm63xx/setup.c:196-204 | A blob found starts on a 32-byte boundary from the start of the walk, carries the magic and is compatible. |
| Setup.FindCompatibleTreeLoop | target/linux/brcm63xx/files/arch/mips/bcm63xx/setup.c:192-208 | The cursor loop, which asks bcm63xx_is_compatible about each blob with the magic, returns the same outcome as the walk definition. initial_boot_params is the same after the walk as before it. |
| Setup.WalkFindsFirstCompatible | target/linux/brcm63xx/files/arch/mips/bcm63xx/setup.c:196-207 | Over well-formed blobs laid out back to back, the walk never hangs. It returns the first compatible blob at its offset, and NULL when none is compatible. |
| Setup.IsCompatible | target/linux/brcm63xx/files/arch/mips/bcm63xx/setup.c:169-184 | The answer is the compatibility of the tree at devtree: totalsize bytes from there, or no bytes past __dtb_end. initial_boot_params is restored to its previous value. |
| Setup.IsCompatibleIgnoresOldPointer | target/linux/brcm63xx/files/arch/mips/bcm63xx/setup.c:169-184 | The answer does not depend on where initial_boot_params pointed before the call. |
| Setup.GenericCompatibleNamesCpu | target/linux/brcm63xx/files/arch/mips/bcm63xx/setup.c:222-223 | The fallback string is "bcm9", the CPU id in hex and "-generic", and the CPU id reads back from it. |
| Setup.DeviceTreeInit | target/linux/brcm63xx/files/arch/mips/bcm63xx/setup.c:210-229 | The tree matching the first 16 bytes of the board name is used when found. Otherwise the generic tree for the CPU is used. Otherwise the result is a panic, or a hang when a walk hangs. |
| Setup.DeviceTreeInitOverLayout | target/linux/brcm63xx/files/arch/mips/bcm63xx/setup.c:215-229 | Over well-formed blobs the selection picks the first blob compatible with the board name, else the first compatible with the generic string, else panics. |
| Setup.MaskExtIrq | target/linux/brcm63xx/files/arch/mips/bcm63xx/setup.c:103-111 | (reg & ~mask) \| clear: the clear bits are set, the bits outside mask and clear are kept, and when mask and clear are disjoint no mask bit survives. |
| Setup.ExtIrqRegister | target/linux/brcm63xx/files/arch/mips/bcm63xx/setup.c:73-97 | The register is present exactly for the CPUs the switch lists (3368, 6328, 6338, 6345, 6348, 6358, 6362) and absent for all others. Otherwise it is one of the layout's per-CPU registers, the 6348 and 6328 ones on those CPUs. |
| Setup.Reboot | target/linux/brcm63xx/files/arch/mips/bcm63xx/setup.c:37-127 | The sequence has one step for the IRQ write, when there is one, plus five steps on a 6348 A1 and one step otherwise. The external IRQ register is written first exactly when the switch lists the CPU with a nonzero register. The value written is the read value masked and cleared with the 6348 masks on a 6348, else with the generic ones. A 6348 rev A1 clears SOFTRESET_6348_ALL in the soft-reset register and waits 10 ms. It then sets those bits, keeping the others, waits 10 ms and jumps to the reset vector. The jump ends the sequence exactly on a 6348 A1. A 6328 ends with a write of 1 to the watchdog. All others end by ORing SYS_PLL_SOFT_RESET into the PLL control register, keeping its other bits. |
| Setup.RebootTriggersOnceAfterMasking | target/linux/brcm63xx/files/arch/mips/bcm63xx/setup.c:73-127 | Every reboot has exactly one write that resets the chip, and it is the last one. When masks and clear bits are disjoint, the IRQ write leaves every external IRQ masked. |
| Setup.UnlistedCpuSkipsIrqMasking | target/linux/brcm63xx/files/arch/mips/bcm63xx/setup.c:75-101 | CPUs outside the switch (6318, 6368, 63268, ...) skip the IRQ masking and only set the PLL soft reset. |
| BoardId.CfeVersion | target/linux/brcm63xx/files/arch/mips/bcm63xx/boards/board_bcm963xx.c:5708-5723 | Without "cfe-" at 0x570 the version is "unknown". After "cfe-v" followed by 'd', it is the C string at byte 5, cut to 10 bytes. After "cfe-v" otherwise, it parses back to the five version bytes, or six when byte 10 is nonzero. After "cfe-" and no 'v', it is the C string at byte 4, cut to 11 bytes. It always fits the 32-byte buffer. |
| BoardId.CfeStringRoundTrip | target/linux/brcm63xx/files/arch/mips/bcm63xx/boards/board_bcm963xx.c:5718-5719 | A NUL-terminated version string of at most 11 bytes, written after "cfe-" and not starting with 'v', decodes to itself. |
| BoardId.CfeVdRoundTrip | target/linux/brcm63xx/files/arch/mips/bcm63xx/boards/board_bcm963xx.c:5710-5712 | A NUL-terminated "d..." string of at most 10 bytes, written after "cfe-v", decodes to itself. |
| BoardId.FormatVersionRoundTrip | target/linux/brcm63xx/files/arch/mips/bcm63xx/boards/board_bcm963xx.c:5713-5717 | The dotted and dashed decimal printing of five or six bytes parses back to those bytes. |
| BoardId.CfeNamedUnknownLooksMissing | target/linux/brcm63xx/files/arch/mips/bcm63xx/boards/board_bcm963xx.c:5719-5723 | A CFE that calls itself "cfe-unknown" decodes to "unknown", so boardid_fixup is skipped as if no CFE were present. |
| BoardId.Strncpy16 | target/linux/brcm63xx/files/arch/mips/bcm63xx/boards/board_bcm963xx.c:5663 | strncpy into the 16-byte name: 16 bytes whose C string is that of the first 16 source bytes. |
| BoardId.TagFor | target/linux/brcm63xx/files/arch/mips/bcm63xx/boards/board_bcm963xx.c:5649-5658 | The tag used is at 64K when its board id matches the name in 16 bytes, else at 128K when that matches, else none. |
| BoardId.TagStep | target/linux/brcm63xx/files/arch/mips/bcm63xx/boards/board_bcm963xx.c:5649-5665 | The tag rule either overrides the name or leaves it unchanged. |
| BoardId.BoardIdFixup | target/linux/brcm63xx/files/arch/mips/bcm63xx/boards/board_bcm963xx.c:5605-5666 | The name stays 16 bytes, and is unchanged when no rule applied. |
| BoardId.Nb4TakesPid | target/linux/brcm63xx/files/arch/mips/bcm63xx/boards/board_bcm963xx.c:5611-5618 | On a 6358, "96358VW" with "NB4-" at 0xff80 takes the 11 PID bytes found there, and no tag is consulted. |
| BoardId.Nb6IsCut | target/linux/brcm63xx/files/arch/mips/bcm63xx/boards/board_bcm963xx.c:5644-5647 | On a 6362, a name starting "NB6-" reads "NB6", and no tag is consulted. |
| BoardId.Hw556NameIsTerminated | target/linux/brcm63xx/files/arch/mips/bcm63xx/boards/board_bcm963xx.c:5628-5640 | Copying the 7 bytes "HW556_x" over a name whose byte 7 is NUL gives the C string "HW556_x". |
| BoardId.Hw556VariantSelected | target/linux/brcm63xx/files/arch/mips/bcm63xx/boards/board_bcm963xx.c:5619-5641 | When a calibration signature identifies the variant (A for the Ralink one), the name becomes "HW556_" plus that letter, unless a matching tag then overrides it. |
| BoardId.Hw556ThenTag | target/linux/brcm63xx/files/arch/mips/bcm63xx/boards/board_bcm963xx.c:5619-5665 | On a 6358 with name "HW556" and a calibration signature, the name is rewritten to "HW556_<v>". The tag lookup then runs on that name, and only a matching tag with '+' replaces it. |
| BoardId.Hw556WithoutSignatureIsTagStep | target/linux/brcm63xx/files/arch/mips/bcm63xx/boards/board_bcm963xx.c:5619-5665 | On a 6358 with name "HW556" and no calibration signature, the result is the tag lookup on the unchanged name. |
| BoardId.TagOverrideTakesInformation1 | target/linux/brcm63xx/files/arch/mips/bcm63xx/boards/board_bcm963xx.c:5649-5665 | Outside the NB4 case, HW556 with a signature, and NB6 on a 6362, the tag alone decides. With a matching tag whose information1 starts with '+', the name becomes the C string of the following bytes, at most 16. Otherwise the name is unchanged. |
| BoardId.FixupIsTagStep | target/linux/brcm63xx/files/arch/mips/bcm63xx/boards/board_bcm963xx.c:5605-5665 | Under the same conditions, boardid_fixup equals the tag step on the unchanged name, on every CPU, the 6358 included. |
| Board.FindBoard | target/linux/brcm63xx/files/arch/mips/bcm63xx/boards/board_bcm963xx.c:5739-5746 | The entry found is the first whose name equals the board name in 16 bytes; None means no entry matches. |
| Board.LookupBoard | target/linux/brcm63xx/files/arch/mips/bcm63xx/boards/board_bcm963xx.c:5738-5746 | With a matching entry, the board is the first table entry whose name matches in the first 16 bytes; with none, the board stays all zero. |
| Board.BoardSetup | target/linux/brcm63xx/files/arch/mips/bcm63xx/boards/board_bcm963xx.c:5818-5827 | Setup succeeds exactly when the board has a name and the CPU is the expected one. It panics as unknown exactly when the name is empty. |
| Board.SetupAfterLookup | target/linux/brcm63xx/files/arch/mips/bcm63xx/boards/board_bcm963xx.c:5738-5827 | With a table of named boards, setup panics as unknown exactly when no entry matches. It succeeds exactly when the first match expects this CPU. |
| Board.GpioMode | target/linux/brcm63xx/files/arch/mips/bcm63xx/boards/board_bcm963xx.c:5757-5802 | Each mode bit, one at a time, is set exactly under its condition: every PCI bit (CONFIG_PCI and has_pci), every PC card bit, both 6348 external MII bits (an enet with an external PHY), and the 6358 enet1 clock inversion. A group is therefore set whole or not at all. Bits only ever belong to the running CPU. |
| Board.BootBase | target/linux/brcm63xx/files/arch/mips/bcm63xx/boards/board_bcm963xx.c:5680-5687 | The 6318, 6328, 6362 and 63268 boot from 0x18000000; other CPUs from the masked CS0 base. |
| Board.BootAddress | target/linux/brcm63xx/files/arch/mips/bcm63xx/boards/board_bcm963xx.c:5689-5705 | The boot address is the KSEG1 alias of the base. It moves, and only to 0xbfc00000, exactly when it is 0xbf800000 and bank 0's NVRAM names "V2500V_BB". |
| Board.SetupPinmux | target/linux/brcm63xx/files/arch/mips/bcm63xx/boards/board_bcm963xx.c:5748-5811 | Nothing is configured exactly when no board was found. Otherwise the GPIO mode is written, PCI is enabled when CONFIG_PCI and has_pci hold, and the 6318 USB power pin is set when it has a host controller. |
| Board.IdentifyBoard | target/linux/brcm63xx/files/arch/mips/bcm63xx/boards/board_bcm963xx.c:5728-5737 | A 3368 takes the HCS file name. Other CPUs take the NVRAM name, rewritten by boardid_fixup exactly when the CFE version is not "unknown". |
| Board.BoardPromInit | target/linux/brcm63xx/files/arch/mips/bcm63xx/boards/board_bcm963xx.c:5671-5812 | The image is read at the boot address, its CFE version decoded and its NVRAM parsed. The fixup, NVRAM and board name are exactly what identification gives for that image, CFE version and NVRAM. The board is looked up by the identified name, and the pins follow that board. |
| Board.PinmuxFollowsLookup | target/linux/brcm63xx/files/arch/mips/bcm63xx/boards/board_bcm963xx.c:5738-5802 | With a table of named boards, the pins are configured exactly when the identified name matches an entry, and then for the first match. |
| Board.NoCfeKeepsNvramName | target/linux/brcm63xx/files/arch/mips/bcm63xx/boards/board_bcm963xx.c:5709-5736 | Without a "cfe-" signature the board is looked up under the NVRAM name, unchanged. |
| Board.UsbhPorts | target/linux/brcm63xx/files/arch/mips/bcm63xx/boards/board_bcm963xx.c:5878-5883 | No host controller gives 0 ports. With one, the count is num_usbh_ports, forced to 1 when that is 0 or when the board also has a USB device port. |
| Board.CountNamed | target/linux/brcm63xx/files/arch/mips/bcm63xx/boards/board_bcm963xx.c:5931-5932 | The count is the length of the leading run of named entries, bounded by the array size. |
| Board.CountStopsAtFirstGap | target/linux/brcm63xx/files/arch/mips/bcm63xx/boards/board_bcm963xx.c:5946-5947 | Entries after the first unnamed one are never counted. |
| Board.GetFallbackSprom | target/linux/brcm63xx/files/arch/mips/bcm63xx/boards/board_bcm963xx.c:5585-5594 | On a PCI bus the result is 0 with a copy of the board SPROM; on any other bus it is -EINVAL with the output untouched. |
| Board.ValidIssuesDistinct | target/linux/brcm63xx/files/arch/mips/bcm63xx/nvram.c:131-151 | The addresses the pool hands out during registration are pairwise distinct. |
| Board.Draw | target/linux/brcm63xx/files/arch/mips/bcm63xx/nvram.c:121-153 | A successful fetch appends its address to those issued, which stay consecutive from the start address. A failed fetch changes nothing. |
| Board.EnetMac | target/linux/brcm63xx/files/arch/mips/bcm63xx/boards/board_bcm963xx.c:5866-5876 | An Ethernet device is registered only when present and its address was obtained, and always when present and the pool can supply an address. Its address is the one just issued. |
| Board.SsbFallback | target/linux/brcm63xx/files/arch/mips/bcm63xx/boards/board_bcm963xx.c:5900-5908 | The fallback SPROM is registered only with CONFIG_SSB_PCIHOST on a board without caldata, and never otherwise. When registered, il0mac is newly issued and et0mac and et1mac equal it. When not, nothing is drawn from the pool. |
| Board.Rt2x00Step | target/linux/brcm63xx/files/arch/mips/bcm63xx/boards/board_bcm963xx.c:5964-5967 | A Ralink entry that registers adds one table entry with its slot and EEPROM name, and its address joins those issued. With room in the table and an address left in the pool, the entry always registers. |
| Board.CaldataFixups | target/linux/brcm63xx/files/arch/mips/bcm63xx/boards/board_bcm963xx.c:5956-5969 | The ath9k fixups are exactly the reference AtherosEntries: one per Atheros entry among the first has_caldata, in flash order, none repeated. Every such fixup belongs to an Atheros entry, and every Atheros entry gets its fixup. Together with the rt2x00 fixups, there is at most one fixup per entry. Registered rt2x00 entries hold addresses issued during the loop. Earlier entries are kept. The Ralink half is stated by CaldataRalinkDispatch, CaldataRalinkProvenance and CaldataRegistersEveryRalink. |
| Board.EnetStage | target/linux/brcm63xx/files/arch/mips/bcm63xx/boards/board_bcm963xx.c:5866-5876 | The addresses issued to enet0, enet1 and the switch are, in that order, exactly the ones the pool handed out. |
| Board.EnetAndFallback | target/linux/brcm63xx/files/arch/mips/bcm63xx/boards/board_bcm963xx.c:5866-5908 | Each registered Ethernet device is present on the board and holds an issued address. The SSB fallback SPROM registers only with CONFIG_SSB_PCIHOST and no caldata, and carries one issued address in il0mac, et0mac and et1mac. No fixup is recorded yet. |
| Board.RalinkEntries | target/linux/brcm63xx/files/arch/mips/bcm63xx/boards/board_bcm963xx.c:5957-5967 | At most n entries, all of them Ralink entries. |
| Board.RalinkEntriesAreTheRalinkOnes | target/linux/brcm63xx/files/arch/mips/bcm63xx/boards/board_bcm963xx.c:5957-5967 | Every listed entry is one of the first n caldata entries, and every Ralink entry among them is listed. |
| Board.RegisterRalink | target/linux/brcm63xx/files/arch/mips/bcm63xx/pci-rt2x00-fixup.c:58-71 | Registering a list of Ralink entries one after another keeps the table and pool valid and earlier entries untouched. It adds at most one entry per Ralink entry, and one address per new entry. |
| Board.RegisterRalinkProvenance | target/linux/brcm63xx/files/arch/mips/bcm63xx/pci-rt2x00-fixup.c:58-71 | Every new entry has the slot and EEPROM name of one of the listed entries. |
| Board.RalinkEntriesAllRegister | target/linux/brcm63xx/files/arch/mips/bcm63xx/pci-rt2x00-fixup.c:58-71 | With room in the table and enough addresses in the pool, every listed entry registers, in order: new entry k has the slot and EEPROM name of the k-th listed entry. |
| Board.AtherosEntries | target/linux/brcm63xx/files/arch/mips/bcm63xx/boards/board_bcm963xx.c:5957-5963 | The reference list of ath9k fixups: at most one per entry, taken in flash order from the Atheros entries. |
| Board.AtMostOneFixupPerEntry | target/linux/brcm63xx/files/arch/mips/bcm63xx/boards/board_bcm963xx.c:5956-5969 | The Atheros and Ralink references together list at most n entries, because each caldata entry falls in at most one of them. |
| Board.CaldataRalinkDispatch | target/linux/brcm63xx/files/arch/mips/bcm63xx/boards/board_bcm963xx.c:5956-5969 | The rt2x00 table and the pool after the caldata loop are exactly those of registering the Ralink entries in order. Atheros and other entries do not touch them. |
| Board.CaldataRalinkProvenance | target/linux/brcm63xx/files/arch/mips/bcm63xx/boards/board_bcm963xx.c:5956-5969 | Every rt2x00 fixup the loop adds has the slot and EEPROM name of a Ralink entry among the first has_caldata. |
| Board.CaldataRegistersEveryRalink | target/linux/brcm63xx/files/arch/mips/bcm63xx/boards/board_bcm963xx.c:5956-5969 | With room in the table and enough addresses in the pool, the caldata loop registers every Ralink entry in flash order, with its slot and EEPROM name. |
| Board.AssignMacs | target/linux/brcm63xx/files/arch/mips/bcm63xx/boards/board_bcm963xx.c:5866-5969 | Every registered Ethernet device, the fallback SPROM and every rt2x00 fixup holds an address the pool issued, and all issued addresses are distinct. There are at most has_caldata ath9k and new rt2x00 fixups together. The ath9k fixups are the AtherosEntries reference. |
| Board.EnetAddressesDistinct | target/linux/brcm63xx/files/arch/mips/bcm63xx/boards/board_bcm963xx.c:5866-5876 | enet0, enet1 and the switch never share an address. |
| Board.PlatformDevices | target/linux/brcm63xx/files/arch/mips/bcm63xx/boards/board_bcm963xx.c:5850-5962 | Each UART, PC card, USB, DSP, extra-device and SPI registration follows its board flag. USB host ports exist exactly when a host controller does. The BCMA fallback is registered exactly with CONFIG_BCMA on a board without caldata. The flash gets has_caldata entries. LED and button counts stop at the first unnamed entry within the array. The PHY reset GPIO is requested exactly when both gpio and flags are set. |
| Board.AssignMacsRalink | target/linux/brcm63xx/files/arch/mips/bcm63xx/boards/board_bcm963xx.c:5866-5969 | After the MAC assignment, the rt2x00 table is the reference registration of the board's Ralink entries among the first has_caldata, in order. It draws from the pool where the Ethernet devices and the fallback SPROM left it. |
| Board.RegisterDevices | target/linux/brcm63xx/files/arch/mips/bcm63xx/boards/board_bcm963xx.c:5850-5972 | The caldata count decides between the two parts. With caldata, neither the BCMA nor the SSB fallback SPROM registers. Without it, no ath9k fixup is recorded and the rt2x00 table is untouched. Each fallback needs its config option. The flash gets has_caldata entries. The ath9k fixups are the AtherosEntries reference. The rt2x00 table is the reference registration of the Ralink entries among the first has_caldata, in order, drawing from the pool after the Ethernet and fallback addresses. |

## Left out

- MMIO: register reads are inputs and register writes are returned values. The bit values of `bcm63xx_regs.h` do not appear in the modelled files, so the strap, IRQ and reset masks are parameters. The CS0 base is taken already masked with `MPI_CSBASE_BASE_MASK`.
- crc32_le is a function parameter; only the choice of region and field is modelled.
- Spinlocks (`bcm63xx_clk_lock`, `bcm63xx_sprom_lock`) are left out; the model is single-threaded.
- Kernel registration calls are left out, and so is their effect: platform and SPI devices, clk_register, clkdev and of_clk_add_provider, kstrdup, gpio_request_one, and the ssb/bcma hooks. The model records what would be registered and with which arguments.
- pci_enable_ath9k_fixup is not part of this model; the Atheros caldata entries are recorded as fixups with their arguments.
- Delays, CP0 and cache manipulation, and the assembly jump in the 6348 A1 reboot are reduced to the order of their steps. Halt loops are left out.
- dev-usb-ohci.c is not part of this model. Its `bcm63xx_ohci_register(void)` does not take the port count that board_register_devices passes.
- The board descriptor table and its GPIO, LED and button literals are left out; lookup takes the table as a parameter.
- The board_bcm963xx.h header declares no has_uart0/1, num_usbh_ports, leds or buttons fields, although the board code reads them; the model gives BoardInfo those fields.
- Board.WellFormed bounds has_caldata by 2, the size of the caldata array. The 2-bit field could hold 3, which would read past the array.
- The offsets in struct bcm_tag (board_id at 44, information1 at 162) and struct bcm_hcs (filename at 20) come from headers that are not part of this model.
- Reads past the end of a flash window yield 0, where the hardware would read further flash.
- Pointer arithmetic is not modelled for wrap-around past the end of the address space; addresses are unbounded naturals. The V2500V bank offset in DevFlash.Plan does wrap at 2^32.
- Clk.Bit: a shift by 32 or more is undefined in C, and MIPS32 sllv would use the low five bits, so BIT(32) would select bit 0; the model's choice is an empty mask.
- Setup.IsCompatible: a devtree pointer outside the built-in blobs is read as a tree of no bytes; the blobs of other memory are not modelled.
- Clk.IsEnabled: returns the truth of `bcm63xx_clk_is_enabled`, not the masked register value it returns.
- printk, pr_warn and the /proc/cpuinfo text are left out.

## Findings

| source | as written | input that shows it | evidently intended | confidence | as-written member | corrected member |
|---|---|---|---|---|---|---|
| target/linux/brcm63xx/files/drivers/clk/clk-bcm63xx.c:142-144 | `WARN_ON(gate_bit_dt > 32)` accepts a gate bit of 32 and stores it, but CKCTL has bits 0..31 only, and `BIT(32)` is undefined in C | a node with `brcm,gate-bit = <32>` | only bits 0..31 are valid gate bits; 32 is rejected and the clock stays ungated | not executed | Clk.GateBit32IsOutsideRegister | Clk.ClockInitCorrected |
| target/linux/brcm63xx/files/drivers/clk/clk-bcm63xx.c:226-227 | "brcm,bcm6368-enetsw-clock" is bound to the generic switch init, so `bcm6368_enetsw_clock_init` and its reset are never used | a node compatible with "brcm,bcm6368-enetsw-clock" | the 6368 entry uses `bcm6368_enetsw_clock_init`, which enables enetsw-sar and enetsw-usb around the switch reset | not executed | Clk.Bcm6368EnetswResetUnreachable | Clk.Bcm6368EnetswResetBracketed |
| target/linux/brcm63xx/files/arch/mips/bcm63xx/dev-flash.c:121-140 | the 6368 case has no `break` and falls into `default: return -EINVAL` after setting the flash type | a 6368 whose boot-select strap reads NAND, serial or parallel | return 0 once the type is known; the caller ignores the code, so the effect is limited to the value returned | not executed | DevFlash.Bcm6368DetectionReportsFailure | DevFlash.Detect |

=== FILE: board.dfy ===
/** The BCM963xx board layer: finding the board descriptor by name,
    checking it against the CPU, the GPIO pin multiplexing it selects,
    and the rules board_register_devices applies while registering the
    board's devices. */
module Board {
  import opened Kernel
  import opened Bytes
  import Nvram
  import BoardId
  import Rt2x00Fixup

  const BOARD_NAME_LEN: nat := 16
  /** Entries of the caldata array of a board descriptor. */
  const MAX_CALDATA: nat := 2

  /** struct bcm63xx_caldata */
  datatype Caldata = Caldata(vendor: nat, slot: nat, caldataOffset: u32, endianCheck: bool,
                             ledPin: int, eeprom: Bytes)

  /** struct board_info, as far as the board code reads it. `leds` and
      `buttons` are the descriptor arrays, None standing for an entry
      whose name (or description) is NULL. */
  datatype BoardInfo = BoardInfo(
    name: Bytes,
    expectedCpuId: nat,
    hasUart0: bool, hasUart1: bool,
    hasEnet0: bool, hasEnet1: bool, hasEnetsw: bool,
    enet0UseInternalPhy: bool, enet1UseInternalPhy: bool,
    hasPci: bool, hasPccard: bool,
    hasOhci0: bool, hasEhci0: bool, hasUsbd: bool, numUsbhPorts: nat,
    hasDsp: bool,
    hasCaldata: nat,
    caldata: seq<Caldata>,
    leds: seq<Option<Bytes>>,
    buttons: seq<Option<Bytes>>,
    ephyResetGpio: nat, ephyResetGpioFlags: nat,
    numDevs: nat, numSpis: nat)

  /** has_caldata is a 2-bit field; the caldata array has two entries. */
  predicate WellFormed(b: BoardInfo) {
    |b.name| == BOARD_NAME_LEN && b.hasCaldata <= MAX_CALDATA && |b.caldata| == MAX_CALDATA
  }

  /** The static `board` before a descriptor is copied in: all zero. */
  function NoBoard(): (b: BoardInfo)
    ensures WellFormed(b) && At(b.name, 0) == NUL
  {
    var nc := Caldata(0, 0, 0, false, 0, []);
    BoardInfo(seq(BOARD_NAME_LEN, _ => NUL), 0, false, false, false, false, false, false, false,
              false, false, false, false, false, 0, false, 0, [nc, nc], [], [], 0, 0, 0, 0)
  }

  // ---------------------------------------------------------------------
  // Board lookup and board_setup

  /** Index of the first table entry whose name matches in its first 16
      bytes. */
  function FindBoard(boards: seq<BoardInfo>, name: Bytes, from: nat): (r: Option<nat>)
    ensures r.Some? ==>
      && from <= r.value < |boards|
      && StrnEq(name, boards[r.value].name, BOARD_NAME_LEN)
      && forall j :: from <= j < r.value ==> !StrnEq(name, boards[j].name, BOARD_NAME_LEN)
    ensures r.None? ==> forall j :: from <= j < |boards| ==> !StrnEq(name, boards[j].name, BOARD_NAME_LEN)
    decreases |boards| - from
  {
    if from >= |boards| then None
    else if StrnEq(name, boards[from].name, BOARD_NAME_LEN) then Some(from)
    else FindBoard(boards, name, from + 1)
  }

  /** The lookup loop of board_prom_init: the first matching descriptor
      is copied into `board`; with no match it stays all zero. */
  function LookupBoard(boards: seq<BoardInfo>, name: Bytes): (b: BoardInfo)
    ensures (exists i :: 0 <= i < |boards| && StrnEq(name, boards[i].name, BOARD_NAME_LEN)) ==>
      b in boards && StrnEq(name, b.name, BOARD_NAME_LEN)
    ensures (exists i :: 0 <= i < |boards| && StrnEq(name, boards[i].name, BOARD_NAME_LEN)) ==>
      exists i :: 0 <= i < |boards| && b == boards[i] && StrnEq(name, boards[i].name, BOARD_NAME_LEN)
                  && forall j :: 0 <= j < i ==> !StrnEq(name, boards[j].name, BOARD_NAME_LEN)
    ensures (forall i :: 0 <= i < |boards| ==> !StrnEq(name, boards[i].name, BOARD_NAME_LEN)) ==>
      b == NoBoard()
  {
    match FindBoard(boards, name, 0)
    case Some(i) => boards[i]
    case None => NoBoard()
  }

  /** Every table entry carries a name of its own. */
  predicate NamedTable(boards: seq<BoardInfo>) {
    forall i :: 0 <= i < |boards| ==> WellFormed(boards[i]) && At(boards[i].name, 0) != NUL
  }

  /** The outcome of board_setup. */
  datatype SetupOutcome = SetupOk | PanicUnknownBoard | PanicUnexpectedCpu

  /** board_setup: panics when no board was identified, then when the
      CPU is not the one the board expects. */
  function BoardSetup(b: BoardInfo, cpu: nat): (r: SetupOutcome)
    ensures r == SetupOk <==> At(b.name, 0) != NUL && cpu == b.expectedCpuId
    ensures r == PanicUnknownBoard <==> At(b.name, 0) == NUL
  {
    if At(b.name, 0) == NUL then PanicUnknownBoard
    else if cpu != b.expectedCpuId then PanicUnexpectedCpu
    else SetupOk
  }

  /** With a table of named boards, setup succeeds exactly when some
      entry matches the name and the first such entry expects this CPU. */
  lemma SetupAfterLookup(boards: seq<BoardInfo>, name: Bytes, cpu: nat)
    requires NamedTable(boards)
    ensures var r := BoardSetup(LookupBoard(boards, name), cpu);
      var i := FindBoard(boards, name, 0);
      && (r == PanicUnknownBoard <==> forall j :: 0 <= j < |boards| ==> !StrnEq(name, boards[j].name, BOARD_NAME_LEN))
      && (r == SetupOk <==> i.Some? && boards[i.value].expectedCpuId == cpu)
  {
    var i := FindBoard(boards, name, 0);
    if i.None? {
      assert LookupBoard(boards, name) == NoBoard();
    }
  }

  // ---------------------------------------------------------------------
  // GPIO pin multiplexing (board_prom_init)

  /** The GPIO_MODE bits board_prom_init may set. */
  datatype GpioModeBit =
    | G2Pci6348 | G1MiiPccard6348 | G3ExtMii6348 | G0ExtMii6348
    | PciReq1_6368 | PciGnt1_6368 | PciIntb6368 | PciReq0_6368 | PciGnt0_6368
    | PcmciaCd1_6368 | PcmciaCd2_6368 | PcmciaVs1_6368 | PcmciaVs2_6368
    | Enet1MiiClkInv6358

  const PCI_6368: set<GpioModeBit> := {PciReq1_6368, PciGnt1_6368, PciIntb6368, PciReq0_6368, PciGnt0_6368}
  const PCMCIA_6368: set<GpioModeBit> := {PcmciaCd1_6368, PcmciaCd2_6368, PcmciaVs1_6368, PcmciaVs2_6368}
  const EXT_MII_6348: set<GpioModeBit> := {G3ExtMii6348, G0ExtMii6348}

  /** The CPU a GPIO mode bit belongs to. */
  function BitCpu(g: GpioModeBit): nat {
    match g
    case G2Pci6348 => BCM6348_CPU_ID
    case G1MiiPccard6348 => BCM6348_CPU_ID
    case G3ExtMii6348 => BCM6348_CPU_ID
    case G0ExtMii6348 => BCM6348_CPU_ID
    case Enet1MiiClkInv6358 => BCM6358_CPU_ID
    case _ => BCM6368_CPU_ID
  }

  /** All pins of each of board_prom_init's conditions, over every CPU. */
  const PCI_PINS: set<GpioModeBit> := {G2Pci6348} + PCI_6368
  const PCCARD_PINS: set<GpioModeBit> := {G1MiiPccard6348} + PCMCIA_6368
  const MII_PINS: set<GpioModeBit> := EXT_MII_6348 + {Enet1MiiClkInv6358}

  /** The PCI pins, set when `on` (CONFIG_PCI and has_pci). */
  function PciBits(cpu: nat, on: bool): (s: set<GpioModeBit>)
    ensures s <= PCI_PINS && forall g :: g in s ==> BitCpu(g) == cpu
    ensures s != {} ==> on
    ensures G2Pci6348 in s <==> on && cpu == BCM6348_CPU_ID
    ensures forall g :: g in PCI_6368 ==> (g in s <==> on && cpu == BCM6368_CPU_ID)
  {
    if !on then {}
    else if cpu == BCM6348_CPU_ID then {G2Pci6348}
    else if cpu == BCM6368_CPU_ID then PCI_6368
    else {}
  }

  /** The PC card pins, set when the board has a PC card slot. */
  function PccardBits(cpu: nat, on: bool): (s: set<GpioModeBit>)
    ensures s <= PCCARD_PINS && forall g :: g in s ==> BitCpu(g) == cpu
    ensures s != {} ==> on
    ensures G1MiiPccard6348 in s <==> on && cpu == BCM6348_CPU_ID
    ensures forall g :: g in PCMCIA_6368 ==> (g in s <==> on && cpu == BCM6368_CPU_ID)
  {
    if !on then {}
    else if cpu == BCM6348_CPU_ID then {G1MiiPccard6348}
    else if cpu == BCM6368_CPU_ID then PCMCIA_6368
    else {}
  }

  /** The external-MII pins; `ext0` and `ext1` say that enet0 and enet1
      are present and use an external PHY. */
  function MiiBits(cpu: nat, ext0: bool, ext1: bool): (s: set<GpioModeBit>)
    ensures s <= MII_PINS && forall g :: g in s ==> BitCpu(g) == cpu
    ensures s != {} ==> ext0 || ext1
    ensures forall g :: g in EXT_MII_6348 ==> (g in s <==> cpu == BCM6348_CPU_ID && (ext0 || ext1))
    ensures Enet1MiiClkInv6358 in s <==> cpu == BCM6358_CPU_ID && ext1
  {
    if cpu == BCM6348_CPU_ID && (ext0 || ext1) then EXT_MII_6348
    else if cpu == BCM6358_CPU_ID && ext1 then {Enet1MiiClkInv6358}
    else {}
  }

  /** The value written to GPIO_MODE_REG; `configPci` is CONFIG_PCI. */
  function GpioMode(b: BoardInfo, cpu: nat, configPci: bool): (m: set<GpioModeBit>)
    ensures forall g :: g in m ==> BitCpu(g) == cpu
    ensures G2Pci6348 in m <==> configPci && b.hasPci && cpu == BCM6348_CPU_ID
    ensures forall g :: g in PCI_6368 ==> (g in m <==> configPci && b.hasPci && cpu == BCM6368_CPU_ID)
    ensures G1MiiPccard6348 in m <==> b.hasPccard && cpu == BCM6348_CPU_ID
    ensures forall g :: g in PCMCIA_6368 ==> (g in m <==> b.hasPccard && cpu == BCM6368_CPU_ID)
    ensures forall g :: g in EXT_MII_6348 ==> (g in m <==>
      cpu == BCM6348_CPU_ID && ((b.hasEnet0 && !b.enet0UseInternalPhy) || (b.hasEnet1 && !b.enet1UseInternalPhy)))
    ensures Enet1MiiClkInv6358 in m <==> cpu == BCM6358_CPU_ID && b.hasEnet1 && !b.enet1UseInternalPhy
  {
    var pci := PciBits(cpu, configPci && b.hasPci);
    var pccard := PccardBits(cpu, b.hasPccard);
    var mii := MiiBits(cpu, b.hasEnet0 && !b.enet0UseInternalPhy, b.hasEnet1 && !b.enet1UseInternalPhy);
    PinsOfUnion(pci, pccard, mii);
    pci + pccard + mii
  }

  /** The pins of each condition read back out of the value written. */
  lemma PinsOfUnion(pci: set<GpioModeBit>, pccard: set<GpioModeBit>, mii: set<GpioModeBit>)
    requires pci <= PCI_PINS && pccard <= PCCARD_PINS && mii <= MII_PINS
    ensures var m := pci + pccard + mii;
      && (forall g :: g in PCI_PINS ==> (g in m <==> g in pci))
      && (forall g :: g in PCCARD_PINS ==> (g in m <==> g in pccard))
      && (forall g :: g in MII_PINS ==> (g in m <==> g in mii))
  {
  }

  // ---------------------------------------------------------------------
  // board_prom_init

  /** KSEG1ADDR: the uncached alias of a physical address. */
  function Kseg1(a: u32): (r: nat)
    ensures 0xa000_0000 <= r < 0xc000_0000
    ensures r % 0x2000_0000 == a % 0x2000_0000
  {
    a % 0x2000_0000 + 0xa000_0000
  }

  /** The BT Voyager 2500V keeps two 4 MB firmware banks: booting from
      bank 1 at 0xbf800000, it switches to bank 0 when bank 0's NVRAM
      names the board. */
  const V2500V_BANK1: nat := 0xbf80_0000
  const V2500V_BANK0: nat := 0xbfc0_0000
  /** Physical address the 6318, 6328, 6362 and 63268 boot from. */
  const FIXED_BOOT_BASE: u32 := 0x1800_0000

  /** CPUs without an MPI, which boot from a fixed address. */
  predicate FixedBootCpu(cpu: nat) {
    cpu == BCM6318_CPU_ID || cpu == BCM6328_CPU_ID || cpu == BCM6362_CPU_ID || cpu == BCM63268_CPU_ID
  }

  /** The physical boot base: fixed on CPUs without an MPI, else the CS0
      base register, already masked with MPI_CSBASE_BASE_MASK. */
  function BootBase(cpu: nat, cs0Base: u32): (base: u32)
    ensures FixedBootCpu(cpu) ==> base == FIXED_BOOT_BASE
    ensures !FixedBootCpu(cpu) ==> base == cs0Base
  {
    if FixedBootCpu(cpu) then FIXED_BOOT_BASE else cs0Base
  }

  /** The boot address, given the NVRAM name found in bank 0. Only an
      address of 0xbf800000 together with the name "V2500V_BB" moves
      the boot address, and then to bank 0. */
  function BootAddress(cpu: nat, cs0Base: u32, bank0Name: Bytes): (a: nat)
    ensures a == Kseg1(BootBase(cpu, cs0Base)) || a == V2500V_BANK0
    ensures a != Kseg1(BootBase(cpu, cs0Base)) <==>
      Kseg1(BootBase(cpu, cs0Base)) == V2500V_BANK1 && StrEq(bank0Name, Lit("V2500V_BB"))
    ensures FixedBootCpu(cpu) ==> a == 0xb800_0000
  {
    var a := Kseg1(BootBase(cpu, cs0Base));
    if a == V2500V_BANK1 && StrEq(bank0Name, Lit("V2500V_BB")) then V2500V_BANK0 else a
  }

  /** struct bcm_hcs: offset and length of the image file name. */
  const HCS_FILENAME_OFFSET: nat := 20
  const HCS_FILENAME_LEN: nat := 64

  /** What board_prom_init leaves behind. `gpioMode` is None when no
      board was identified, since the code returns before writing it;
      `usbPinmux6318` is the GPIO13 power-on pin-mux change. */
  datatype PromInit = PromInit(
    bootAddress: nat,
    cfeVersion: Bytes,
    nvram: Nvram.NvramState,
    fixup: Option<BoardId.Fixup>,
    boardName: Bytes,
    board: BoardInfo,
    pinmux: Pinmux)

  /** The pin multiplexing board_prom_init sets up once a board is known. */
  datatype Pinmux = Unconfigured | Configured(gpioMode: set<GpioModeBit>, pciEnabled: bool, usbPinmux6318: bool)

  /** The tail of board_prom_init: nothing when the lookup found no
      board, else the GPIO mode, bcm63xx_pci_enabled and the 6318 USB
      power pin. */
  function SetupPinmux(board: BoardInfo, cpu: nat, configPci: bool, configUsb: bool): (p: Pinmux)
    ensures p.Unconfigured? <==> At(board.name, 0) == NUL
    ensures p.Configured? ==> p.gpioMode == GpioMode(board, cpu, configPci)
    ensures p.Configured? ==> (p.pciEnabled <==> configPci && board.hasPci)
    ensures p.Configured? ==>
      (p.usbPinmux6318 <==> configUsb && cpu == BCM6318_CPU_ID && (board.hasEhci0 || board.hasOhci0))
  {
    if At(board.name, 0) == NUL then Unconfigured
    else Configured(GpioMode(board, cpu, configPci), configPci && board.hasPci,
                    configUsb && cpu == BCM6318_CPU_ID && (board.hasEhci0 || board.hasOhci0))
  }

  /** The NVRAM of the flash mapped at an address. */
  function NvramAt(cpu: nat, flash: nat -> Bytes, addr: nat, crc: Bytes -> u32): (s: Nvram.NvramState)
    ensures |s.nvram.name| == BoardId.BOARDID_LEN
  {
    Nvram.NvramInit(cpu, Slice(flash(addr), BoardId.NVRAM_OFFSET, Nvram.NVRAM_SPACE), crc)
  }

  /** The board name and NVRAM after identification: a 3368 takes the
      image file name from its HCS header; other CPUs take the NVRAM name,
      passed through boardid_fixup when a CFE was found. */
  function IdentifyBoard(cpu: nat, image: Bytes, cfe: Bytes, nv: Nvram.NvramState)
    : (r: (Option<BoardId.Fixup>, Nvram.NvramState, Bytes))
    requires |nv.nvram.name| == BoardId.BOARDID_LEN
    ensures cpu == BCM3368_CPU_ID ==>
      r.0.None? && r.1 == nv && r.2 == Slice(image, HCS_FILENAME_OFFSET, HCS_FILENAME_LEN)
    ensures cpu != BCM3368_CPU_ID ==>
      && (r.0.Some? <==> cfe != Lit("unknown"))
      && r.2 == r.1.nvram.name
      && r.1 == nv.(nvram := nv.nvram.(name := r.2))
      && (r.0.Some? ==> r.0.value == BoardId.BoardIdFixup(cpu, nv.nvram.name, image) && r.2 == r.0.value.name)
      && (r.0.None? ==> r.2 == nv.nvram.name)
  {
    if cpu == BCM3368_CPU_ID then (None, nv, Slice(image, HCS_FILENAME_OFFSET, HCS_FILENAME_LEN))
    else if cfe != Lit("unknown") then
      var f := BoardId.BoardIdFixup(cpu, nv.nvram.name, image);
      (Some(f), nv.(nvram := nv.nvram.(name := f.name)), f.name)
    else (None, nv, nv.nvram.name)
  }

  /** board_prom_init. `flash(a)` is the flash contents mapped from
      address a on, `cs0Base` the masked CS0 base register, `crc` stands
      for crc32_le, and `configPci`/`configUsb` for CONFIG_PCI and
      CONFIG_USB. */
  function BoardPromInit(cpu: nat, cs0Base: u32, flash: nat -> Bytes, crc: Bytes -> u32,
                         boards: seq<BoardInfo>, configPci: bool, configUsb: bool): (r: PromInit)
    ensures r.bootAddress == BootAddress(cpu, cs0Base, NvramAt(cpu, flash, V2500V_BANK0, crc).nvram.name)
    ensures r.cfeVersion == BoardId.CfeVersion(flash(r.bootAddress))
    ensures r.nvram.nvram.psiSize == NvramAt(cpu, flash, r.bootAddress, crc).nvram.psiSize
    ensures (r.fixup, r.nvram, r.boardName)
         == IdentifyBoard(cpu, flash(r.bootAddress), r.cfeVersion, NvramAt(cpu, flash, r.bootAddress, crc))
    ensures r.board == LookupBoard(boards, r.boardName)
    ensures r.pinmux == SetupPinmux(r.board, cpu, configPci, configUsb)
  {
    var bank0 := NvramAt(cpu, flash, V2500V_BANK0, crc);
    var boot := BootAddress(cpu, cs0Base, bank0.nvram.name);
    var image := flash(boot);
    var cfe := BoardId.CfeVersion(image);
    var nv := NvramAt(cpu, flash, boot, crc);
    var id := IdentifyBoard(cpu, image, cfe, nv);
    var board := LookupBoard(boards, id.2);
    PromInit(boot, cfe, id.1, id.0, id.2, board, SetupPinmux(board, cpu, configPci, configUsb))
  }

  /** With a table of named boards, the pins are configured exactly
      when the identified name matches an entry, and then for the first
      matching entry. */
  lemma PinmuxFollowsLookup(cpu: nat, cs0Base: u32, flash: nat -> Bytes, crc: Bytes -> u32,
                            boards: seq<BoardInfo>, configPci: bool, configUsb: bool)
    requires NamedTable(boards)
    ensures var r := BoardPromInit(cpu, cs0Base, flash, crc, boards, configPci, configUsb);
      var i := FindBoard(boards, r.boardName, 0);
      && (r.pinmux.Configured? <==> i.Some?)
      && (i.Some? ==> r.board == boards[i.value]
                      && r.pinmux.gpioMode == GpioMode(boards[i.value], cpu, configPci))
  {
  }

  /** Without a CFE the NVRAM name is looked up unchanged. */
  lemma NoCfeKeepsNvramName(cpu: nat, cs0Base: u32, flash: nat -> Bytes, crc: Bytes -> u32,
                            boards: seq<BoardInfo>, configPci: bool, configUsb: bool)
    requires cpu != BCM3368_CPU_ID
    requires var r := BoardPromInit(cpu, cs0Base, flash, crc, boards, configPci, configUsb);
      !StartsWith(Slice(flash(r.bootAddress), BoardId.CFE_VERSION_OFFSET, 4), Lit("cfe-"))
    ensures var r := BoardPromInit(cpu, cs0Base, flash, crc, boards, configPci, configUsb);
      r.fixup.None? && r.boardName == NvramAt(cpu, flash, r.bootAddress, crc).nvram.name
  {
  }

  // ---------------------------------------------------------------------
  // board_register_devices

  /** The number of USB host ports handed to the EHCI and OHCI drivers:
      none without a host controller; otherwise the board's count, forced
      to 1 when it is 0, or when it exceeds 1 on a board that also has a
      USB device port. */
  function UsbhPorts(b: BoardInfo): (n: nat)
    ensures !(b.hasOhci0 || b.hasEhci0) ==> n == 0
    ensures (b.hasOhci0 || b.hasEhci0) ==> n >= 1 && (n <= b.numUsbhPorts || n == 1)
    ensures (b.hasOhci0 || b.hasEhci0) && b.hasUsbd ==> n == 1
    ensures (b.hasOhci0 || b.hasEhci0) && !b.hasUsbd && b.numUsbhPorts > 0 ==> n == b.numUsbhPorts
  {
    if !(b.hasOhci0 || b.hasEhci0) then 0
    else if b.numUsbhPorts == 0 || (b.numUsbhPorts > 1 && b.hasUsbd) then 1
    else b.numUsbhPorts
  }

  /** The count loop over LEDs or buttons: the length of the leading run of
      entries with a name, bounded by the array size. */
  function CountNamed(entries: seq<Option<Bytes>>): (n: nat)
    ensures n <= |entries|
    ensures forall k :: 0 <= k < n ==> entries[k].Some?
    ensures n < |entries| ==> entries[n].None?
  {
    if |entries| == 0 || entries[0].None? then 0 else 1 + CountNamed(entries[1..])
  }

  /** Entries after the first unnamed one are never counted. */
  lemma {:induction false} CountStopsAtFirstGap(entries: seq<Option<Bytes>>, more: seq<Option<Bytes>>)
    ensures CountNamed(entries + [None] + more) == CountNamed(entries)
    decreases |entries|
  {
    if |entries| == 0 {
      assert (entries + [None] + more)[0] == None;
    } else {
      assert (entries + [None] + more)[1..] == entries[1..] + [None] + more;
      if entries[0].Some? {
        CountStopsAtFirstGap(entries[1..], more);
      }
    }
  }

  /** struct ssb_sprom as far as the board fills it. */
  datatype SsbSprom = SsbSprom(
    revision: nat, boardRev: nat, countryCode: nat, antAvailableBg: nat,
    pa0b0: nat, pa0b1: nat, pa0b2: nat, pa1b0: nat, pa1b1: nat, pa1b2: nat,
    gpio0: nat, gpio1: nat, gpio2: nat, gpio3: nat,
    maxpwrBg: nat, itssiBg: nat, boardflagsLo: nat, boardflagsHi: nat,
    il0mac: Nvram.Mac, et0mac: Nvram.Mac, et1mac: Nvram.Mac)

  /** bcm63xx_sprom: the fixed fallback SPROM for a BCM4318 on the PCI bus. */
  const BCM63XX_SPROM: SsbSprom := SsbSprom(
    0x02, 0x17, 0x0, 0x3,
    0x15ae, 0xfa85, 0xfe8d, 0xffff, 0xffff, 0xffff,
    0xff, 0xff, 0xff, 0xff,
    0x004c, 0x00, 0x2848, 0x0000,
    Nvram.ZERO_MAC, Nvram.ZERO_MAC, Nvram.ZERO_MAC)

  datatype SsbBusType = SsbBusPci | SsbBusOther

  /** bcm63xx_get_fallback_sprom: a copy of the board SPROM for a PCI
      bus, -EINVAL and `out` untouched for any other bus type. */
  function GetFallbackSprom(bus: SsbBusType, sprom: SsbSprom, out: SsbSprom): (r: (int, SsbSprom))
    ensures r.0 == 0 <==> bus == SsbBusPci
    ensures r.0 != 0 ==> r.0 == -EINVAL && r.1 == out
    ensures r.0 == 0 ==> r.1 == sprom
  {
    if bus == SsbBusPci then (0, sprom) else (-EINVAL, out)
  }

  // ---------------------------------------------------------------------
  // MAC addresses handed out during device registration

  /** The MAC pool as board_register_devices draws from it: where it
      stood before the first request, where it stands now, and the
      addresses it handed out, in order. */
  datatype Alloc = Alloc(start: Nvram.MacPool, pool: Nvram.MacPool, issued: seq<Nvram.Mac>)

  /** Address k handed out is the start address plus k, under the
      start's OUI, and the pool moved on by exactly the number issued. */
  predicate Valid(a: Alloc) {
    && a.pool.base == a.start.base && a.pool.count == a.start.count
    && a.pool.used == a.start.used + |a.issued|
    && forall k :: 0 <= k < |a.issued| ==>
         a.issued[k][..3] == a.start.base[..3]
         && Nvram.Low24(a.issued[k]) == Nvram.Low24(a.start.base) + a.start.used + k
  }

  /** The addresses handed out are pairwise distinct. */
  lemma ValidIssuesDistinct(a: Alloc)
    requires Valid(a)
    ensures forall i, j :: 0 <= i < j < |a.issued| ==> a.issued[i] != a.issued[j]
  {
    forall i, j | 0 <= i < j < |a.issued|
      ensures a.issued[i] != a.issued[j]
    {
      assert Nvram.Low24(a.issued[i]) != Nvram.Low24(a.issued[j]);
    }
  }

  /** One bcm63xx_nvram_get_mac_address call into `buf`. */
  function Draw(a: Alloc, buf: Nvram.Mac): (r: (Nvram.MacFetch, Alloc))
    requires Valid(a)
    ensures Valid(r.1) && r.1.start == a.start
    ensures r.0.status == 0 ==> r.1.issued == a.issued + [r.0.mac]
    ensures r.0.status != 0 ==> r.1 == a
    ensures r.0.status == 0 <==> a.pool.used < a.pool.count && Nvram.Low24(a.pool.base) + a.pool.used <= Nvram.MAX24
  {
    var f := Nvram.FetchMacAddress(a.pool, buf);
    (f, if f.status == 0 then Alloc(a.start, f.pool, a.issued + [f.mac]) else a)
  }

  /** An Ethernet device is registered only when its address was
      obtained. */
  function EnetMac(has: bool, a: Alloc, buf: Nvram.Mac): (r: (Option<Nvram.Mac>, Alloc))
    requires Valid(a)
    ensures Valid(r.1) && r.1.start == a.start
    ensures r.0.None? ==> r.1 == a
    ensures r.0.Some? ==> has && r.1.issued == a.issued + [r.0.value]
    ensures has && a.pool.used < a.pool.count && Nvram.Low24(a.pool.base) + a.pool.used <= Nvram.MAX24
      ==> r.0.Some?
  {
    if !has then (None, a)
    else
      var d := Draw(a, buf);
      (if d.0.status == 0 then Some(d.0.mac) else None, d.1)
  }

  /** The SSB fallback SPROM: a board without caldata takes a MAC for
      il0mac, copies it into et0mac and et1mac, and registers the SPROM
      only when the address was obtained. The result is whether it was
      registered and the SPROM as left behind. */
  function SsbFallback(configSsb: bool, b: BoardInfo, a: Alloc, sprom: SsbSprom): (r: (bool, SsbSprom, Alloc))
    requires Valid(a)
    ensures Valid(r.2) && r.2.start == a.start
    ensures r.0 ==>
      && configSsb && b.hasCaldata == 0 && r.2.issued == a.issued + [r.1.il0mac]
      && r.1 == sprom.(il0mac := r.1.il0mac, et0mac := r.1.il0mac, et1mac := r.1.il0mac)
    ensures !r.0 ==> r.2 == a && r.1.et0mac == sprom.et0mac && r.1.et1mac == sprom.et1mac
    ensures !(configSsb && b.hasCaldata == 0) ==> !r.0 && r.1 == sprom
  {
    if configSsb && b.hasCaldata == 0 then
      var d := Draw(a, sprom.il0mac);
      if d.0.status == 0 then (true, sprom.(il0mac := d.0.mac, et0mac := d.0.mac, et1mac := d.0.mac), d.1)
      else (false, sprom.(il0mac := d.0.mac), d.1)
    else (false, sprom, a)
  }

  /** A wireless calibration fixup registered for an Atheros card. */
  datatype Ath9kFixup = Ath9kFixup(slot: nat, offset: u32, endianCheck: bool, ledPin: int)

  function AthFixupOf(c: Caldata): Ath9kFixup {
    Ath9kFixup(c.slot, c.caldataOffset, c.endianCheck, c.ledPin)
  }

  /** One pci_enable_rt2x00_fixup call, recording the address of an
      entry that was registered. */
  function Rt2x00Step(t: Rt2x00Fixup.FixupTable, a: Alloc, c: Caldata): (r: (Rt2x00Fixup.FixupTable, Alloc))
    requires Rt2x00Fixup.WellFormed(t) && Valid(a)
    ensures Rt2x00Fixup.WellFormed(r.0) && Valid(r.1) && r.1.start == a.start
    ensures r.0.num == t.num || r.0.num == t.num + 1
    ensures r.0.num == t.num + 1 ==>
      && r.1.issued == a.issued + [r.0.fixups[t.num].mac] && r.0.fixups[t.num].slot == c.slot
      && r.0.fixups[t.num].pdata.eepromFileName == Some(c.eeprom)
    ensures r.0.num == t.num ==> r.1 == a
    ensures (t.num < Rt2x00Fixup.MAX_FIXUPS && a.pool.used < a.pool.count
             && Nvram.Low24(a.pool.base) + a.pool.used <= Nvram.MAX24) ==> r.0.num == t.num + 1
    ensures forall i :: 0 <= i < t.num ==> r.0.fixups[i] == t.fixups[i]
  {
    var e := Rt2x00Fixup.EnableFixup(t, a.pool, c.slot, c.eeprom);
    if e.table.num == t.num + 1 then
      (e.table, Alloc(a.start, e.pool, a.issued + [e.table.fixups[t.num].mac]))
    else (e.table, a)
  }

  /** The caldata loop over the first n entries: Atheros entries become
      ath9k fixups, Ralink entries rt2x00 fixups (which draw from the MAC
      pool), other vendors are skipped. */
  function CaldataFixups(cal: seq<Caldata>, n: nat, rt: Rt2x00Fixup.FixupTable, a: Alloc)
    : (r: (seq<Ath9kFixup>, Rt2x00Fixup.FixupTable, Alloc))
    requires n <= |cal| && Rt2x00Fixup.WellFormed(rt) && Valid(a)
    ensures Rt2x00Fixup.WellFormed(r.1) && Valid(r.2) && r.2.start == a.start
    ensures rt.num <= r.1.num && |r.0| + (r.1.num - rt.num) <= n
    ensures forall k :: 0 <= k < |r.0| ==> r.0[k] in AtherosFixups(cal, n)
    ensures forall i :: 0 <= i < n && cal[i].vendor == PCI_VENDOR_ID_ATHEROS ==> AthFixupOf(cal[i]) in r.0
    ensures forall i :: 0 <= i < rt.num ==> r.1.fixups[i] == rt.fixups[i]
    ensures a.issued <= r.2.issued
    ensures forall i :: rt.num <= i < r.1.num ==> r.1.fixups[i].mac in r.2.issued[|a.issued|..]
    ensures r.0 == AtherosEntries(cal, n)
    decreases n
  {
    if n == 0 then ([], rt, a)
    else
      var prev := CaldataFixups(cal, n - 1, rt, a);
      var c := cal[n - 1];
      assert AtherosFixups(cal, n - 1) <= AtherosFixups(cal, n);
      if c.vendor == PCI_VENDOR_ID_ATHEROS then
        (prev.0 + [AthFixupOf(c)], prev.1, prev.2)
      else if c.vendor == PCI_VENDOR_ID_RALINK then
        var s := Rt2x00Step(prev.1, prev.2, c);
        RalinkStepKeepsIssued(rt, a, prev.1, prev.2, s.0, s.1);
        (prev.0, s.0, s.1)
      else prev
  }

  /** The Ralink half of the caldata loop is the reference registration
      of the Ralink entries, in order; the Atheros and other entries leave
      the rt2x00 table and the pool alone. */
  lemma {:induction false} CaldataRalinkDispatch(cal: seq<Caldata>, n: nat, rt: Rt2x00Fixup.FixupTable, a: Alloc)
    requires n <= |cal| && Rt2x00Fixup.WellFormed(rt) && Valid(a)
    ensures var r := CaldataFixups(cal, n, rt, a);
      (r.1, r.2) == RegisterRalink(rt, a, RalinkEntries(cal, n))
    decreases n
  {
    if n == 0 {
      CaldataNoTurn(cal, rt, a);
    } else {
      CaldataRalinkDispatch(cal, n - 1, rt, a);
      var es := RalinkEntries(cal, n - 1);
      CaldataTurn(cal, n, rt, a, CaldataFixups(cal, n - 1, rt, a), RegisterRalink(rt, a, es), es);
    }
  }

  /** Before the first turn, nothing is registered. */
  lemma CaldataNoTurn(cal: seq<Caldata>, rt: Rt2x00Fixup.FixupTable, a: Alloc)
    requires Rt2x00Fixup.WellFormed(rt) && Valid(a)
    ensures var r := CaldataFixups(cal, 0, rt, a);
      (r.1, r.2) == RegisterRalink(rt, a, RalinkEntries(cal, 0))
  {
    assert RalinkEntries(cal, 0) == [];
  }

  /** The inductive step of CaldataRalinkDispatch, with the previous turn's
      results passed in as values. */
  lemma CaldataTurn(cal: seq<Caldata>, n: nat, rt: Rt2x00Fixup.FixupTable, a: Alloc,
                    prev: (seq<Ath9kFixup>, Rt2x00Fixup.FixupTable, Alloc),
                    p: (Rt2x00Fixup.FixupTable, Alloc), es: seq<Caldata>)
    requires 0 < n <= |cal| && Rt2x00Fixup.WellFormed(rt) && Valid(a)
    requires prev == CaldataFixups(cal, n - 1, rt, a)
    requires es == RalinkEntries(cal, n - 1) && p == RegisterRalink(rt, a, es)
    requires (prev.1, prev.2) == p
    ensures var r := CaldataFixups(cal, n, rt, a);
      (r.1, r.2) == RegisterRalink(rt, a, RalinkEntries(cal, n))
  {
    CaldataStep(cal, n, rt, a);
    if cal[n - 1].vendor == PCI_VENDOR_ID_RALINK {
      RegisterRalinkAppend(rt, a, es, cal[n - 1]);
    }
  }

  /** One turn of the caldata loop, seen from the rt2x00 table and the
      pool: a Ralink entry takes one registration step, any other entry
      leaves both alone. */
  lemma CaldataStep(cal: seq<Caldata>, n: nat, rt: Rt2x00Fixup.FixupTable, a: Alloc)
    requires 0 < n <= |cal| && Rt2x00Fixup.WellFormed(rt) && Valid(a)
    ensures var prev := CaldataFixups(cal, n - 1, rt, a);
      var r := CaldataFixups(cal, n, rt, a);
      var c := cal[n - 1];
      && (c.vendor == PCI_VENDOR_ID_RALINK ==>
            (r.1, r.2) == Rt2x00Step(prev.1, prev.2, c)
            && RalinkEntries(cal, n) == RalinkEntries(cal, n - 1) + [c])
      && (c.vendor != PCI_VENDOR_ID_RALINK ==>
            (r.1, r.2) == (prev.1, prev.2) && RalinkEntries(cal, n) == RalinkEntries(cal, n - 1))
  {
  }

  /** With room in the rt2x00 table and in the pool for all of them, the
      caldata loop registers every Ralink entry among the first n, in
      their order in flash. */
  lemma CaldataRegistersEveryRalink(cal: seq<Caldata>, n: nat, rt: Rt2x00Fixup.FixupTable, a: Alloc)
    requires n <= |cal| && Rt2x00Fixup.WellFormed(rt) && Valid(a)
    requires var es := RalinkEntries(cal, n);
      && rt.num + |es| <= Rt2x00Fixup.MAX_FIXUPS
      && a.pool.used + |es| <= a.pool.count
      && Nvram.Low24(a.pool.base) + a.pool.used + |es| <= Nvram.MAX24 + 1
    ensures var es := RalinkEntries(cal, n);
      var r := CaldataFixups(cal, n, rt, a);
      && r.1.num == rt.num + |es|
      && forall k :: 0 <= k < |es| ==>
           r.1.fixups[rt.num + k].slot == es[k].slot
           && r.1.fixups[rt.num + k].pdata.eepromFileName == Some(es[k].eeprom)
  {
    CaldataRalinkDispatch(cal, n, rt, a);
    RalinkEntriesAllRegister(rt, a, RalinkEntries(cal, n));
  }

  /** The fixup has the slot and EEPROM name of a Ralink entry among the
      first n caldata entries. */
  predicate FromRalinkCaldata(f: Rt2x00Fixup.Fixup, cal: seq<Caldata>, n: nat)
    requires n <= |cal|
  {
    exists j :: 0 <= j < n && cal[j].vendor == PCI_VENDOR_ID_RALINK
                && f.slot == cal[j].slot && f.pdata.eepromFileName == Some(cal[j].eeprom)
  }

  /** Every rt2x00 fixup the caldata loop adds belongs to a Ralink entry
      among the first n: it has that entry's slot and EEPROM name. */
  lemma CaldataRalinkProvenance(cal: seq<Caldata>, n: nat, rt: Rt2x00Fixup.FixupTable, a: Alloc)
    requires n <= |cal| && Rt2x00Fixup.WellFormed(rt) && Valid(a)
    ensures forall i :: rt.num <= i < CaldataFixups(cal, n, rt, a).1.num ==>
      FromRalinkCaldata(CaldataFixups(cal, n, rt, a).1.fixups[i], cal, n)
  {
    var es := RalinkEntries(cal, n);
    CaldataRalinkDispatch(cal, n, rt, a);
    RegisterRalinkProvenance(rt, a, es);
    var t := RegisterRalink(rt, a, es).0;
    forall i | rt.num <= i < t.num
      ensures FromRalinkCaldata(t.fixups[i], cal, n)
    {
      RalinkEntryInFlash(t.fixups[i], cal, n);
    }
  }

  /** A fixup made from one of the Ralink entries is made from a Ralink
      entry of the first n. */
  lemma RalinkEntryInFlash(f: Rt2x00Fixup.Fixup, cal: seq<Caldata>, n: nat)
    requires n <= |cal| && FromEntries(f, RalinkEntries(cal, n))
    ensures FromRalinkCaldata(f, cal, n)
  {
    var es := RalinkEntries(cal, n);
    RalinkEntriesAreTheRalinkOnes(cal, n);
    var k :| 0 <= k < |es| && f.slot == es[k].slot && f.pdata.eepromFileName == Some(es[k].eeprom);
    assert es[k] in cal[..n];
    var j :| 0 <= j < n && cal[..n][j] == es[k];
    assert cal[j] == es[k];
  }

  /** The Ralink entries among the first n caldata entries, in order. */
  function RalinkEntries(cal: seq<Caldata>, n: nat): (es: seq<Caldata>)
    requires n <= |cal|
    ensures |es| <= n
    ensures forall k :: 0 <= k < |es| ==> es[k].vendor == PCI_VENDOR_ID_RALINK
    decreases n
  {
    if n == 0 then []
    else if cal[n - 1].vendor == PCI_VENDOR_ID_RALINK then RalinkEntries(cal, n - 1) + [cal[n - 1]]
    else RalinkEntries(cal, n - 1)
  }

  /** The Ralink entries are drawn from the first n entries and hold
      every Ralink entry among them. */
  lemma {:induction false} RalinkEntriesAreTheRalinkOnes(cal: seq<Caldata>, n: nat)
    requires n <= |cal|
    ensures forall k :: 0 <= k < |RalinkEntries(cal, n)| ==> RalinkEntries(cal, n)[k] in cal[..n]
    ensures forall k :: 0 <= k < n && cal[k].vendor == PCI_VENDOR_ID_RALINK ==> cal[k] in RalinkEntries(cal, n)
    decreases n
  {
    if n > 0 {
      RalinkEntriesAreTheRalinkOnes(cal, n - 1);
      var prev := RalinkEntries(cal, n - 1);
      assert cal[..n - 1] <= cal[..n];
      if cal[n - 1].vendor == PCI_VENDOR_ID_RALINK {
        var es := prev + [cal[n - 1]];
        assert RalinkEntries(cal, n) == es;
        forall k | 0 <= k < |es| ensures es[k] in cal[..n] {
          if k < |prev| {
            assert es[k] == prev[k];
          } else {
            assert es[k] == cal[..n][n - 1];
          }
        }
      }
    }
  }

  /** Reference for the Ralink half of the caldata loop: one
      pci_enable_rt2x00_fixup call per entry of `es`, in order, each
      drawing from the pool. Every registered entry carries the slot and
      EEPROM name of one of them. */
  function RegisterRalink(rt: Rt2x00Fixup.FixupTable, a: Alloc, es: seq<Caldata>)
    : (r: (Rt2x00Fixup.FixupTable, Alloc))
    requires Rt2x00Fixup.WellFormed(rt) && Valid(a)
    ensures Rt2x00Fixup.WellFormed(r.0) && Valid(r.1) && r.1.start == a.start
    ensures rt.num <= r.0.num <= rt.num + |es|
    ensures |r.1.issued| == |a.issued| + (r.0.num - rt.num)
    ensures forall i :: 0 <= i < rt.num ==> r.0.fixups[i] == rt.fixups[i]
    decreases |es|
  {
    if |es| == 0 then (rt, a)
    else
      var p := RegisterRalink(rt, a, es[..|es| - 1]);
      Rt2x00Step(p.0, p.1, es[|es| - 1])
  }

  /** The fixup carries the slot and EEPROM name of one of the entries. */
  predicate FromEntries(f: Rt2x00Fixup.Fixup, es: seq<Caldata>) {
    exists k :: 0 <= k < |es| && f.slot == es[k].slot && f.pdata.eepromFileName == Some(es[k].eeprom)
  }

  /** Every entry the reference registration adds carries the slot and
      EEPROM name of one of the listed entries. */
  lemma {:induction false} RegisterRalinkProvenance(rt: Rt2x00Fixup.FixupTable, a: Alloc, es: seq<Caldata>)
    requires Rt2x00Fixup.WellFormed(rt) && Valid(a)
    ensures forall i :: rt.num <= i < RegisterRalink(rt, a, es).0.num ==>
      FromEntries(RegisterRalink(rt, a, es).0.fixups[i], es)
    decreases |es|
  {
    if |es| > 0 {
      var init, c := es[..|es| - 1], es[|es| - 1];
      RegisterRalinkProvenance(rt, a, init);
      var p := RegisterRalink(rt, a, init);
      var s := Rt2x00Step(p.0, p.1, c);
      assert RegisterRalink(rt, a, es) == s;
      forall i | rt.num <= i < s.0.num
        ensures FromEntries(s.0.fixups[i], es)
      {
        if i < p.0.num {
          assert FromEntries(p.0.fixups[i], init);
          var k :| 0 <= k < |init| && p.0.fixups[i].slot == init[k].slot
                   && p.0.fixups[i].pdata.eepromFileName == Some(init[k].eeprom);
          assert es[k] == init[k];
        } else {
          assert es[|es| - 1] == c;
        }
      }
    }
  }

  /** Registering one more entry extends the reference by one step. */
  lemma RegisterRalinkAppend(rt: Rt2x00Fixup.FixupTable, a: Alloc, es: seq<Caldata>, c: Caldata)
    requires Rt2x00Fixup.WellFormed(rt) && Valid(a)
    ensures var p := RegisterRalink(rt, a, es);
      RegisterRalink(rt, a, es + [c]) == Rt2x00Step(p.0, p.1, c)
  {
    assert (es + [c])[..|es|] == es;
  }

  /** With room in the table and addresses left in the pool, every
      Ralink entry registers, in order: entry rt.num + k takes the slot
      and EEPROM name of es[k]. */
  lemma {:induction false} RalinkEntriesAllRegister(rt: Rt2x00Fixup.FixupTable, a: Alloc, es: seq<Caldata>)
    requires Rt2x00Fixup.WellFormed(rt) && Valid(a)
    requires rt.num + |es| <= Rt2x00Fixup.MAX_FIXUPS
    requires a.pool.used + |es| <= a.pool.count
    requires Nvram.Low24(a.pool.base) + a.pool.used + |es| <= Nvram.MAX24 + 1
    ensures var r := RegisterRalink(rt, a, es);
      && r.0.num == rt.num + |es|
      && forall k :: 0 <= k < |es| ==>
           r.0.fixups[rt.num + k].slot == es[k].slot
           && r.0.fixups[rt.num + k].pdata.eepromFileName == Some(es[k].eeprom)
    decreases |es|
  {
    if |es| > 0 {
      var init, c := es[..|es| - 1], es[|es| - 1];
      assert es == init + [c];
      RalinkEntriesAllRegister(rt, a, init);
      RegisterRalinkAppend(rt, a, init, c);
      var p := RegisterRalink(rt, a, init);
      RalinkStepCompletes(p.0, p.1, c);
      var s := Rt2x00Step(p.0, p.1, c);
      forall k | 0 <= k < |es|
        ensures s.0.fixups[rt.num + k].slot == es[k].slot
             && s.0.fixups[rt.num + k].pdata.eepromFileName == Some(es[k].eeprom)
      {
        if k < |init| {
          assert es[k] == init[k];
        }
      }
    }
  }

  /** One step with room in the table and an address in the pool: the
      entry lands at the end and the rest of the table is kept. */
  lemma RalinkStepCompletes(t: Rt2x00Fixup.FixupTable, a: Alloc, c: Caldata)
    requires Rt2x00Fixup.WellFormed(t) && Valid(a)
    requires t.num < Rt2x00Fixup.MAX_FIXUPS && a.pool.used < a.pool.count
    requires Nvram.Low24(a.pool.base) + a.pool.used <= Nvram.MAX24
    ensures var s := Rt2x00Step(t, a, c);
      && s.0.num == t.num + 1
      && s.0.fixups[t.num].slot == c.slot
      && s.0.fixups[t.num].pdata.eepromFileName == Some(c.eeprom)
      && (forall i :: 0 <= i < t.num ==> s.0.fixups[i] == t.fixups[i])
  {
  }

  /** The ath9k fixups the Atheros entries among the first n describe. */
  function AtherosFixups(cal: seq<Caldata>, n: nat): set<Ath9kFixup>
    requires n <= |cal|
  {
    set i | 0 <= i < n && cal[i].vendor == PCI_VENDOR_ID_ATHEROS :: AthFixupOf(cal[i])
  }

  /** Reference for the Atheros half of the caldata loop: one
      pci_enable_ath9k_fixup call per Atheros entry among the first n,
      in flash order. */
  function AtherosEntries(cal: seq<Caldata>, n: nat): (fs: seq<Ath9kFixup>)
    requires n <= |cal|
    ensures |fs| <= n
    decreases n
  {
    if n == 0 then []
    else if cal[n - 1].vendor == PCI_VENDOR_ID_ATHEROS then AtherosEntries(cal, n - 1) + [AthFixupOf(cal[n - 1])]
    else AtherosEntries(cal, n - 1)
  }

  /** Each caldata entry is either an Atheros or a Ralink entry or
      neither, so the two references together list at most one fixup
      per entry. */
  lemma {:induction false} AtMostOneFixupPerEntry(cal: seq<Caldata>, n: nat)
    requires n <= |cal|
    ensures |AtherosEntries(cal, n)| + |RalinkEntries(cal, n)| <= n
    decreases n
  {
    if n > 0 {
      AtMostOneFixupPerEntry(cal, n - 1);
    }
  }

  /** A registered rt2x00 entry's address joins the addresses issued
      since `a`; earlier entries keep theirs. */
  lemma RalinkStepKeepsIssued(rt: Rt2x00Fixup.FixupTable, a: Alloc,
                              t: Rt2x00Fixup.FixupTable, p: Alloc, t': Rt2x00Fixup.FixupTable, p': Alloc)
    requires Rt2x00Fixup.WellFormed(t) && Rt2x00Fixup.WellFormed(t') && rt.num <= t.num
    requires a.issued <= p.issued
    requires forall i :: rt.num <= i < t.num ==> t.fixups[i].mac in p.issued[|a.issued|..]
    requires t'.num == t.num || t'.num == t.num + 1
    requires t'.num == t.num + 1 ==> p'.issued == p.issued + [t'.fixups[t.num].mac]
    requires t'.num == t.num ==> p' == p
    requires forall i :: 0 <= i < t.num ==> t'.fixups[i] == t.fixups[i]
    ensures a.issued <= p'.issued
    ensures forall i :: rt.num <= i < t'.num ==> t'.fixups[i].mac in p'.issued[|a.issued|..]
  {
    if t'.num == t.num + 1 {
      assert p'.issued[|a.issued|..] == p.issued[|a.issued|..] + [t'.fixups[t.num].mac];
    }
  }

  /** The devices of board_register_devices that take MAC addresses,
      in the order they request them. */
  datatype MacUsers = MacUsers(
    enet0: Option<Nvram.Mac>, enet1: Option<Nvram.Mac>, enetsw: Option<Nvram.Mac>,
    ssbFallback: bool, sprom: SsbSprom,
    ath9k: seq<Ath9kFixup>, rt2x00: Rt2x00Fixup.FixupTable,
    alloc: Alloc)

  /** enet0, enet1 and the switch, each registered only when its
      address was obtained; the addresses they obtained are exactly the
      ones issued, in that order. */
  function EnetStage(b: BoardInfo, a: Alloc, enetBufs: seq<Nvram.Mac>)
    : (r: (Option<Nvram.Mac>, Option<Nvram.Mac>, Option<Nvram.Mac>, Alloc))
    requires Valid(a) && |enetBufs| == 3
    ensures Valid(r.3) && r.3.start == a.start
    ensures r.3.issued == a.issued + Present(r.0) + Present(r.1) + Present(r.2)
    ensures (r.0.Some? ==> b.hasEnet0) && (r.1.Some? ==> b.hasEnet1) && (r.2.Some? ==> b.hasEnetsw)
  {
    var e0 := EnetMac(b.hasEnet0, a, enetBufs[0]);
    var e1 := EnetMac(b.hasEnet1, e0.1, enetBufs[1]);
    var sw := EnetMac(b.hasEnetsw, e1.1, enetBufs[2]);
    (e0.0, e1.0, sw.0, sw.1)
  }

  /** The present value of an option, as a sequence of zero or one. */
  function Present<T>(o: Option<T>): (s: seq<T>)
    ensures |s| <= 1 && (o.Some? <==> |s| == 1) && (o.Some? ==> s[0] == o.value)
  {
    if o.Some? then [o.value] else []
  }

  /** enet0, enet1 and the switch, then the SSB fallback SPROM; the
      rt2x00 table is passed through and no ath9k fixup is recorded yet. */
  function EnetAndFallback(b: BoardInfo, configSsb: bool, pool: Nvram.MacPool, rt: Rt2x00Fixup.FixupTable,
                           enetBufs: seq<Nvram.Mac>, sprom: SsbSprom): (m: MacUsers)
    requires |enetBufs| == 3
    ensures Valid(m.alloc) && m.alloc.start == pool && m.rt2x00 == rt
    ensures m.enet0.Some? ==> b.hasEnet0 && m.enet0.value in m.alloc.issued
    ensures m.enet1.Some? ==> b.hasEnet1 && m.enet1.value in m.alloc.issued
    ensures m.enetsw.Some? ==> b.hasEnetsw && m.enetsw.value in m.alloc.issued
    ensures m.ssbFallback ==>
      && configSsb && b.hasCaldata == 0 && m.sprom.il0mac in m.alloc.issued
      && m.sprom.et0mac == m.sprom.il0mac && m.sprom.et1mac == m.sprom.il0mac
  {
    var en := EnetStage(b, Alloc(pool, pool, []), enetBufs);
    var ssb := SsbFallback(configSsb, b, en.3, sprom);
    PrefixMembers(en.3.issued, en.3.issued, ssb.2.issued);
    MacUsers(en.0, en.1, en.2, ssb.0, ssb.1, [], rt, ssb.2)
  }

  /** The MAC-consuming part of board_register_devices: enet0, enet1 and
      the switch, the SSB fallback SPROM, then the caldata fixups. Every
      address handed out is distinct, and each registered device holds
      one of them. */
  function AssignMacs(b: BoardInfo, configSsb: bool, pool: Nvram.MacPool, rt: Rt2x00Fixup.FixupTable,
                      enetBufs: seq<Nvram.Mac>, sprom: SsbSprom): (m: MacUsers)
    requires WellFormed(b) && Rt2x00Fixup.WellFormed(rt) && |enetBufs| == 3
    ensures Valid(m.alloc) && m.alloc.start == pool
    ensures forall i, j :: 0 <= i < j < |m.alloc.issued| ==> m.alloc.issued[i] != m.alloc.issued[j]
    ensures m.enet0.Some? ==> b.hasEnet0 && m.enet0.value in m.alloc.issued
    ensures m.enet1.Some? ==> b.hasEnet1 && m.enet1.value in m.alloc.issued
    ensures m.enetsw.Some? ==> b.hasEnetsw && m.enetsw.value in m.alloc.issued
    ensures m.ssbFallback ==>
      && configSsb && b.hasCaldata == 0 && m.sprom.il0mac in m.alloc.issued
      && m.sprom.et0mac == m.sprom.il0mac && m.sprom.et1mac == m.sprom.il0mac
    ensures Rt2x00Fixup.WellFormed(m.rt2x00) && rt.num <= m.rt2x00.num
    ensures forall i :: rt.num <= i < m.rt2x00.num ==> m.rt2x00.fixups[i].mac in m.alloc.issued
    ensures |m.ath9k| + (m.rt2x00.num - rt.num) <= b.hasCaldata
    ensures m.ath9k == AtherosEntries(b.caldata, b.hasCaldata)
  {
    var s := EnetAndFallback(b, configSsb, pool, rt, enetBufs, sprom);
    var fx := CaldataFixups(b.caldata, b.hasCaldata, rt, s.alloc);
    ValidIssuesDistinct(fx.2);
    PrefixMembers(s.alloc.issued, s.alloc.issued, fx.2.issued);
    PrefixMembers(fx.2.issued[|s.alloc.issued|..], fx.2.issued[|s.alloc.issued|..], fx.2.issued[|s.alloc.issued|..]);
    s.(ath9k := fx.0, rt2x00 := fx.1, alloc := fx.2)
  }

  /** The rt2x00 table after the MAC assignment is the reference
      registration of the board's Ralink entries, drawing from the pool
      where the Ethernet devices and the fallback SPROM left it. */
  lemma AssignMacsRalink(b: BoardInfo, configSsb: bool, pool: Nvram.MacPool, rt: Rt2x00Fixup.FixupTable,
                         enetBufs: seq<Nvram.Mac>, sprom: SsbSprom)
    requires WellFormed(b) && Rt2x00Fixup.WellFormed(rt) && |enetBufs| == 3
    ensures AssignMacs(b, configSsb, pool, rt, enetBufs, sprom).rt2x00
         == RegisterRalink(rt, EnetAndFallback(b, configSsb, pool, rt, enetBufs, sprom).alloc,
                           RalinkEntries(b.caldata, b.hasCaldata)).0
  {
    var s := EnetAndFallback(b, configSsb, pool, rt, enetBufs, sprom);
    CaldataRalinkDispatch(b.caldata, b.hasCaldata, rt, s.alloc);
  }

  /** Members of a prefix, and of what is appended after it, are members
      of the whole. */
  lemma PrefixMembers<T>(a: seq<T>, b: seq<T>, c: seq<T>)
    requires a <= b <= c
    ensures forall x :: x in a ==> x in c
    ensures forall x :: x in b ==> x in c
  {
    assert forall k :: 0 <= k < |a| ==> a[k] == c[k];
    assert forall k :: 0 <= k < |b| ==> b[k] == c[k];
  }

  /** enet0, enet1 and the switch never share an address. */
  lemma EnetAddressesDistinct(b: BoardInfo, configSsb: bool, pool: Nvram.MacPool,
                              rt: Rt2x00Fixup.FixupTable, enetBufs: seq<Nvram.Mac>, sprom: SsbSprom)
    requires WellFormed(b) && Rt2x00Fixup.WellFormed(rt) && |enetBufs| == 3
    ensures var m := AssignMacs(b, configSsb, pool, rt, enetBufs, sprom);
      && (m.enet0.Some? && m.enet1.Some? ==> m.enet0.value != m.enet1.value)
      && (m.enet0.Some? && m.enetsw.Some? ==> m.enet0.value != m.enetsw.value)
      && (m.enet1.Some? && m.enetsw.Some? ==> m.enet1.value != m.enetsw.value)
  {
    EnetStageDistinct(b, pool, enetBufs);
    AssignMacsKeepsEnet(b, configSsb, pool, rt, enetBufs, sprom);
  }

  lemma EnetStageDistinct(b: BoardInfo, pool: Nvram.MacPool, enetBufs: seq<Nvram.Mac>)
    requires |enetBufs| == 3
    ensures var en := EnetStage(b, Alloc(pool, pool, []), enetBufs);
      && (en.0.Some? && en.1.Some? ==> en.0.value != en.1.value)
      && (en.0.Some? && en.2.Some? ==> en.0.value != en.2.value)
      && (en.1.Some? && en.2.Some? ==> en.1.value != en.2.value)
  {
    var en := EnetStage(b, Alloc(pool, pool, []), enetBufs);
    ValidIssuesDistinct(en.3);
    PresentDistinct(en.3.issued, en.0, en.1, en.2);
  }

  /** Options laid out one after another in a sequence without
      repetitions hold distinct values. */
  lemma PresentDistinct<T>(s: seq<T>, x: Option<T>, y: Option<T>, z: Option<T>)
    requires s == Present(x) + Present(y) + Present(z)
    requires forall i, j :: 0 <= i < j < |s| ==> s[i] != s[j]
    ensures x.Some? && y.Some? ==> x.value != y.value
    ensures x.Some? && z.Some? ==> x.value != z.value
    ensures y.Some? && z.Some? ==> y.value != z.value
  {
    var p0, p1 := |Present(x)|, |Present(y)|;
    if x.Some? { assert x.value == s[0]; }
    if y.Some? { assert y.value == s[p0]; }
    if z.Some? { assert z.value == s[p0 + p1]; }
  }

  lemma AssignMacsKeepsEnet(b: BoardInfo, configSsb: bool, pool: Nvram.MacPool,
                            rt: Rt2x00Fixup.FixupTable, enetBufs: seq<Nvram.Mac>, sprom: SsbSprom)
    requires WellFormed(b) && Rt2x00Fixup.WellFormed(rt) && |enetBufs| == 3
    ensures var m := AssignMacs(b, configSsb, pool, rt, enetBufs, sprom);
      var en := EnetStage(b, Alloc(pool, pool, []), enetBufs);
      m.enet0 == en.0 && m.enet1 == en.1 && m.enetsw == en.2
  {
    var s := EnetAndFallback(b, configSsb, pool, rt, enetBufs, sprom);
    assert AssignMacs(b, configSsb, pool, rt, enetBufs, sprom).enet0 == s.enet0;
  }

  /** The devices board_register_devices registers from the board's own
      flags, counts and GPIOs. */
  datatype Platform = Platform(
    uart0: bool, uart1: bool, pcmcia: bool,
    usbhPorts: nat, ehci: bool, ohci: bool, usbd: bool, dsp: bool,
    bcmaFallback: bool, extraDevices: bool, spiDevices: bool,
    flashCaldata: nat,
    ledCount: nat, buttonCount: nat, ephyReset: bool)

  /** The flag-driven part of board_register_devices; `configBcma` is
      CONFIG_BCMA. */
  function PlatformDevices(b: BoardInfo, configBcma: bool): (d: Platform)
    ensures d.uart0 == b.hasUart0 && d.uart1 == b.hasUart1 && d.pcmcia == b.hasPccard
    ensures d.ehci == b.hasEhci0 && d.ohci == b.hasOhci0 && d.usbd == b.hasUsbd && d.dsp == b.hasDsp
    ensures d.usbhPorts > 0 <==> b.hasOhci0 || b.hasEhci0
    ensures d.usbhPorts == UsbhPorts(b)
    ensures d.bcmaFallback <==> configBcma && b.hasCaldata == 0
    ensures d.extraDevices <==> b.numDevs != 0
    ensures d.spiDevices <==> b.numSpis != 0
    ensures d.flashCaldata == b.hasCaldata
    ensures d.ledCount <= |b.leds| && d.buttonCount <= |b.buttons|
    ensures d.ledCount == CountNamed(b.leds) && d.buttonCount == CountNamed(b.buttons)
    ensures d.ephyReset <==> b.ephyResetGpio != 0 && b.ephyResetGpioFlags != 0
  {
    Platform(
      b.hasUart0, b.hasUart1, b.hasPccard,
      UsbhPorts(b), b.hasEhci0, b.hasOhci0, b.hasUsbd, b.hasDsp,
      configBcma && b.hasCaldata == 0, b.numDevs != 0, b.numSpis != 0,
      b.hasCaldata,
      CountNamed(b.leds), CountNamed(b.buttons), b.ephyResetGpio != 0 && b.ephyResetGpioFlags != 0)
  }

  /** What board_register_devices registers, as far as its own rules
      decide: the platform devices and the devices that need a MAC
      address. */
  datatype Devices = Devices(platform: Platform, macs: MacUsers)

  /** board_register_devices. `pool` is the NVRAM MAC pool, `rt` the
      rt2x00 fixup table, `enetBufs` the MAC buffers of enet0, enet1 and
      the switch, `sprom` the board SPROM; `configSsb` and `configBcma`
      stand for CONFIG_SSB_PCIHOST and CONFIG_BCMA. The board's caldata
      count decides between its two parts: with calibration entries in
      flash, no fallback SPROM of either bus registers; without them, no
      calibration fixup is recorded and the rt2x00 table is untouched. */
  function RegisterDevices(b: BoardInfo, configSsb: bool, configBcma: bool, pool: Nvram.MacPool,
                           rt: Rt2x00Fixup.FixupTable, enetBufs: seq<Nvram.Mac>, sprom: SsbSprom): (d: Devices)
    requires WellFormed(b) && Rt2x00Fixup.WellFormed(rt) && |enetBufs| == 3
    ensures d.platform.flashCaldata == b.hasCaldata
    ensures b.hasCaldata != 0 ==> !d.platform.bcmaFallback && !d.macs.ssbFallback
    ensures b.hasCaldata == 0 ==> d.macs.ath9k == [] && d.macs.rt2x00 == rt
    ensures d.platform.bcmaFallback ==> configBcma
    ensures d.macs.ssbFallback ==> configSsb
    ensures rt.num <= d.macs.rt2x00.num && |d.macs.ath9k| + (d.macs.rt2x00.num - rt.num) <= b.hasCaldata
    ensures d.macs.ath9k == AtherosEntries(b.caldata, b.hasCaldata)
    ensures d.macs.rt2x00 == RegisterRalink(rt, EnetAndFallback(b, configSsb, pool, rt, enetBufs, sprom).alloc,
                                            RalinkEntries(b.caldata, b.hasCaldata)).0
  {
    AssignMacsRalink(b, configSsb, pool, rt, enetBufs, sprom);
    Devices(PlatformDevices(b, configBcma), AssignMacs(b, configSsb, pool, rt, enetBufs, sprom))
  }

}

=== FILE: board_id.dfy ===
/** Board identification from the boot flash: the CFE version string the
    boot loader leaves at a fixed offset, and boardid_fixup, which turns
    the board name stored in the NVRAM into the name of the actual board
    variant. */
module BoardId {
  import opened Kernel
  import opened Bytes
  import Nvram

  /** Offsets into the boot flash. */
  const CFE_VERSION_OFFSET: nat := 0x570
  const NVRAM_OFFSET: nat := 0x580
  const CFE_OFFSET_64K: nat := 0x10000
  const CFE_OFFSET_128K: nat := 0x20000
  const NB4_PID_OFFSET: nat := 0xff80

  /** Fields of struct bcm_tag, the image tag at 64K or 128K. */
  const TAG_BOARD_ID_OFFSET: nat := 44
  const TAG_INFORMATION1_OFFSET: nat := 162
  const TAG_INFORMATION1_LEN: nat := 30
  const BOARDID_LEN: nat := 16

  /** sizeof("NB4-XXX-rX"): the PID bytes copied, terminator included. */
  const NB4_PID_LEN: nat := 11

  /** Calibration data signatures probed on the HW556. */
  const HW556_RT3062_OFFSET: nat := 0xeffe00
  const HW556_ATH9K_OFFSET_B: nat := 0xf7e000
  const HW556_ATH9K_OFFSET_C: nat := 0xefe000
  const CAL_DATA_RT3062: Bytes := [0x62, 0x30, 0x01, 0x00]
  const CAL_DATA_ATH9K: Bytes := [0xa5, 0x5a, 0x00, 0x00]

  const ASCII_V: byte := 0x76
  const ASCII_D: byte := 0x64
  const ASCII_PLUS: byte := 0x2b

  // ---------------------------------------------------------------------
  // The CFE version string

  /** snprintf(buf, size, "%s", s): at most size - 1 bytes of the C string. */
  function FormatString(s: Bytes, size: nat): (r: Bytes)
    requires size >= 1
    ensures |r| <= size - 1
    ensures r <= CString(s)
    ensures |CString(s)| <= size - 1 ==> r == CString(s)
  {
    Take(CString(s), size - 1)
  }

  /** A printed field followed by a separator and the rest. */
  function Field(n: nat, sep: byte, rest: Bytes): (r: Bytes)
    ensures |r| == |Dec(n)| + 1 + |rest|
  {
    Dec(n) + [sep] + rest
  }

  /** "%u.%u.%u-%u.%u" and "%u.%u.%u-%u.%u-%u" of the version bytes. */
  function FormatVersion(f: seq<byte>): Bytes
    requires |f| == 5 || |f| == 6
  {
    var last := if |f| == 6 then Field(f[4], ASCII_DASH, Dec(f[5])) else Dec(f[4]);
    Field(f[0], ASCII_DOT, Field(f[1], ASCII_DOT, Field(f[2], ASCII_DASH, Field(f[3], ASCII_DOT, last))))
  }

  /** The CFE version string board_prom_init prints: "unknown" without a
      CFE signature at 0x570; after "cfe-v", either a "d..." string of at
      most 10 bytes or the dotted version bytes; after any other "cfe-",
      the string there, at most 11 bytes. */
  function CfeVersion(image: Bytes): (v: Bytes)
    ensures !StartsWith(Slice(image, CFE_VERSION_OFFSET, 4), Lit("cfe-")) ==> v == Lit("unknown")
    ensures |v| < 32
    ensures StartsWith(Slice(image, CFE_VERSION_OFFSET, 4), Lit("cfe-")) ==>
      if At(image, CFE_VERSION_OFFSET + 4) != ASCII_V then
        var s := CString(Slice(image, CFE_VERSION_OFFSET + 4, 12));
        v <= s && |v| == (if |s| <= 11 then |s| else 11)
      else if At(image, CFE_VERSION_OFFSET + 5) == ASCII_D then
        var s := CString(Slice(image, CFE_VERSION_OFFSET + 5, 11));
        v <= s && |v| == (if |s| <= 10 then |s| else 10)
      else
        var f := Slice(image, CFE_VERSION_OFFSET + 5, 6);
        ParseFields(v) == if f[5] > 0 then f else f[..5]
  {
    var cfe := Slice(image, CFE_VERSION_OFFSET, 32);
    if !StartsWith(Slice(image, CFE_VERSION_OFFSET, 4), Lit("cfe-")) then Lit("unknown")
    else if At(image, CFE_VERSION_OFFSET + 4) == ASCII_V then
      if At(image, CFE_VERSION_OFFSET + 5) == ASCII_D then
        FormatString(Slice(image, CFE_VERSION_OFFSET + 5, 11), 11)
      else
        var f := Slice(image, CFE_VERSION_OFFSET + 5, 6);
        FormatVersionBound(f);
        FormatVersionRoundTrip(f);
        FormatVersionRoundTrip(f[..5]);
        if f[5] > 0 then FormatVersion(f) else FormatVersion(f[..5])
    else FormatString(Slice(image, CFE_VERSION_OFFSET + 4, 12), 12)
  }

  lemma FormatVersionBound(f: seq<byte>)
    requires |f| == 6
    ensures |FormatVersion(f)| <= 23 && |FormatVersion(f[..5])| <= 19
  {
    DecOfByteLength(f[0]);
    DecOfByteLength(f[1]);
    DecOfByteLength(f[2]);
    DecOfByteLength(f[3]);
    DecOfByteLength(f[4]);
    DecOfByteLength(f[5]);
  }

  /** A decimal digit. */
  predicate IsDecChar(c: byte) {
    ASCII_0 <= c <= ASCII_0 + 9
  }

  /** Length of the run of decimal digits a string starts with. */
  function DigitRun(s: Bytes): (n: nat)
    ensures n <= |s|
    ensures forall k :: 0 <= k < n ==> IsDecChar(s[k])
    ensures n < |s| ==> !IsDecChar(s[n])
  {
    if |s| == 0 || !IsDecChar(s[0]) then 0 else 1 + DigitRun(s[1..])
  }

  /** Reads dot- or dash-separated decimal fields back out of a version
      string. */
  function ParseFields(s: Bytes): seq<nat>
    decreases |s|
  {
    var n := DigitRun(s);
    [FromDigits(s[..n], 10)] + (if n < |s| then ParseFields(s[n + 1..]) else [])
  }

  lemma DecIsDecimal(n: nat)
    ensures |Dec(n)| >= 1 && forall k :: 0 <= k < |Dec(n)| ==> IsDecChar(Dec(n)[k])
  {
    var d := Dec(n);
    forall k | 0 <= k < |d| ensures IsDecChar(d[k]) {
      assert IsDigitChar(d[k]) && DigitValue(d[k]) < 10;
    }
  }

  lemma {:induction false} DigitRunOfDigits(d: Bytes, rest: Bytes)
    requires forall k :: 0 <= k < |d| ==> IsDecChar(d[k])
    requires |rest| == 0 || !IsDecChar(rest[0])
    ensures DigitRun(d + rest) == |d|
    decreases |d|
  {
    if |d| > 0 {
      assert (d + rest)[1..] == d[1..] + rest;
      DigitRunOfDigits(d[1..], rest);
    }
  }

  /** A printed field followed by a separator reads back as that field. */
  lemma ParseFieldThenSeparator(n: nat, sep: byte, rest: Bytes)
    requires !IsDecChar(sep)
    ensures ParseFields(Field(n, sep, rest)) == [n] + ParseFields(rest)
  {
    var s := Dec(n) + [sep] + rest;
    DecIsDecimal(n);
    assert s == Dec(n) + ([sep] + rest);
    DigitRunOfDigits(Dec(n), [sep] + rest);
    assert s[..|Dec(n)|] == Dec(n);
    assert s[|Dec(n)| + 1..] == rest;
    DigitsRoundTrip(n, 10);
  }

  /** The last printed field reads back as itself. */
  lemma ParseLastField(n: nat)
    ensures ParseFields(Dec(n)) == [n]
  {
    DecIsDecimal(n);
    DigitRunOfDigits(Dec(n), []);
    assert Dec(n) + [] == Dec(n);
    assert Dec(n)[..|Dec(n)|] == Dec(n);
    DigitsRoundTrip(n, 10);
  }

  lemma FormatVersionRoundTrip(f: seq<byte>)
    requires |f| == 5 || |f| == 6
    ensures ParseFields(FormatVersion(f)) == f
  {
    var last := if |f| == 6 then Field(f[4], ASCII_DASH, Dec(f[5])) else Dec(f[4]);
    LastFieldsRoundTrip(f);
    var t3 := Field(f[3], ASCII_DOT, last);
    var t2 := Field(f[2], ASCII_DASH, t3);
    var t1 := Field(f[1], ASCII_DOT, t2);
    ParseFieldThenSeparator(f[3], ASCII_DOT, last);
    ParseFieldThenSeparator(f[2], ASCII_DASH, t3);
    ParseFieldThenSeparator(f[1], ASCII_DOT, t2);
    ParseFieldThenSeparator(f[0], ASCII_DOT, t1);
    PrependFour(f, ParseFields(last));
  }

  lemma LastFieldsRoundTrip(f: seq<byte>)
    requires |f| == 5 || |f| == 6
    ensures ParseFields(if |f| == 6 then Field(f[4], ASCII_DASH, Dec(f[5])) else Dec(f[4])) == f[4..]
  {
    if |f| == 6 {
      ParseFieldThenSeparator(f[4], ASCII_DASH, Dec(f[5]));
      ParseLastField(f[5]);
    } else {
      ParseLastField(f[4]);
    }
  }

  lemma PrependFour(f: seq<byte>, p: seq<nat>)
    requires |f| >= 4 && p == f[4..]
    ensures [f[0] as nat] + ([f[1] as nat] + ([f[2] as nat] + ([f[3] as nat] + p))) == f
  {
  }

  /** A CFE that identifies itself as "cfe-unknown" decodes to "unknown",
      the same string as a missing CFE, so its board name is never fixed
      up. */
  lemma CfeNamedUnknownLooksMissing(image: Bytes)
    requires Slice(image, CFE_VERSION_OFFSET, 12) == Lit("cfe-unknown") + [NUL]
    ensures CfeVersion(image) == Lit("unknown")
  {
    var u := Lit("unknown");
    assert NUL !in u by {
      forall k | 0 <= k < 7 ensures u[k] != NUL { }
    }
    assert Lit("cfe-unknown") == Lit("cfe-") + u;
    CfeStringRoundTrip(image, u);
  }

  /** The n bytes at i followed by the k bytes after them. */
  lemma SliceSplit(m: Bytes, i: nat, n: nat, k: nat)
    ensures Slice(m, i, n + k) == Slice(m, i, n) + Slice(m, i + n, k)
  {
    var l, r := Slice(m, i, n + k), Slice(m, i, n) + Slice(m, i + n, k);
    assert forall j :: 0 <= j < n + k ==> l[j] == r[j];
  }

  /** Two concatenations that agree, with heads of one length, agree
      part by part. */
  lemma ConcatParts(a: Bytes, b: Bytes, c: Bytes, d: Bytes)
    requires a + b == c + d && |a| == |c|
    ensures a == c && b == d
  {
    assert a == (a + b)[..|a|] && c == (c + d)[..|c|];
    assert b == (a + b)[|a|..] && d == (c + d)[|c|..];
  }

  /** A NUL-terminated string s at offset i is the C string of any
      longer window starting there. */
  lemma CStringAt(m: Bytes, i: nat, n: nat, s: Bytes)
    requires NUL !in s && |s| < n
    requires Slice(m, i, |s| + 1) == s + [NUL]
    ensures CString(Slice(m, i, n)) == s
  {
    SliceSplit(m, i, |s| + 1, n - (|s| + 1));
    CStringOfTerminated(s, Slice(m, i + |s| + 1, n - (|s| + 1)));
  }

  /** A version string s written after "cfe-" (not starting with 'v',
      at most 11 bytes, NUL-terminated) reads back as s. */
  lemma CfeStringRoundTrip(image: Bytes, s: Bytes)
    requires NUL !in s && |s| <= 11 && (|s| == 0 || s[0] != ASCII_V)
    requires Slice(image, CFE_VERSION_OFFSET, 4 + |s| + 1) == Lit("cfe-") + s + [NUL]
    ensures CfeVersion(image) == s
  {
    var tail := Slice(image, CFE_VERSION_OFFSET + 4, |s| + 1);
    SliceSplit(image, CFE_VERSION_OFFSET, 4, |s| + 1);
    assert Lit("cfe-") + s + [NUL] == Lit("cfe-") + (s + [NUL]);
    ConcatParts(Slice(image, CFE_VERSION_OFFSET, 4), tail, Lit("cfe-"), s + [NUL]);
    assert At(image, CFE_VERSION_OFFSET + 4) == tail[0];
    CStringAt(image, CFE_VERSION_OFFSET + 4, 12, s);
  }

  /** A "d..." version string s written after "cfe-v" (at most 10 bytes,
      NUL-terminated) reads back as s. */
  lemma CfeVdRoundTrip(image: Bytes, s: Bytes)
    requires NUL !in s && 1 <= |s| <= 10 && s[0] == ASCII_D
    requires Slice(image, CFE_VERSION_OFFSET, 5 + |s| + 1) == Lit("cfe-v") + s + [NUL]
    ensures CfeVersion(image) == s
  {
    var head := Slice(image, CFE_VERSION_OFFSET, 5);
    var tail := Slice(image, CFE_VERSION_OFFSET + 5, |s| + 1);
    SliceSplit(image, CFE_VERSION_OFFSET, 5, |s| + 1);
    assert Lit("cfe-v") + s + [NUL] == Lit("cfe-v") + (s + [NUL]);
    ConcatParts(head, tail, Lit("cfe-v"), s + [NUL]);
    SliceSplit(image, CFE_VERSION_OFFSET, 4, 1);
    assert Lit("cfe-v") == Lit("cfe-") + [ASCII_V];
    ConcatParts(Slice(image, CFE_VERSION_OFFSET, 4), Slice(image, CFE_VERSION_OFFSET + 4, 1), Lit("cfe-"), [ASCII_V]);
    assert At(image, CFE_VERSION_OFFSET + 4) == Slice(image, CFE_VERSION_OFFSET + 4, 1)[0];
    assert At(image, CFE_VERSION_OFFSET + 5) == tail[0];
    CStringAt(image, CFE_VERSION_OFFSET + 5, 11, s);
  }

  // ---------------------------------------------------------------------
  // boardid_fixup

  /** strncpy(dst, src, 16) into a 16-byte name: the C string of the first
      16 source bytes, zero-filled to 16 bytes. */
  function Strncpy16(src: Bytes): (r: Bytes)
    ensures |r| == BOARDID_LEN
    ensures CString(r) == CString(Take(src, BOARDID_LEN))
  {
    var c := CString(Take(src, BOARDID_LEN));
    ZeroFilledCString(c, BOARDID_LEN - |c|);
    c + seq(BOARDID_LEN - |c|, _ => NUL)
  }

  lemma ZeroFilledCString(c: Bytes, n: nat)
    requires NUL !in c
    ensures CString(c + seq(n, _ => NUL)) == c
  {
    var r := c + seq(n, _ => NUL);
    if n > 0 {
      assert r == c + [NUL] + r[|c| + 1..];
      CStringOfTerminated(c, r[|c| + 1..]);
    } else {
      assert r == c;
      CStringOfNulFree(c);
    }
  }

  /** memcpy(name, src, |src|): overwrite the leading bytes of a name. */
  function Overwrite(name: Bytes, src: Bytes): (r: Bytes)
    requires |src| <= |name|
    ensures |r| == |name| && r[..|src|] == src && r[|src|..] == name[|src|..]
  {
    src + name[|src|..]
  }

  /** Which rule of boardid_fixup decided the name. */
  datatype FixupRule = Nb4Pid | Hw556(variant: byte) | Nb6Cut | TagOverride(tagOffset: nat) | NoFixup

  /** The result of boardid_fixup: the rule that applied and the name. */
  datatype Fixup = Fixup(rule: FixupRule, name: Bytes)

  /** The offset of the first image tag whose board id matches the name
      in its first 16 bytes: 64K, else 128K. */
  function TagFor(name: Bytes, image: Bytes): (t: Option<nat>)
    ensures t.Some? ==> t.value in {CFE_OFFSET_64K, CFE_OFFSET_128K}
    ensures t.Some? ==> StrnEq(name, Slice(image, t.value + TAG_BOARD_ID_OFFSET, BOARDID_LEN), BOARDID_LEN)
    ensures t != Some(CFE_OFFSET_64K) ==>
      !StrnEq(name, Slice(image, CFE_OFFSET_64K + TAG_BOARD_ID_OFFSET, BOARDID_LEN), BOARDID_LEN)
    ensures t.None? ==>
      !StrnEq(name, Slice(image, CFE_OFFSET_128K + TAG_BOARD_ID_OFFSET, BOARDID_LEN), BOARDID_LEN)
  {
    var at64 := StrnEq(name, Slice(image, CFE_OFFSET_64K + TAG_BOARD_ID_OFFSET, BOARDID_LEN), BOARDID_LEN);
    var at128 := StrnEq(name, Slice(image, CFE_OFFSET_128K + TAG_BOARD_ID_OFFSET, BOARDID_LEN), BOARDID_LEN);
    if at64 then Some(CFE_OFFSET_64K)
    else if at128 then Some(CFE_OFFSET_128K)
    else None
  }

  /** The HW556 variant from the calibration data found in flash, in
      priority order: Ralink at 0xeffe00, Atheros at 0xf7e000, Atheros at
      0xefe000. */
  function Hw556Variant(image: Bytes): Option<byte> {
    if Slice(image, HW556_RT3062_OFFSET, 4) == CAL_DATA_RT3062 then Some(0x41)      // 'A'
    else if Slice(image, HW556_ATH9K_OFFSET_B, 4) == CAL_DATA_ATH9K then Some(0x42) // 'B'
    else if Slice(image, HW556_ATH9K_OFFSET_C, 4) == CAL_DATA_ATH9K then Some(0x43) // 'C'
    else None
  }

  /** The tag override, applied to a name no earlier rule returned on. */
  function TagStep(name: Bytes, image: Bytes): (r: Fixup)
    requires |name| == BOARDID_LEN
    ensures |r.name| == BOARDID_LEN
    ensures r.rule.TagOverride? || r == Fixup(NoFixup, name)
  {
    match TagFor(name, image)
    case None => Fixup(NoFixup, name)
    case Some(t) =>
      if At(image, t + TAG_INFORMATION1_OFFSET) != ASCII_PLUS then Fixup(NoFixup, name)
      else Fixup(TagOverride(t), Strncpy16(Slice(image, t + TAG_INFORMATION1_OFFSET + 1, TAG_INFORMATION1_LEN - 1)))
  }

  /** boardid_fixup: `name` is the 16-byte board name of the NVRAM,
      `image` the boot flash. */
  function BoardIdFixup(cpu: nat, name: Bytes, image: Bytes): (r: Fixup)
    requires |name| == BOARDID_LEN
    ensures |r.name| == BOARDID_LEN
    ensures r.rule == NoFixup ==> r.name == name
  {
    if cpu == BCM6358_CPU_ID && StrEq(name, Lit("96358VW"))
       && StartsWith(Slice(image, NB4_PID_OFFSET, 4), Lit("NB4-")) then
      Fixup(Nb4Pid, Overwrite(name, Slice(image, NB4_PID_OFFSET, NB4_PID_LEN)))
    else
      var n1 :=
        if cpu == BCM6358_CPU_ID && !StrEq(name, Lit("96358VW")) && StrEq(name, Lit("HW556")) then
          match Hw556Variant(image)
          case Some(v) => Fixup(Hw556(v), Overwrite(name, Lit("HW556_") + [v]))
          case None => Fixup(NoFixup, name)
        else Fixup(NoFixup, name);
      if cpu == BCM6362_CPU_ID && StrnEq(n1.name, Lit("NB6-"), 4) then
        Fixup(Nb6Cut, n1.name[3 := NUL])
      else
        var t := TagStep(n1.name, image);
        if t.rule.TagOverride? then t else n1
  }

  /** NB4: a "96358VW" on a 6358 with "NB4-" at 0xff80 takes the 11 PID
      bytes found there, and no tag is consulted. */
  lemma Nb4TakesPid(name: Bytes, image: Bytes)
    requires |name| == BOARDID_LEN
    requires StrEq(name, Lit("96358VW"))
    requires StartsWith(Slice(image, NB4_PID_OFFSET, 4), Lit("NB4-"))
    ensures var r := BoardIdFixup(BCM6358_CPU_ID, name, image);
      && r.rule == Nb4Pid
      && r.name[..NB4_PID_LEN] == Slice(image, NB4_PID_OFFSET, NB4_PID_LEN)
      && r.name[NB4_PID_LEN..] == name[NB4_PID_LEN..]
      && r.name[..4] == Lit("NB4-")
  {
    var r := BoardIdFixup(BCM6358_CPU_ID, name, image);
    assert r.name[..4] == Slice(image, NB4_PID_OFFSET, NB4_PID_LEN)[..4];
    assert Slice(image, NB4_PID_OFFSET, NB4_PID_LEN)[..4] == Slice(image, NB4_PID_OFFSET, 4);
  }

  /** NB6: on a 6362, a name starting "NB6-" reads "NB6" afterwards, and
      no tag is consulted. */
  lemma Nb6IsCut(name: Bytes, image: Bytes)
    requires |name| == BOARDID_LEN
    requires StartsWith(name, Lit("NB6-"))
    ensures var r := BoardIdFixup(BCM6362_CPU_ID, name, image);
      r.rule == Nb6Cut && CString(r.name) == Lit("NB6")
  {
    var nb6 := Lit("NB6-");
    assert nb6 == [0x4e, 0x42, 0x36, 0x2d];
    StrnEqPrefix(name, nb6, 4);
    assert Take(nb6, 4) == nb6;
    var r := BoardIdFixup(BCM6362_CPU_ID, name, image);
    assert r.name == name[..3] + [NUL] + name[4..];
    assert name[..3] == Lit("NB6");
    CStringOfTerminated(Lit("NB6"), name[4..]);
  }

  /** Writing "HW556_<v>" over a name with a NUL at index 7 leaves that
      string as the C string. */
  lemma Hw556NameIsTerminated(name: Bytes, v: byte)
    requires |name| == BOARDID_LEN && name[7] == NUL && v != NUL
    ensures CString(Overwrite(name, Lit("HW556_") + [v])) == Lit("HW556_") + [v]
  {
    var w := Lit("HW556_") + [v];
    assert NUL !in w by {
      forall k | 0 <= k < 7 ensures w[k] != NUL { }
    }
    var named := Overwrite(name, w);
    assert named == w + [NUL] + name[8..];
    CStringOfTerminated(w, name[8..]);
  }

  /** "HW556" is not "96358VW", so the HW556 branch is reachable. */
  lemma Hw556IsNotNb4(name: Bytes)
    requires StrEq(name, Lit("HW556"))
    ensures !StrEq(name, Lit("96358VW"))
  {
    var a := Lit("HW556");
    var b := Lit("96358VW");
    assert NUL !in a by { forall k | 0 <= k < 5 ensures a[k] != NUL { } }
    assert NUL !in b by { forall k | 0 <= k < 7 ensures b[k] != NUL { } }
    CStringOfNulFree(a);
    CStringOfNulFree(b);
    assert |a| != |b|;
  }

  /** HW556: the variant letter follows "HW556_" when a signature is
      found, in priority order; only a tag override replaces it. */
  lemma Hw556VariantSelected(name: Bytes, image: Bytes)
    requires |name| == BOARDID_LEN
    requires StrEq(name, Lit("HW556")) && name[7] == NUL
    requires Hw556Variant(image).Some?
    ensures var r := BoardIdFixup(BCM6358_CPU_ID, name, image);
      var v := Hw556Variant(image).value;
      && (r.rule == Hw556(v) ==> CString(r.name) == Lit("HW556_") + [v])
      && (r.rule != Hw556(v) ==> r.rule.TagOverride?)
      && (Slice(image, HW556_RT3062_OFFSET, 4) == CAL_DATA_RT3062 ==> v == 0x41)
  {
    Hw556IsNotNb4(name);
    Hw556NameIsTerminated(name, Hw556Variant(image).value);
  }

  /** HW556 with a calibration signature: the tag override is then
      looked up with the rewritten "HW556_<v>" name, and only a match
      replaces it. */
  lemma Hw556ThenTag(name: Bytes, image: Bytes)
    requires |name| == BOARDID_LEN
    requires StrEq(name, Lit("HW556")) && Hw556Variant(image).Some?
    ensures var v := Hw556Variant(image).value;
      var n1 := Fixup(Hw556(v), Overwrite(name, Lit("HW556_") + [v]));
      var t := TagStep(n1.name, image);
      BoardIdFixup(BCM6358_CPU_ID, name, image) == if t.rule.TagOverride? then t else n1
  {
    Hw556IsNotNb4(name);
  }

  /** HW556 without a calibration signature keeps its name for the tag
      lookup, which alone decides the result. */
  lemma Hw556WithoutSignatureIsTagStep(name: Bytes, image: Bytes)
    requires |name| == BOARDID_LEN
    requires StrEq(name, Lit("HW556")) && Hw556Variant(image).None?
    ensures BoardIdFixup(BCM6358_CPU_ID, name, image) == TagStep(name, image)
  {
    Hw556IsNotNb4(name);
    FixupIsTagStep(BCM6358_CPU_ID, name, image);
  }

  /** The tag override: the name becomes the tag's information1 after its
      '+' marker (at most 16 bytes) when the tag at 64K, else the one at
      128K, carries the board's name. */
  lemma TagOverrideTakesInformation1(cpu: nat, name: Bytes, image: Bytes)
    requires |name| == BOARDID_LEN
    requires !Nb4Case(cpu, name, image) && !Hw556Case(cpu, name, image)
    requires !(cpu == BCM6362_CPU_ID && StrnEq(name, Lit("NB6-"), 4))
    ensures var r := BoardIdFixup(cpu, name, image);
      match TagFor(name, image)
      case None => r.rule == NoFixup && r.name == name
      case Some(t) =>
        if At(image, t + TAG_INFORMATION1_OFFSET) == ASCII_PLUS then
          r.rule == TagOverride(t)
          && CString(r.name) == CString(Slice(image, t + TAG_INFORMATION1_OFFSET + 1, BOARDID_LEN))
        else r.rule == NoFixup && r.name == name
  {
    FixupIsTagStep(cpu, name, image);
    TagStepTakesInformation1(name, image);
  }

  /** The tag step on its own: what it takes from the tag. */
  lemma TagStepTakesInformation1(name: Bytes, image: Bytes)
    requires |name| == BOARDID_LEN
    ensures var r := TagStep(name, image);
      match TagFor(name, image)
      case None => r.rule == NoFixup && r.name == name
      case Some(t) =>
        if At(image, t + TAG_INFORMATION1_OFFSET) == ASCII_PLUS then
          r.rule == TagOverride(t)
          && CString(r.name) == CString(Slice(image, t + TAG_INFORMATION1_OFFSET + 1, BOARDID_LEN))
        else r.rule == NoFixup && r.name == name
  {
    var t := TagFor(name, image);
    if t.Some? && At(image, t.value + TAG_INFORMATION1_OFFSET) == ASCII_PLUS {
      var src := Slice(image, t.value + TAG_INFORMATION1_OFFSET + 1, TAG_INFORMATION1_LEN - 1);
      assert Take(src, BOARDID_LEN) == Slice(image, t.value + TAG_INFORMATION1_OFFSET + 1, BOARDID_LEN);
    }
  }

  /** The NB4 rule's condition: a "96358VW" 6358 with "NB4-" at 0xff80. */
  predicate Nb4Case(cpu: nat, name: Bytes, image: Bytes) {
    cpu == BCM6358_CPU_ID && StrEq(name, Lit("96358VW"))
    && StartsWith(Slice(image, NB4_PID_OFFSET, 4), Lit("NB4-"))
  }

  /** The HW556 rule's condition: an "HW556" 6358 whose flash holds a
      calibration signature. */
  predicate Hw556Case(cpu: nat, name: Bytes, image: Bytes) {
    cpu == BCM6358_CPU_ID && StrEq(name, Lit("HW556")) && Hw556Variant(image).Some?
  }

  /** Outside the NB4, HW556-with-signature and NB6 rules, only the tag
      override applies. */
  lemma FixupIsTagStep(cpu: nat, name: Bytes, image: Bytes)
    requires |name| == BOARDID_LEN
    requires !Nb4Case(cpu, name, image) && !Hw556Case(cpu, name, image)
    requires !(cpu == BCM6362_CPU_ID && StrnEq(name, Lit("NB6-"), 4))
    ensures BoardIdFixup(cpu, name, image) == TagStep(name, image)
  {
  }
}

=== FILE: bytes.dfy ===
/** Bytes, memory windows and NUL-terminated C strings.

    A flash window or a fixed-size char array is a `Bytes` value. The C
    string held in a buffer runs up to its first NUL byte, or to the end
    of the buffer when it holds none; this is the reading every comparison
    in the board code makes of a 16-byte board name. */
module Bytes {

  type byte = x: int | 0 <= x < 0x100
  type u32 = x: int | 0 <= x < 0x1_0000_0000
  type Bytes = seq<byte>

  /** A 32-bit register or mask, as the set of its bit positions that
      hold 1: `a | b` is `a + b`, `a & ~b` is `a - b`, `a & b` is `a * b`. */
  type Word = s: set<nat> | forall b :: b in s ==> b < 32

  const NUL: byte := 0

  /** Byte at offset `i` of a memory window; reads past the end of the
      modelled window yield 0. */
  function At(m: Bytes, i: nat): (b: byte)
    ensures i < |m| ==> b == m[i]
  {
    if i < |m| then m[i] else 0
  }

  /** The `n` bytes at offset `i` of a memory window (memcpy source). */
  function Slice(m: Bytes, i: nat, n: nat): (r: Bytes)
    ensures |r| == n
    ensures forall k :: 0 <= k < n ==> r[k] == At(m, i + k)
    decreases n
  {
    if n == 0 then [] else [At(m, i)] + Slice(m, i + 1, n - 1)
  }

  /** The first `n` bytes of a buffer, or all of it when shorter. */
  function Take(s: Bytes, n: nat): (r: Bytes)
    ensures |r| == if n <= |s| then n else |s|
    ensures r <= s
  {
    if n <= |s| then s[..n] else s
  }

  /** An ASCII string literal as bytes. */
  function Lit(s: string): (r: Bytes)
    ensures |r| == |s|
    ensures forall k :: 0 <= k < |s| ==> r[k] == (s[k] as int) % 0x100
  {
    seq(|s|, k requires 0 <= k < |s| => (s[k] as int) % 0x100)
  }

  /** strlen: the number of bytes before the first NUL, or the buffer
      length when it holds no NUL. */
  function StrLen(s: Bytes): (n: nat)
    ensures n <= |s|
    ensures forall k :: 0 <= k < n ==> s[k] != NUL
    ensures n < |s| ==> s[n] == NUL
  {
    if |s| == 0 || s[0] == NUL then 0 else 1 + StrLen(s[1..])
  }

  /** The C string a buffer holds. */
  function CString(s: Bytes): (r: Bytes)
    ensures r <= s
    ensures NUL !in r
    ensures |r| < |s| ==> s[|r|] == NUL
  {
    s[..StrLen(s)]
  }

  /** strcmp(a, b) == 0 */
  predicate StrEq(a: Bytes, b: Bytes) {
    CString(a) == CString(b)
  }

  /** strncmp(a, b, n) == 0 */
  predicate StrnEq(a: Bytes, b: Bytes, n: nat) {
    CString(Take(a, n)) == CString(Take(b, n))
  }

  /** memcmp(s, p, |p|) == 0, also strstarts(s, p) for a NUL-free `p`. */
  predicate StartsWith(s: Bytes, p: Bytes) {
    |p| <= |s| && s[..|p|] == p
  }

  /** A string without NUL is its own C string. */
  lemma CStringOfNulFree(s: Bytes)
    requires NUL !in s
    ensures CString(s) == s
  {
    assert forall k :: 0 <= k < |s| ==> s[k] in s;
  }

  /** Appending bytes after a NUL leaves the C string unchanged, and a
      NUL-free prefix followed by a NUL is exactly the C string. */
  lemma CStringOfTerminated(p: Bytes, rest: Bytes)
    requires NUL !in p
    ensures CString(p + [NUL] + rest) == p
  {
    var s := p + [NUL] + rest;
    assert s[|p|] == NUL;
    assert forall k :: 0 <= k < |p| ==> s[k] == p[k] && p[k] in p;
    assert s[..|p|] == p;
  }

  /** Two buffers that agree on their first `n` bytes compare equal under
      strncmp(·, ·, n); the converse holds when those bytes hold no NUL. */
  lemma StrnEqPrefix(a: Bytes, b: Bytes, n: nat)
    requires n <= |a| && n <= |b|
    ensures a[..n] == b[..n] ==> StrnEq(a, b, n)
    ensures StrnEq(a, b, n) && NUL !in a[..n] ==> a[..n] == b[..n]
  {
    if StrnEq(a, b, n) && NUL !in a[..n] {
      CStringOfNulFree(a[..n]);
      assert Take(a, n) == a[..n];
      assert Take(b, n) == b[..n];
      var cb := CString(b[..n]);
      assert |cb| == n;
    }
  }

  // ---------------------------------------------------------------------
  // Digits, as printed by %u and %x

  const ASCII_0: byte := 0x30
  const ASCII_A_LOWER: byte := 0x61
  const ASCII_DOT: byte := 0x2e
  const ASCII_DASH: byte := 0x2d

  /** A digit character: 0-9 or a-f. */
  predicate IsDigitChar(c: byte) {
    (ASCII_0 <= c <= ASCII_0 + 9) || (ASCII_A_LOWER <= c <= ASCII_A_LOWER + 5)
  }

  /** The value of an ASCII digit (0 for any other byte). */
  function DigitValue(c: byte): (d: nat)
    ensures d < 16
  {
    if ASCII_0 <= c <= ASCII_0 + 9 then c - ASCII_0
    else if ASCII_A_LOWER <= c <= ASCII_A_LOWER + 5 then c - ASCII_A_LOWER + 10
    else 0
  }

  /** The lower-case ASCII digit for a value below 16. */
  function Digit(d: nat): (c: byte)
    requires d < 16
    ensures IsDigitChar(c) && DigitValue(c) == d
  {
    if d < 10 then ASCII_0 + d else ASCII_A_LOWER + d - 10
  }

  lemma DivStep(n: nat, base: nat)
    requires 2 <= base <= n
    ensures n / base < n && n % base < base
    ensures n == (n / base) * base + n % base
  {
    var q := n / base;
    assert q * base <= n;
    assert q * 2 <= q * base;
  }

  /** The digits of `n` in `base`, most significant first, no leading
      zeros (printf %u for base 10, %x for base 16). */
  function ToDigits(n: nat, base: nat): (r: Bytes)
    requires 2 <= base <= 16
    ensures 1 <= |r|
    ensures forall k :: 0 <= k < |r| ==> IsDigitChar(r[k]) && DigitValue(r[k]) < base
    decreases n
  {
    if n < base then [Digit(n)]
    else
      DivStep(n, base);
      ToDigits(n / base, base) + [Digit(n % base)]
  }

  /** The value of a string of digits in `base`. */
  function FromDigits(s: Bytes, base: nat): nat
    requires 2 <= base <= 16
  {
    if |s| == 0 then 0 else FromDigits(s[..|s| - 1], base) * base + DigitValue(s[|s| - 1])
  }

  /** Printing a number and reading it back yields the number. */
  lemma {:induction false} DigitsRoundTrip(n: nat, base: nat)
    requires 2 <= base <= 16
    ensures FromDigits(ToDigits(n, base), base) == n
    decreases n
  {
    var r := ToDigits(n, base);
    if n < base {
      assert r[..0] == [];
    } else {
      DivStep(n, base);
      DigitsRoundTrip(n / base, base);
      assert r[..|r| - 1] == ToDigits(n / base, base);
    }
  }

  function Dec(n: nat): Bytes { ToDigits(n, 10) }
  function Hex(n: nat): Bytes { ToDigits(n, 16) }

  /** A byte never prints more than three decimal digits. */
  lemma DecOfByteLength(b: byte)
    ensures |Dec(b as nat)| <= 3
  {
    var n := b as nat;
    if n >= 10 {
      DivStep(n, 10);
      if n / 10 >= 10 {
        DivStep(n / 10, 10);
        assert n / 10 / 10 < 10;
        assert |ToDigits(n / 10 / 10, 10)| == 1;
        assert |ToDigits(n / 10, 10)| == 2;
      } else {
        assert |ToDigits(n / 10, 10)| == 1;
      }
    }
  }

  // ---------------------------------------------------------------------
  // Big-endian 32-bit words (the SoC runs big-endian)

  /** be32_to_cpu of the four bytes at offset `i`. */
  function BE32(m: Bytes, i: nat): u32 {
    At(m, i) as int * 0x100_0000 + At(m, i + 1) as int * 0x1_0000 + At(m, i + 2) as int * 0x100 + At(m, i + 3) as int
  }

  /** The four bytes storing `v` big-endian. */
  function BE32Bytes(v: u32): (r: Bytes)
    ensures |r| == 4
  {
    [v / 0x100_0000, (v / 0x1_0000) % 0x100, (v / 0x100) % 0x100, v % 0x100]
  }

  /** Storing a word and loading it back yields the word. */
  lemma BE32RoundTrip(v: u32, m: Bytes, i: nat)
    requires i + 4 <= |m| && m[i..i + 4] == BE32Bytes(v)
    ensures BE32(m, i) == v
  {
    assert m[i] == BE32Bytes(v)[0];
    assert m[i + 1] == BE32Bytes(v)[1];
    assert m[i + 2] == BE32Bytes(v)[2];
    assert m[i + 3] == BE32Bytes(v)[3];
    var q1, q2 := v / 0x100, v / 0x1_0000;
    assert v == q1 * 0x100 + v % 0x100;
    assert q1 / 0x100 == q2 && q1 == q2 * 0x100 + q1 % 0x100;
    assert q2 / 0x100 == v / 0x100_0000 && q2 == (v / 0x100_0000) * 0x100 + q2 % 0x100;
  }
}

=== FILE: clk.dfy ===
/** The BCM63xx clock provider: gated clocks whose enable bit lives in the
    32-bit CKCTL register, clocks without a gate, the parameters a clock
    takes from its device-tree node, and the compatible-to-init table. */
module Clk {
  import opened Kernel
  import opened Bytes

  type s8 = x: int | -128 <= x < 128

  /** The reset hook a clock runs after it is enabled. */
  datatype ResetHook = NoReset | EnetswReset | Enetsw6368Reset | SarReset

  /** struct bcm63xx_clk; a negative gate bit means the clock has no gate. */
  datatype Clock = Clock(rate: u32, gateBit: s8, reset: ResetHook)

  /** The CKCTL register. */
  type Ckctl = Word

  /** BIT(b) in a 32-bit register, as the set of bits it has set. A shift
      by 32 or more is undefined in C (a MIPS32 `sllv` would use only the
      low five bits of the count and select bit 0); this model chooses to
      let such a bit lie outside the register, so the mask is empty. */
  function Bit(b: nat): (m: Ckctl)
    ensures b < 32 ==> m == {b}
    ensures b >= 32 ==> m == {}
  {
    if b < 32 then {b} else {}
  }

  /** (w & BIT(b)) != 0 */
  predicate IsSet(w: Ckctl, b: nat) {
    b in w * Bit(b)
  }

  /** bcm63xx_clk_set: read-modify-write of CKCTL setting (w | mask) or
      clearing (w & ~mask) one bit and keeping every other bit. */
  function ClkSet(ckctl: Ckctl, bit: nat, enable: bool): (r: Ckctl)
    ensures bit < 32 ==> IsSet(r, bit) == enable
    ensures r - Bit(bit) == ckctl - Bit(bit)
  {
    if enable then ckctl + Bit(bit) else ckctl - Bit(bit)
  }

  /** Setting one bit leaves the state of every other bit as it was. */
  lemma ClkSetKeepsOtherBits(ckctl: Ckctl, bit: nat, other: nat, enable: bool)
    requires bit < 32 && other < 32 && bit != other
    ensures IsSet(ClkSet(ckctl, bit, enable), other) == IsSet(ckctl, other)
  {
  }

  datatype EnableOutcome = EnableOutcome(rc: int, ckctl: Ckctl, resetRan: ResetHook)

  /** bcm63xx_clk_enable: a gated clock sets its bit, then the reset hook
      (if any) runs; the result is always 0. */
  function Enable(c: Clock, ckctl: Ckctl): (r: EnableOutcome)
    ensures r.rc == 0
    ensures r.resetRan == c.reset
    ensures c.gateBit < 0 ==> r.ckctl == ckctl
    ensures 0 <= c.gateBit < 32 ==>
      IsSet(r.ckctl, c.gateBit) && r.ckctl - Bit(c.gateBit) == ckctl - Bit(c.gateBit)
  {
    var w := if c.gateBit >= 0 then ClkSet(ckctl, c.gateBit, true) else ckctl;
    EnableOutcome(0, w, c.reset)
  }

  /** bcm63xx_clk_disable: a gated clock clears its bit. */
  function Disable(c: Clock, ckctl: Ckctl): (r: Ckctl)
    ensures c.gateBit < 0 ==> r == ckctl
    ensures 0 <= c.gateBit < 32 ==>
      !IsSet(r, c.gateBit) && r - Bit(c.gateBit) == ckctl - Bit(c.gateBit)
  {
    if c.gateBit >= 0 then ClkSet(ckctl, c.gateBit, false) else ckctl
  }

  /** bcm63xx_clk_is_enabled, as the truth of its result: an ungated
      clock reports 1; a gated one reports its bit of CKCTL, nonzero
      exactly when that bit is set. */
  function IsEnabled(c: Clock, ckctl: Ckctl): (r: bool)
    ensures c.gateBit < 0 ==> r
    ensures 0 <= c.gateBit ==> (r <==> c.gateBit < 32 && c.gateBit in ckctl)
  {
    if c.gateBit >= 0 then IsSet(ckctl, c.gateBit) else true
  }

  /** Enable and disable are observed by is_enabled: a clock whose gate
      bit lies in the register reads enabled after enable and disabled
      after disable, whatever CKCTL held before. */
  lemma EnableDisableObserved(c: Clock, ckctl: Ckctl)
    requires c.gateBit < 32
    ensures IsEnabled(c, Enable(c, ckctl).ckctl)
    ensures c.gateBit >= 0 ==> !IsEnabled(c, Disable(c, ckctl))
  {
  }

  /** Enabling or disabling one clock does not change what another clock
      with a different gate bit reports. */
  lemma GatesAreIndependent(c: Clock, d: Clock, ckctl: Ckctl)
    requires 0 <= c.gateBit < 32 && 0 <= d.gateBit < 32 && c.gateBit != d.gateBit
    ensures IsEnabled(d, Enable(c, ckctl).ckctl) == IsEnabled(d, ckctl)
    ensures IsEnabled(d, Disable(c, ckctl)) == IsEnabled(d, ckctl)
  {
    ClkSetKeepsOtherBits(ckctl, c.gateBit, d.gateBit, true);
    ClkSetKeepsOtherBits(ckctl, c.gateBit, d.gateBit, false);
  }

  /** bcm63xx_clk_recalc_rate: the rate fixed at init; the parent rate is
      not consulted. */
  function RecalcRate(c: Clock, parentRate: nat): (r: u32)
    ensures r == c.rate
  {
    c.rate
  }

  // ---------------------------------------------------------------------
  // bcm63xx_clock_init

  /** What bcm63xx_clock_init reads from a device-tree node. */
  datatype ClockNode = ClockNode(
    name: string,
    gateBitProperty: Option<u32>,       // brcm,gate-bit
    clockFrequency: Option<u32>,        // clock-frequency
    outputNames: Option<seq<string>>,   // clock-output-names, None when absent
    parentName: Option<string>)         // of_clk_get_parent_name(node, 0)

  /** struct clk_init_data: name, CLK_IS_ROOT flag and parent names. */
  datatype ClkInitData = ClkInitData(name: string, isRoot: bool, parentNames: seq<string>)

  /** A registered clock: its state, its init data and the clkdev lookup
      names registered for it, primary name first. */
  datatype Registration = Registration(clock: Clock, init: ClkInitData, clkdevNames: seq<string>)

  /** Gate bit as written: a DT value up to and including 32 is accepted. */
  function GateBitAsWritten(prop: Option<u32>): (g: s8)
    ensures prop.Some? && prop.value <= 32 ==> g == prop.value
    ensures !(prop.Some? && prop.value <= 32) ==> g == -1
  {
    if prop.Some? && prop.value <= 32 then prop.value else -1
  }

  /** The accepted value 32 is outside the 32-bit CKCTL register. BIT(32)
      is undefined in C; in this model its mask is empty, so enabling such
      a clock leaves CKCTL as it was and it never reads as enabled. */
  lemma GateBit32IsOutsideRegister(rate: u32, reset: ResetHook, ckctl: Ckctl)
    ensures GateBitAsWritten(Some(32)) == 32
    ensures var c := Clock(rate, GateBitAsWritten(Some(32)), reset);
      Enable(c, ckctl).ckctl == ckctl && !IsEnabled(c, Enable(c, ckctl).ckctl)
  {
  }

  /** Gate bit as evidently intended: only bits 0..31 of CKCTL exist. */
  function GateBit(prop: Option<u32>): (g: s8)
    ensures -1 <= g < 32
    ensures g >= 0 <==> prop.Some? && prop.value < 32
    ensures g >= 0 ==> g == prop.value
  {
    if prop.Some? && prop.value < 32 then prop.value else -1
  }

  /** The primary clock name: output name 0 when the property lists one,
      else the node name. */
  function PrimaryName(node: ClockNode): string {
    if node.outputNames.Some? && |node.outputNames.value| > 0 then node.outputNames.value[0]
    else node.name
  }

  /** Output names 1 .. num_names-1, registered as aliases. */
  function AliasNames(node: ClockNode): seq<string> {
    if node.outputNames.Some? && |node.outputNames.value| > 1 then node.outputNames.value[1..]
    else []
  }

  /** The clock bcm63xx_clock_init registers, with the gate bit already
      decided from the node. */
  function Register(node: ClockNode, reset: ResetHook, gateBit: s8): (reg: Registration)
    ensures reg.clock == Clock(if node.clockFrequency.Some? then node.clockFrequency.value else 0, gateBit, reset)
    ensures node.parentName.Some? ==> !reg.init.isRoot && reg.init.parentNames == [node.parentName.value]
    ensures node.parentName.None? ==> reg.init.isRoot && reg.init.parentNames == []
    ensures |reg.clkdevNames| == 1 + |AliasNames(node)| && reg.init.name == reg.clkdevNames[0]
  {
    var rate := if node.clockFrequency.Some? then node.clockFrequency.value else 0;
    var name := PrimaryName(node);
    var init := if node.parentName.Some?
      then ClkInitData(name, false, [node.parentName.value])
      else ClkInitData(name, true, []);
    Registration(Clock(rate, gateBit, reset), init, [name] + AliasNames(node))
  }

  /** bcm63xx_clock_init as written: a gate bit up to and including 32 is
      stored. `allocOk` and `registerOk` stand for the outcome of kzalloc
      and clk_register; on either failure nothing is registered. */
  function ClockInit(node: ClockNode, reset: ResetHook, allocOk: bool, registerOk: bool): (r: Option<Registration>)
    ensures r.Some? <==> allocOk && registerOk
    ensures r.Some? ==>
      var reg := r.value;
      && reg.clock.rate == (if node.clockFrequency.Some? then node.clockFrequency.value else 0)
      && reg.clock.reset == reset
      && -1 <= reg.clock.gateBit <= 32
      && (reg.clock.gateBit >= 0 <==> node.gateBitProperty.Some? && node.gateBitProperty.value <= 32)
      && (reg.clock.gateBit >= 0 ==> Some(reg.clock.gateBit as u32) == node.gateBitProperty)
      && (node.parentName.Some? ==>
            !reg.init.isRoot && reg.init.parentNames == [node.parentName.value])
      && (node.parentName.None? ==> reg.init.isRoot && reg.init.parentNames == [])
      && |reg.clkdevNames| == 1 + |AliasNames(node)|
      && reg.init.name == reg.clkdevNames[0]
  {
    if !allocOk || !registerOk then None
    else Some(Register(node, reset, GateBitAsWritten(node.gateBitProperty)))
  }

  /** bcm63xx_clock_init with the gate bit as evidently intended: only a
      bit of CKCTL is stored, so every gated clock it registers can be
      switched and observed. */
  function ClockInitCorrected(node: ClockNode, reset: ResetHook, allocOk: bool, registerOk: bool): (r: Option<Registration>)
    ensures r.Some? <==> allocOk && registerOk
    ensures r.Some? ==>
      && -1 <= r.value.clock.gateBit < 32
      && (r.value.clock.gateBit >= 0 <==> node.gateBitProperty.Some? && node.gateBitProperty.value < 32)
      && r.value == ClockInit(node, reset, true, true).value.(clock := r.value.clock)
      && r.value.clock == ClockInit(node, reset, true, true).value.clock.(gateBit := r.value.clock.gateBit)
  {
    if !allocOk || !registerOk then None
    else Some(Register(node, reset, GateBit(node.gateBitProperty)))
  }

  /** As written, a node with gate bit 32 registers a clock that enable
      cannot switch on; with the corrected init every registered clock
      reads enabled after enable and disabled after disable. */
  lemma CorrectedInitClocksAreObservable(node: ClockNode, reset: ResetHook, ckctl: Ckctl)
    ensures node.gateBitProperty == Some(32) ==>
      var c := ClockInit(node, reset, true, true).value.clock;
      c.gateBit == 32 && !IsEnabled(c, Enable(c, ckctl).ckctl)
    ensures var c := ClockInitCorrected(node, reset, true, true).value.clock;
      IsEnabled(c, Enable(c, ckctl).ckctl) && (c.gateBit >= 0 ==> !IsEnabled(c, Disable(c, ckctl)))
  {
    var c := ClockInitCorrected(node, reset, true, true).value.clock;
    EnableDisableObserved(c, ckctl);
  }

  /** Every output name is registered for lookup, in order: all of them
      when the property lists any, else just the node name. */
  lemma OutputNamesAreRegistered(node: ClockNode, reset: ResetHook)
    ensures var r := ClockInit(node, reset, true, true).value;
      (if node.outputNames.Some? && |node.outputNames.value| > 0
       then r.clkdevNames == node.outputNames.value
       else r.clkdevNames == [node.name])
  {
    var r := ClockInit(node, reset, true, true).value;
    if node.outputNames.Some? && |node.outputNames.value| > 1 {
      assert r.clkdevNames == [node.outputNames.value[0]] + node.outputNames.value[1..];
    }
  }

  /** The rate a registered clock reports is the clock-frequency of its
      node (0 when absent), whatever its parent runs at. */
  lemma RecalcRateIsNodeFrequency(node: ClockNode, reset: ResetHook, parentRate: nat)
    ensures RecalcRate(ClockInit(node, reset, true, true).value.clock, parentRate)
      == (if node.clockFrequency.Some? then node.clockFrequency.value else 0)
  {
  }

  // ---------------------------------------------------------------------
  // clk_match and the reset hooks

  /** One step of a reset hook. */
  datatype ResetStep =
    | EnableClock(name: string)
    | DisableClock(name: string)
    | CoreReset(core: string, asserted: bool)
    | DelayMs(ms: nat)

  /** What each reset hook does, in order: a core reset is asserted,
      held, released and waited out; the 6368 switch reset wraps the
      switch reset in enabling and disabling its secondary clocks. */
  function ResetSequence(h: ResetHook): (s: seq<ResetStep>)
    ensures h == NoReset <==> s == []
    ensures h == EnetswReset ==>
      s == [CoreReset("enetsw", true), DelayMs(100), CoreReset("enetsw", false), DelayMs(100)]
    ensures h == SarReset ==>
      s == [CoreReset("sar", true), DelayMs(1), CoreReset("sar", false), DelayMs(1)]
    ensures h == Enetsw6368Reset ==>
      && |s| == 8 && s[2..6] == ResetSequence(EnetswReset)
      && s[..2] == [EnableClock("enetsw-sar"), EnableClock("enetsw-usb")]
      && s[6..] == [DisableClock("enetsw-usb"), DisableClock("enetsw-sar")]
    decreases h == Enetsw6368Reset
  {
    match h
    case NoReset => []
    case EnetswReset =>
      [CoreReset("enetsw", true), DelayMs(100), CoreReset("enetsw", false), DelayMs(100)]
    case Enetsw6368Reset =>
      [EnableClock("enetsw-sar"), EnableClock("enetsw-usb")]
      + ResetSequence(EnetswReset)
      + [DisableClock("enetsw-usb"), DisableClock("enetsw-sar")]
    case SarReset =>
      [CoreReset("sar", true), DelayMs(1), CoreReset("sar", false), DelayMs(1)]
  }

  /** clk_match as written: the 6368 switch clock is bound to the generic
      switch init. */
  function ClockMatchAsWritten(compatible: string): (r: Option<ResetHook>)
    ensures r.Some? <==> (compatible in
      {"brcm,bcm63xx-clock", "brcm,bcm63xx-enetsw-clock", "brcm,bcm6368-enetsw-clock", "brcm,bcm63xx-sar-clock"})
    ensures compatible == "brcm,bcm63xx-clock" ==> r == Some(NoReset)
    ensures compatible == "brcm,bcm63xx-sar-clock" ==> r == Some(SarReset)
    ensures compatible in {"brcm,bcm63xx-enetsw-clock", "brcm,bcm6368-enetsw-clock"} ==> r == Some(EnetswReset)
  {
    if compatible == "brcm,bcm63xx-clock" then Some(NoReset)
    else if compatible == "brcm,bcm63xx-enetsw-clock" then Some(EnetswReset)
    else if compatible == "brcm,bcm6368-enetsw-clock" then Some(EnetswReset)
    else if compatible == "brcm,bcm63xx-sar-clock" then Some(SarReset)
    else None
  }

  /** As written, no compatible string reaches the 6368 switch reset, so
      the secondary switch clocks are never enabled around a 6368 switch
      reset. */
  lemma Bcm6368EnetswResetUnreachable(compatible: string)
    ensures ClockMatchAsWritten(compatible) != Some(Enetsw6368Reset)
    ensures ClockMatchAsWritten("brcm,bcm6368-enetsw-clock") == Some(EnetswReset)
    ensures EnableClock("enetsw-sar") !in ResetSequence(ClockMatchAsWritten("brcm,bcm6368-enetsw-clock").value)
  {
  }

  /** clk_match as evidently intended: the 6368 switch clock runs the
      reset that enables the secondary switch clocks first. */
  function ClockMatch(compatible: string): (r: Option<ResetHook>)
    ensures compatible == "brcm,bcm6368-enetsw-clock" ==> r == Some(Enetsw6368Reset)
    ensures compatible != "brcm,bcm6368-enetsw-clock" ==> r == ClockMatchAsWritten(compatible)
  {
    if compatible == "brcm,bcm6368-enetsw-clock" then Some(Enetsw6368Reset)
    else ClockMatchAsWritten(compatible)
  }

  /** With the intended table, a 6368 switch reset is bracketed by
      enabling and then disabling both secondary clocks. */
  lemma Bcm6368EnetswResetBracketed()
    ensures var s := ResetSequence(ClockMatch("brcm,bcm6368-enetsw-clock").value);
      && s[0] == EnableClock("enetsw-sar") && s[1] == EnableClock("enetsw-usb")
      && s[|s| - 1] == DisableClock("enetsw-sar") && s[|s| - 2] == DisableClock("enetsw-usb")
      && CoreReset("enetsw", true) in s
  {
    var s := ResetSequence(Enetsw6368Reset);
    assert s[2] == CoreReset("enetsw", true);
  }
}

=== FILE: dev_flash.dfy ===
/** Flash detection from the boot straps and the registration plan that
    follows from it: a memory-mapped parallel flash, an SPI serial flash,
    or nothing (NAND and undetected flashes are not supported). */
module DevFlash {
  import opened Kernel
  import opened Bytes

  /** bcm63xx_attached_flash; Unknown is its initial value -1. */
  datatype FlashType = Unknown | Parallel | Serial | Nand

  /** Default max_speed_hz of the SPI flash entry. */
  const DEFAULT_SPI_SPEED: nat := 781000
  const SPEED_6328_FAST: nat := 33333334
  const SPEED_6328_SLOW: nat := 16666667
  const SPEED_6368_FAST: nat := 20000000

  /** End of the parallel flash resource. */
  const PHYSMAP_END: nat := 0x1FFFFFFF
  /** Offset of bank 0 on the BT Voyager 2500V. */
  const V2500V_BANK0_OFFSET: nat := 0x400000
  /** Number of caldata offsets the partition parser holds. */
  const PARSER_CALDATA: nat := 2

  /** The strap bits and field values the detection tests, as masks of
      the strap registers. */
  datatype StrapLayout = StrapLayout(
    hsspiClkFast6328: bv32,
    bootSelSerial6328: bv32,
    bootSelParallel6358: bv32,
    bootSelSerial6362: bv32,
    spiClkFast6368: bv32,
    bootSelMask6368: bv32,
    bootSelNand6368: bv32,
    bootSelSerial6368: bv32,
    bootSelParallel6368: bv32)

  /** The strap registers as read: MISC_STRAPBUS_6328_REG,
      GPIO_STRAPBUS_REG (3368, 6358, 6368) and MISC_STRAPBUS_6362_REG. */
  datatype StrapRegs = StrapRegs(misc6328: bv32, gpio: bv32, misc6362: bv32)

  /** Outcome of bcm63xx_detect_flash_type: its return code, the flash
      type it leaves in bcm63xx_attached_flash and the SPI speed it leaves
      in the flash board info. */
  datatype Detection = Detection(rc: int, flash: FlashType, speed: nat)

  predicate Has(w: bv32, mask: bv32) {
    w & mask != 0
  }

  /** The 6368 boot-select field. */
  function BootSel6368(l: StrapLayout, gpio: bv32): FlashType {
    var sel := gpio & l.bootSelMask6368;
    if sel == l.bootSelNand6368 then Nand
    else if sel == l.bootSelSerial6368 then Serial
    else if sel == l.bootSelParallel6368 then Parallel
    else Unknown
  }

  /** bcm63xx_detect_flash_type as written: the 6368 case has no `break`
      after its inner switch and falls into `default`, so it reports
      -EINVAL even when it recognised the flash. */
  function DetectAsWritten(cpu: nat, l: StrapLayout, regs: StrapRegs): (r: Detection)
    ensures cpu == BCM6368_CPU_ID ==> r.rc == -EINVAL && r.flash == BootSel6368(l, regs.gpio)
    ensures cpu != BCM6368_CPU_ID ==> r == Detect(cpu, l, regs)
  {
    if cpu == BCM6368_CPU_ID then
      var speed := if Has(regs.gpio, l.spiClkFast6368) then SPEED_6368_FAST else DEFAULT_SPI_SPEED;
      Detection(-EINVAL, BootSel6368(l, regs.gpio), speed)
    else Detect(cpu, l, regs)
  }

  /** bcm63xx_detect_flash_type with the evidently intended `break`: the
      6368 case reports success when the boot-select field is known. */
  function Detect(cpu: nat, l: StrapLayout, regs: StrapRegs): (r: Detection)
    ensures r.rc == 0 <==> r.flash != Unknown
    ensures r.rc != 0 ==> r.rc == -EINVAL
    ensures cpu == BCM6328_CPU_ID ==>
      && r.speed == (if Has(regs.misc6328, l.hsspiClkFast6328) then SPEED_6328_FAST else SPEED_6328_SLOW)
      && r.flash == (if Has(regs.misc6328, l.bootSelSerial6328) then Serial else Nand)
    ensures cpu in {BCM6338_CPU_ID, BCM6345_CPU_ID, BCM6348_CPU_ID} ==>
      r.flash == Parallel && r.speed == DEFAULT_SPI_SPEED
    ensures cpu in {BCM3368_CPU_ID, BCM6358_CPU_ID} ==>
      && (r.flash == Parallel <==> Has(regs.gpio, l.bootSelParallel6358))
      && r.flash in {Parallel, Serial} && r.speed == DEFAULT_SPI_SPEED
    ensures cpu == BCM6362_CPU_ID ==>
      && r.flash == (if Has(regs.misc6362, l.bootSelSerial6362) then Serial else Nand)
      && r.speed == DEFAULT_SPI_SPEED
    ensures cpu == BCM6368_CPU_ID ==>
      && r.speed == (if Has(regs.gpio, l.spiClkFast6368) then SPEED_6368_FAST else DEFAULT_SPI_SPEED)
      && r.flash == BootSel6368(l, regs.gpio)
    ensures cpu !in {BCM6328_CPU_ID, BCM6338_CPU_ID, BCM6345_CPU_ID, BCM6348_CPU_ID,
                     BCM3368_CPU_ID, BCM6358_CPU_ID, BCM6362_CPU_ID, BCM6368_CPU_ID} ==>
      r == Detection(-EINVAL, Unknown, DEFAULT_SPI_SPEED)
  {
    if cpu == BCM6328_CPU_ID then
      var speed := if Has(regs.misc6328, l.hsspiClkFast6328) then SPEED_6328_FAST else SPEED_6328_SLOW;
      Detection(0, if Has(regs.misc6328, l.bootSelSerial6328) then Serial else Nand, speed)
    else if cpu == BCM6338_CPU_ID || cpu == BCM6345_CPU_ID || cpu == BCM6348_CPU_ID then
      Detection(0, Parallel, DEFAULT_SPI_SPEED)
    else if cpu == BCM3368_CPU_ID || cpu == BCM6358_CPU_ID then
      Detection(0, if Has(regs.gpio, l.bootSelParallel6358) then Parallel else Serial, DEFAULT_SPI_SPEED)
    else if cpu == BCM6362_CPU_ID then
      Detection(0, if Has(regs.misc6362, l.bootSelSerial6362) then Serial else Nand, DEFAULT_SPI_SPEED)
    else if cpu == BCM6368_CPU_ID then
      var speed := if Has(regs.gpio, l.spiClkFast6368) then SPEED_6368_FAST else DEFAULT_SPI_SPEED;
      var flash := BootSel6368(l, regs.gpio);
      Detection(if flash == Unknown then -EINVAL else 0, flash, speed)
    else Detection(-EINVAL, Unknown, DEFAULT_SPI_SPEED)
  }

  /** The missing `break` shows: a 6368 that booted from a recognised
      device is reported as a detection failure. */
  lemma Bcm6368DetectionReportsFailure(l: StrapLayout, regs: StrapRegs)
    requires BootSel6368(l, regs.gpio) != Unknown
    ensures DetectAsWritten(BCM6368_CPU_ID, l, regs).rc == -EINVAL
    ensures Detect(BCM6368_CPU_ID, l, regs).rc == 0
  {
  }

  /** The two readings agree on everything but the return code. */
  lemma DetectionsAgreeOnType(cpu: nat, l: StrapLayout, regs: StrapRegs)
    ensures DetectAsWritten(cpu, l, regs).flash == Detect(cpu, l, regs).flash
    ensures DetectAsWritten(cpu, l, regs).speed == Detect(cpu, l, regs).speed
  {
  }

  /** Every speed detection can leave behind. */
  lemma DetectedSpeeds(cpu: nat, l: StrapLayout, regs: StrapRegs)
    ensures Detect(cpu, l, regs).speed in {DEFAULT_SPI_SPEED, SPEED_6328_FAST, SPEED_6328_SLOW, SPEED_6368_FAST}
    ensures Detect(cpu, l, regs).speed != DEFAULT_SPI_SPEED ==> cpu in {BCM6328_CPU_ID, BCM6368_CPU_ID}
  {
  }

  // ---------------------------------------------------------------------
  // bcm63xx_flash_register

  /** What gets registered. */
  datatype FlashPlan =
    | Physmap(start: u32, end: nat)
    | SpiNor(busNum: nat, speed: nat, hsspiTransferLimit: bool)
    | NoFlash

  /** The parser caldata offsets, the detection, the plan and the result.
      `registerRc` stands for the result of platform_device_register or
      spi_register_board_info. */
  datatype Registration = Registration(parserCaldata: seq<u32>, detection: Detection, plan: FlashPlan, rc: int)

  /** The plan for a detected flash type; `cs0Base` is the boot chip
      select base already masked with MPI_CSBASE_BASE_MASK. */
  function Plan(cpu: nat, flash: FlashType, speed: nat, boardName: Bytes, cs0Base: u32): (p: FlashPlan)
    ensures p.Physmap? <==> flash == Parallel
    ensures p.SpiNor? <==> flash == Serial
    ensures p.Physmap? ==>
      && p.end == PHYSMAP_END
      && p.start == (if StrEq(boardName, Lit("V2500V_BB")) then (cs0Base + V2500V_BANK0_OFFSET) % 0x1_0000_0000
                     else cs0Base)
    ensures p.SpiNor? ==>
      && p.speed == speed
      && (p.busNum == 1 <==> cpu in {BCM6328_CPU_ID, BCM6362_CPU_ID})
      && (p.busNum != 1 ==> p.busNum == 0)
      && p.hsspiTransferLimit == (p.busNum == 1)
  {
    match flash
    case Parallel =>
      var start := if StrEq(boardName, Lit("V2500V_BB"))
        then (cs0Base + V2500V_BANK0_OFFSET) % 0x1_0000_0000 else cs0Base;
      Physmap(start, PHYSMAP_END)
    case Serial =>
      if cpu == BCM6328_CPU_ID || cpu == BCM6362_CPU_ID then SpiNor(1, speed, true)
      else SpiNor(0, speed, false)
    case _ => NoFlash
  }

  /** Copies the first `n` caldata offsets into the parser's array. */
  function CopyCaldata(parser: seq<u32>, offsets: seq<u32>, n: nat): (r: seq<u32>)
    requires n <= |parser| && n <= |offsets|
    ensures |r| == |parser|
    ensures forall i :: 0 <= i < n ==> r[i] == offsets[i]
    ensures forall i :: n <= i < |r| ==> r[i] == parser[i]
    decreases n
  {
    if n == 0 then parser else CopyCaldata(parser, offsets, n - 1)[n - 1 := offsets[n - 1]]
  }

  /** bcm63xx_flash_register: copy the caldata offsets, detect (as
      written, ignoring the return code) and register according to the
      detected type, which is the one the corrected detection finds. */
  function FlashRegister(cpu: nat, l: StrapLayout, regs: StrapRegs, boardName: Bytes, cs0Base: u32,
                         parser: seq<u32>, caldataOffsets: seq<u32>, numCaldata: nat,
                         registerRc: int): (r: Registration)
    requires |parser| == PARSER_CALDATA
    requires numCaldata <= PARSER_CALDATA && numCaldata <= |caldataOffsets|
    ensures |r.parserCaldata| == PARSER_CALDATA
    ensures r.parserCaldata[..numCaldata] == caldataOffsets[..numCaldata]
    ensures r.parserCaldata[numCaldata..] == parser[numCaldata..]
    ensures r.detection == DetectAsWritten(cpu, l, regs)
    ensures r.plan == Plan(cpu, r.detection.flash, r.detection.speed, boardName, cs0Base)
    ensures var d := Detect(cpu, l, regs);
      r.plan == Plan(cpu, d.flash, d.speed, boardName, cs0Base)
    ensures r.plan.NoFlash? <==> r.detection.flash in {Nand, Unknown}
    ensures r.plan.NoFlash? ==> r.rc == -ENODEV
    ensures !r.plan.NoFlash? ==> r.rc == registerRc
  {
    var cal := CopyCaldata(parser, caldataOffsets, numCaldata);
    var d := DetectAsWritten(cpu, l, regs);
    FallThroughIsHarmless(cpu, l, regs, boardName, cs0Base);
    var p := Plan(cpu, d.flash, d.speed, boardName, cs0Base);
    Registration(cal, d, p, if p.NoFlash? then -ENODEV else registerRc)
  }

  /** The registration ignores the detection's return code, so the
      missing `break` has no effect on what is registered. */
  lemma FallThroughIsHarmless(cpu: nat, l: StrapLayout, regs: StrapRegs, boardName: Bytes, cs0Base: u32)
    ensures var a := DetectAsWritten(cpu, l, regs);
      var d := Detect(cpu, l, regs);
      Plan(cpu, a.flash, a.speed, boardName, cs0Base) == Plan(cpu, d.flash, d.speed, boardName, cs0Base)
  {
  }

  /** CPUs the detection does not know (6318, 63268, ...) end in -ENODEV. */
  lemma UnlistedCpuRegistersNothing(cpu: nat, l: StrapLayout, regs: StrapRegs, boardName: Bytes, cs0Base: u32,
                                    parser: seq<u32>, caldataOffsets: seq<u32>, numCaldata: nat, registerRc: int)
    requires |parser| == PARSER_CALDATA
    requires numCaldata <= PARSER_CALDATA && numCaldata <= |caldataOffsets|
    requires cpu !in {BCM6328_CPU_ID, BCM6338_CPU_ID, BCM6345_CPU_ID, BCM6348_CPU_ID,
                      BCM3368_CPU_ID, BCM6358_CPU_ID, BCM6362_CPU_ID, BCM6368_CPU_ID}
    ensures var r := FlashRegister(cpu, l, regs, boardName, cs0Base, parser, caldataOffsets, numCaldata, registerRc);
      r.detection.flash == Unknown && r.plan == NoFlash && r.rc == -ENODEV
  {
  }

  /** A 6328 or 6362 booting from serial flash uses the high-speed SPI
      controller (bus 1) with its transfer limit, at the strapped speed. */
  lemma HsspiFlashOn6328(l: StrapLayout, regs: StrapRegs, boardName: Bytes, cs0Base: u32)
    requires Has(regs.misc6328, l.bootSelSerial6328)
    ensures var d := Detect(BCM6328_CPU_ID, l, regs);
      Plan(BCM6328_CPU_ID, d.flash, d.speed, boardName, cs0Base)
        == SpiNor(1, if Has(regs.misc6328, l.hsspiClkFast6328) then SPEED_6328_FAST else SPEED_6328_SLOW, true)
  {
  }
}

=== FILE: kernel.dfy ===
/** Kernel vocabulary shared by every BCM63xx module: error codes, the
    optional value used for NULL pointers and absent properties, the CPU
    identifiers returned by bcm63xx_get_cpu_id(), and the PCI vendor ids
    the board code dispatches on. */
module Kernel {

  /** The conventional Some/None datatype, standing for a nullable pointer
      or a device-tree property that may be absent. */
  datatype Option<+T> = None | Some(value: T)

  /** errno values as returned (negated) by the board code. */
  const ENODEV: int := 19
  const EINVAL: int := 22

  /** CPU identifiers (the chip number written in hexadecimal). */
  const BCM3368_CPU_ID: nat := 0x3368
  const BCM6318_CPU_ID: nat := 0x6318
  const BCM6328_CPU_ID: nat := 0x6328
  const BCM6338_CPU_ID: nat := 0x6338
  const BCM6345_CPU_ID: nat := 0x6345
  const BCM6348_CPU_ID: nat := 0x6348
  const BCM6358_CPU_ID: nat := 0x6358
  const BCM6362_CPU_ID: nat := 0x6362
  const BCM6368_CPU_ID: nat := 0x6368
  const BCM63268_CPU_ID: nat := 0x63268

  /** PCI vendor identifiers used to dispatch wireless calibration fixups. */
  const PCI_VENDOR_ID_ATHEROS: nat := 0x168c
  const PCI_VENDOR_ID_RALINK: nat := 0x1814
}

=== FILE: nvram.dfy ===
/** The CFE NVRAM block: checksum-region selection at init, the MAC
    address pool handed out to network devices, the PSI size, and the
    small cache of SPROM MAC addresses keyed by (bus, slot). */
module Nvram {
  import opened Kernel
  import opened Bytes

  const ETH_ALEN: nat := 6
  type Mac = m: Bytes | |m| == ETH_ALEN witness [0, 0, 0, 0, 0, 0]

  const ZERO_MAC: Mac := [0, 0, 0, 0, 0, 0]

  // Layout of struct bcm963xx_nvram (u32 fields big-endian, no padding).
  const VERSION_OFFSET: nat := 0
  const NAME_OFFSET: nat := 260
  const NAME_LEN: nat := 16
  const MAIN_TP_NUMBER_OFFSET: nat := 276
  const PSI_SIZE_OFFSET: nat := 280
  const MAC_ADDR_COUNT_OFFSET: nat := 284
  const MAC_ADDR_BASE_OFFSET: nat := 288
  const CHECKSUM_OLD_OFFSET: nat := 296
  const RESERVED3_OFFSET: nat := 300
  const CHECKSUM_HIGH_OFFSET: nat := 1020
  const NVRAM_STRUCT_SIZE: nat := 1024

  /** Size of nvram_buf, the raw copy exported for the wireless driver. */
  const NVRAM_SPACE: nat := 0x8000

  const SZ_1K: nat := 1024
  const DEFAULT_PSI_SIZE: nat := 0x10000
  const MAX_PSI_KB: nat := 512

  /** The pool given to 3368 cable modems, whose NVRAM lives in firmware. */
  const HCS_MAC_BASE: Mac := [0x00, 0x10, 0x18, 0xff, 0xff, 0xff]
  const HCS_MAC_COUNT: u32 := 2

  /** The largest value of the 24-bit counter in bytes 3..5 of a MAC. */
  const MAX24: nat := 0xff_ffff

  datatype Nvram = Nvram(
    version: u32,
    name: Bytes,
    mainTpNumber: u32,
    psiSize: u32,
    macAddrCount: u32,
    macAddrBase: Mac,
    checksumOld: u32,
    checksumHigh: u32)

  // ---------------------------------------------------------------------
  // bcm63xx_nvram_init

  /** The bytes the CRC is computed over and the stored value it must
      match. */
  datatype ChecksumPlan = ChecksumPlan(region: Bytes, expected: u32)

  /** Up to version 4 the CRC covers the bytes before reserved3 and is
      stored in checksum_old; later versions cover the whole struct and
      store it in checksum_high. The stored field reads as zero while the
      CRC is computed. */
  function ChecksumPlanOf(image: Bytes): (p: ChecksumPlan)
    requires |image| >= NVRAM_STRUCT_SIZE
    ensures BE32(image, VERSION_OFFSET) <= 4 ==>
      && |p.region| == RESERVED3_OFFSET
      && p.expected == BE32(image, CHECKSUM_OLD_OFFSET)
      && p.region[..CHECKSUM_OLD_OFFSET] == image[..CHECKSUM_OLD_OFFSET]
      && p.region[CHECKSUM_OLD_OFFSET..] == [0, 0, 0, 0]
    ensures BE32(image, VERSION_OFFSET) > 4 ==>
      && |p.region| == NVRAM_STRUCT_SIZE
      && p.expected == BE32(image, CHECKSUM_HIGH_OFFSET)
      && p.region[..CHECKSUM_HIGH_OFFSET] == image[..CHECKSUM_HIGH_OFFSET]
      && p.region[CHECKSUM_HIGH_OFFSET..] == [0, 0, 0, 0]
  {
    if BE32(image, VERSION_OFFSET) <= 4 then
      ChecksumPlan(image[..CHECKSUM_OLD_OFFSET] + [0, 0, 0, 0], BE32(image, CHECKSUM_OLD_OFFSET))
    else
      ChecksumPlan(image[..CHECKSUM_HIGH_OFFSET] + [0, 0, 0, 0], BE32(image, CHECKSUM_HIGH_OFFSET))
  }

  /** Offset of the checksum field the plan reads for this image. */
  function ChecksumField(image: Bytes): nat
    requires |image| >= NVRAM_STRUCT_SIZE
  {
    if BE32(image, VERSION_OFFSET) <= 4 then CHECKSUM_OLD_OFFSET else CHECKSUM_HIGH_OFFSET
  }

  /** Two images that differ only in the selected checksum field checksum
      the same bytes: the stored CRC never feeds its own computation. */
  lemma ChecksumRegionIgnoresStoredField(a: Bytes, b: Bytes)
    requires |a| >= NVRAM_STRUCT_SIZE && |b| >= NVRAM_STRUCT_SIZE
    requires a[..ChecksumField(a)] == b[..ChecksumField(a)]
    requires a[ChecksumField(a) + 4..NVRAM_STRUCT_SIZE] == b[ChecksumField(a) + 4..NVRAM_STRUCT_SIZE]
    ensures ChecksumPlanOf(a).region == ChecksumPlanOf(b).region
  {
    assert a[..4] == b[..4];
    assert BE32(a, VERSION_OFFSET) == BE32(b, VERSION_OFFSET);
  }

  /** The image with `crc` of its checksum region written into the field
      the region leaves out, as a tool producing the NVRAM would do. */
  function Seal(image: Bytes, crc: Bytes -> u32): (s: Bytes)
    requires |image| >= NVRAM_STRUCT_SIZE
    ensures |s| == |image|
  {
    var f := ChecksumField(image);
    image[..f] + BE32Bytes(crc(ChecksumPlanOf(image).region)) + image[f + 4..]
  }

  /** A sealed image passes the check bcm63xx_nvram_init makes. */
  lemma SealedImagePassesChecksum(image: Bytes, crc: Bytes -> u32)
    requires |image| >= NVRAM_STRUCT_SIZE
    ensures var p := ChecksumPlanOf(Seal(image, crc)); crc(p.region) == p.expected
  {
    var s := Seal(image, crc);
    var f := ChecksumField(image);
    var v := crc(ChecksumPlanOf(image).region);
    assert s[..4] == image[..4];
    assert BE32(s, VERSION_OFFSET) == BE32(image, VERSION_OFFSET);
    assert ChecksumField(s) == f;
    ChecksumRegionIgnoresStoredField(image, s);
    assert s[f..f + 4] == BE32Bytes(v);
    BE32RoundTrip(v, s, f);
  }

  /** What bcm63xx_nvram_init leaves behind: the parsed struct, the raw
      copy in nvram_buf, and whether the CRC matched (a mismatch is only
      reported, never acted on). */
  datatype NvramState = NvramState(nvram: Nvram, buf: Bytes, checksumOk: bool)

  /** bcm63xx_nvram_init over the flash window at the NVRAM offset. */
  function NvramInit(cpuId: nat, image: Bytes, crc: Bytes -> u32): (s: NvramState)
    requires |image| >= NVRAM_SPACE
    ensures s.buf == image[..NVRAM_SPACE]
    ensures s.checksumOk <==> crc(ChecksumPlanOf(image).region) == ChecksumPlanOf(image).expected
    ensures s.nvram.version == BE32(image, VERSION_OFFSET)
    ensures s.nvram.name == image[NAME_OFFSET..NAME_OFFSET + NAME_LEN]
    ensures s.nvram.psiSize == BE32(image, PSI_SIZE_OFFSET)
    ensures cpuId == BCM3368_CPU_ID ==>
      s.nvram.macAddrBase == HCS_MAC_BASE && s.nvram.macAddrCount == HCS_MAC_COUNT
    ensures cpuId != BCM3368_CPU_ID ==>
      && s.nvram.macAddrBase == image[MAC_ADDR_BASE_OFFSET..MAC_ADDR_BASE_OFFSET + ETH_ALEN]
      && s.nvram.macAddrCount == BE32(image, MAC_ADDR_COUNT_OFFSET)
    ensures s.nvram.version <= 4 ==>
      s.nvram.checksumOld == 0 && s.nvram.checksumHigh == BE32(image, CHECKSUM_HIGH_OFFSET)
    ensures s.nvram.version > 4 ==>
      s.nvram.checksumHigh == 0 && s.nvram.checksumOld == BE32(image, CHECKSUM_OLD_OFFSET)
  {
    var version := BE32(image, VERSION_OFFSET);
    var plan := ChecksumPlanOf(image);
    var parsed := Nvram(
      version,
      image[NAME_OFFSET..NAME_OFFSET + NAME_LEN],
      BE32(image, MAIN_TP_NUMBER_OFFSET),
      BE32(image, PSI_SIZE_OFFSET),
      BE32(image, MAC_ADDR_COUNT_OFFSET),
      image[MAC_ADDR_BASE_OFFSET..MAC_ADDR_BASE_OFFSET + ETH_ALEN],
      if version <= 4 then 0 else BE32(image, CHECKSUM_OLD_OFFSET),
      if version <= 4 then BE32(image, CHECKSUM_HIGH_OFFSET) else 0);
    var nv := if cpuId == BCM3368_CPU_ID
      then parsed.(macAddrBase := HCS_MAC_BASE, macAddrCount := HCS_MAC_COUNT)
      else parsed;
    NvramState(nv, image[..NVRAM_SPACE], crc(plan.region) == plan.expected)
  }

  /** A checksum mismatch changes nothing but the warning: the parsed
      NVRAM is the same whatever the CRC function computes. */
  lemma ChecksumMismatchOnlyWarns(cpuId: nat, image: Bytes, crc1: Bytes -> u32, crc2: Bytes -> u32)
    requires |image| >= NVRAM_SPACE
    ensures NvramInit(cpuId, image, crc1).nvram == NvramInit(cpuId, image, crc2).nvram
    ensures NvramInit(cpuId, image, crc1).buf == NvramInit(cpuId, image, crc2).buf
  {
  }

  // ---------------------------------------------------------------------
  // bcm63xx_nvram_get_psi_size

  /** The PSI size in bytes: the NVRAM value in KiB when it lies in
      1..512, else the 64 KiB default. */
  function PsiSize(nv: Nvram): (size: nat)
    ensures size % SZ_1K == 0 && SZ_1K <= size <= MAX_PSI_KB * SZ_1K
    ensures 0 < nv.psiSize <= MAX_PSI_KB ==> size == nv.psiSize * SZ_1K
    ensures !(0 < nv.psiSize <= MAX_PSI_KB) ==> size == DEFAULT_PSI_SIZE
  {
    if 0 < nv.psiSize <= MAX_PSI_KB then nv.psiSize * SZ_1K
    else DEFAULT_PSI_SIZE
  }

  // ---------------------------------------------------------------------
  // bcm63xx_nvram_get_mac_address

  /** The MAC pool: base address and count from the NVRAM, and the
      number of addresses handed out so far (mac_addr_used). */
  datatype MacPool = MacPool(base: Mac, count: u32, used: nat)

  function PoolOf(nv: Nvram): MacPool {
    MacPool(nv.macAddrBase, nv.macAddrCount, 0)
  }

  /** Bytes 3..5 of a MAC read as a big-endian 24-bit counter. */
  function Low24(m: Mac): (v: nat)
    ensures v <= MAX24
  {
    m[3] as int * 0x1_0000 + m[4] as int * 0x100 + m[5] as int
  }

  /** `m` with its low 24 bits replaced by `v`; the OUI (bytes 0..2) is
      kept. */
  function WithLow24(m: Mac, v: nat): (r: Mac)
    requires v <= MAX24
    ensures r[..3] == m[..3]
  {
    m[..3] + [v / 0x1_0000, (v / 0x100) % 0x100, v % 0x100]
  }

  /** Setting the low 24 bits and reading them back are inverse; a MAC is
      determined by its OUI and its low 24 bits. */
  lemma Low24RoundTrip(m: Mac, v: nat)
    requires v <= MAX24
    ensures Low24(WithLow24(m, v)) == v
    ensures WithLow24(m, Low24(m)) == m
  {
    Low24OfWithLow24(m, v);
    WithLow24OfLow24(m);
  }

  lemma WithLow24OfLow24(m: Mac)
    ensures WithLow24(m, Low24(m)) == m
  {
    var a, b, c := m[3] as int, m[4] as int, m[5] as int;
    var v := Low24(m);
    assert v == (a * 0x100 + b) * 0x100 + c;
    assert v / 0x100 == a * 0x100 + b && v % 0x100 == c;
    assert v / 0x1_0000 == (v / 0x100) / 0x100;
    assert (a * 0x100 + b) / 0x100 == a && (a * 0x100 + b) % 0x100 == b;
    assert m == m[..3] + [m[3], m[4], m[5]];
  }

  lemma Low24OfWithLow24(m: Mac, v: nat)
    requires v <= MAX24
    ensures Low24(WithLow24(m, v)) == v
  {
    var hi, lo := v / 0x100, v % 0x100;
    assert v == hi * 0x100 + lo;
    assert hi == (hi / 0x100) * 0x100 + hi % 0x100;
    assert hi / 0x100 == v / 0x1_0000;
  }

  lemma MacFromParts(a: Mac, b: Mac)
    requires a[..3] == b[..3] && Low24(a) == Low24(b)
    ensures a == b
  {
    Low24RoundTrip(a, Low24(a));
    Low24RoundTrip(b, Low24(b));
    assert WithLow24(a, Low24(a)) == WithLow24(b, Low24(b));
  }

  /** The outcome of one bcm63xx_nvram_get_mac_address call: status, the
      contents of the caller's buffer afterwards, and the pool. */
  datatype MacFetch = MacFetch(status: int, mac: Mac, pool: MacPool)

  /** Reference definition: call number n (n = addresses already handed
      out) yields the base address plus n in its low 24 bits, failing when
      the pool is used up or the sum would carry into the OUI. */
  function FetchMacAddress(pool: MacPool, buf: Mac): (r: MacFetch)
    ensures r.status == 0 || r.status == -ENODEV
    ensures r.status == 0 <==> pool.used < pool.count && Low24(pool.base) + pool.used <= MAX24
    ensures r.status == 0 ==>
      && r.mac[..3] == pool.base[..3]
      && Low24(r.mac) == Low24(pool.base) + pool.used
      && r.pool == pool.(used := pool.used + 1)
    ensures r.status != 0 ==> r.pool == pool
    ensures pool.used >= pool.count ==> r.mac == buf
  {
    if pool.used >= pool.count then MacFetch(-ENODEV, buf, pool)
    else if Low24(pool.base) + pool.used > MAX24 then
      MacFetch(-ENODEV, WithLow24(pool.base, 0), pool)
    else
      Low24RoundTrip(pool.base, Low24(pool.base) + pool.used);
      MacFetch(0, WithLow24(pool.base, Low24(pool.base) + pool.used), pool.(used := pool.used + 1))
  }

  /** (*p)++ on a u8. */
  function IncByte(b: byte): (r: byte)
    ensures b != 0xff ==> r == b + 1
    ensures b == 0xff ==> r == 0
  {
    (b + 1) % 0x100
  }

  /** One pass of the inner do-while loop: add 1 to the 24-bit counter,
      byte by byte from the last, stopping at the first byte that does
      not wrap; `carried` reports a wrap of byte 3 (the loop reaching the
      OUI). */
  method IncrementLow24(m: Mac) returns (r: Mac, carried: bool)
    ensures r[..3] == m[..3]
    ensures carried <==> Low24(m) == MAX24
    ensures !carried ==> Low24(r) == Low24(m) + 1
    ensures carried ==> Low24(r) == 0
  {
    r := m;
    var p := 5;
    while true
      invariant 3 <= p <= 5
      invariant forall j :: 0 <= j <= p ==> r[j] == m[j]
      invariant forall j :: p < j < ETH_ALEN ==> r[j] == 0 && m[j] == 0xff
      decreases p
    {
      r := r[p := IncByte(r[p])];
      if r[p] != 0 {
        carried := false;
        assert r[..3] == m[..3];
        return;
      }
      if p == 3 {
        carried := true;
        assert r[..3] == m[..3];
        return;
      }
      p := p - 1;
    }
  }

  /** bcm63xx_nvram_get_mac_address as written: copy the base address,
      then increment its low 24 bits once per address already handed out. */
  method GetMacAddress(pool: MacPool, buf: Mac) returns (status: int, mac: Mac, pool': MacPool)
    ensures MacFetch(status, mac, pool') == FetchMacAddress(pool, buf)
  {
    if pool.used >= pool.count {
      return -ENODEV, buf, pool;
    }
    mac := pool.base;
    var count: nat := pool.used;
    while count > 0
      invariant count <= pool.used
      invariant mac[..3] == pool.base[..3]
      invariant Low24(mac) == Low24(pool.base) + (pool.used - count)
      decreases count
    {
      count := count - 1;
      var carried;
      mac, carried := IncrementLow24(mac);
      if carried {
        MacFromParts(mac, WithLow24(pool.base, 0));
        Low24RoundTrip(pool.base, 0);
        return -ENODEV, mac, pool;
      }
    }
    assert count == 0;
    var expected := WithLow24(pool.base, Low24(pool.base) + pool.used);
    Low24RoundTrip(pool.base, Low24(pool.base) + pool.used);
    assert Low24(expected) == Low24(mac);
    MacFromParts(mac, expected);
    status := 0;
    pool' := pool.(used := pool.used + 1);
  }

  /** Consecutive successful calls hand out consecutive addresses. */
  lemma ConsecutiveAddresses(pool: MacPool, buf1: Mac, buf2: Mac)
    requires FetchMacAddress(pool, buf1).status == 0
    requires FetchMacAddress(FetchMacAddress(pool, buf1).pool, buf2).status == 0
    ensures Low24(FetchMacAddress(FetchMacAddress(pool, buf1).pool, buf2).mac)
      == Low24(FetchMacAddress(pool, buf1).mac) + 1
  {
  }

  /** On a 3368 the pool is 00:10:18:ff:ff:ff with two addresses: the
      first call returns the base itself, the second would carry into the
      OUI and fails, so a 3368 board obtains exactly one address. */
  lemma Hcs3368PoolYieldsOneAddress(buf1: Mac, buf2: Mac)
    ensures var first := FetchMacAddress(MacPool(HCS_MAC_BASE, HCS_MAC_COUNT, 0), buf1);
      && first.status == 0
      && first.mac == HCS_MAC_BASE
      && FetchMacAddress(first.pool, buf2).status == -ENODEV
      && FetchMacAddress(first.pool, buf2).pool.used == 1
  {
    var pool := MacPool(HCS_MAC_BASE, HCS_MAC_COUNT, 0);
    assert Low24(HCS_MAC_BASE) == MAX24;
    var first := FetchMacAddress(pool, buf1);
    MacFromParts(first.mac, HCS_MAC_BASE);
  }

  // ---------------------------------------------------------------------
  // bcm63xx_nvram_get_sprom_mac_address

  const NVRAM_MAX_SPROMS: nat := 2

  datatype SpromEntry = SpromEntry(bus: int, slot: int, macaddr: Mac)

  /** An entry not yet handed out, as statically initialised. */
  const UNUSED_SPROM: SpromEntry := SpromEntry(-1, -1, ZERO_MAC)

  /** bcm63xx_nvram_sproms and bcm63xx_nvram_num_sproms. */
  datatype SpromCache = SpromCache(entries: seq<SpromEntry>, num: nat)

  const INITIAL_SPROMS: SpromCache := SpromCache([UNUSED_SPROM, UNUSED_SPROM], 0)

  /** The shape of the static array and its counter. */
  predicate WellFormed(c: SpromCache) {
    |c.entries| == NVRAM_MAX_SPROMS && c.num <= NVRAM_MAX_SPROMS
  }

  /** Entries past the counter still hold their static initial value. */
  predicate Valid(c: SpromCache) {
    WellFormed(c) && forall i :: c.num <= i < |c.entries| ==> c.entries[i] == UNUSED_SPROM
  }

  /** The index of the first of entries from..num-1 recorded for (bus, slot). */
  function FindSprom(c: SpromCache, bus: int, slot: int, from: nat): (r: Option<nat>)
    requires WellFormed(c)
    ensures r.Some? ==>
      && from <= r.value < c.num
      && c.entries[r.value].bus == bus && c.entries[r.value].slot == slot
      && forall j :: from <= j < r.value ==> !(c.entries[j].bus == bus && c.entries[j].slot == slot)
    ensures r.None? ==>
      forall j :: from <= j < c.num ==> !(c.entries[j].bus == bus && c.entries[j].slot == slot)
    decreases c.num - from
  {
    if from >= c.num then None
    else if c.entries[from].bus == bus && c.entries[from].slot == slot then Some(from)
    else FindSprom(c, bus, slot, from + 1)
  }

  datatype SpromResult = SpromResult(status: int, mac: Mac, cache: SpromCache, pool: MacPool)

  /** bcm63xx_nvram_get_sprom_mac_address: a (bus, slot) pair seen before
      gets its cached address; a new pair takes the next free entry and a
      fresh address from the pool. The entry is taken before the address
      is fetched, so a failed fetch still uses it up. */
  function GetSpromMacAddress(c: SpromCache, pool: MacPool, bus: int, slot: int, out: Mac): (r: SpromResult)
    requires WellFormed(c)
    ensures WellFormed(r.cache)
    ensures r.status == 0 || r.status == -ENODEV || r.status == -EINVAL
    ensures r.status != 0 ==> r.mac == out && r.pool == pool
    ensures r.status == 0 ==>
      var i := FindSprom(r.cache, bus, slot, 0);
      i.Some? && r.cache.entries[i.value].macaddr == r.mac
    ensures r.cache.num == c.num || r.cache.num == c.num + 1
    ensures var i := FindSprom(c, bus, slot, 0);
      i.Some? ==> r == SpromResult(0, c.entries[i.value].macaddr, c, pool)
    ensures FindSprom(c, bus, slot, 0).None? && c.num >= NVRAM_MAX_SPROMS ==>
      r == SpromResult(-EINVAL, out, c, pool)
    ensures FindSprom(c, bus, slot, 0).None? && c.num < NVRAM_MAX_SPROMS ==>
      var f := FetchMacAddress(pool, ZERO_MAC);
      && r.status == f.status
      && r.cache.num == c.num + 1
      && (forall j :: 0 <= j < |c.entries| && j != c.num ==> r.cache.entries[j] == c.entries[j])
      && (f.status == 0 ==>
            && r.mac == f.mac && r.pool == f.pool
            && r.cache.entries[c.num] == SpromEntry(bus, slot, f.mac))
      && (f.status != 0 ==> r.cache.entries[c.num] == c.entries[c.num])
  {
    match FindSprom(c, bus, slot, 0)
    case Some(i) => SpromResult(0, c.entries[i].macaddr, c, pool)
    case None =>
      if c.num < NVRAM_MAX_SPROMS then
        var slotIndex := c.num;
        var taken := c.(num := c.num + 1);
        var f := FetchMacAddress(pool, ZERO_MAC);
        if f.status != 0 then SpromResult(f.status, out, taken, pool)
        else
          var filled := taken.(entries := taken.entries[slotIndex := SpromEntry(bus, slot, f.mac)]);
          assert FindSprom(filled, bus, slot, 0) == Some(slotIndex) by {
            FindSpromNewEntry(c, filled, bus, slot, 0);
          }
          SpromResult(0, f.mac, filled, f.pool)
      else
        SpromResult(-EINVAL, out, c, pool)
  }

  lemma {:induction false} FindSpromNewEntry(c: SpromCache, d: SpromCache, bus: int, slot: int, from: nat)
    requires WellFormed(c) && WellFormed(d)
    requires c.num < NVRAM_MAX_SPROMS && d.num == c.num + 1 && from <= c.num
    requires forall j :: 0 <= j < c.num ==> d.entries[j] == c.entries[j]
    requires d.entries[c.num].bus == bus && d.entries[c.num].slot == slot
    requires FindSprom(c, bus, slot, from).None?
    ensures FindSprom(d, bus, slot, from) == Some(c.num)
    decreases c.num - from
  {
    if from < c.num {
      FindSpromNewEntry(c, d, bus, slot, from + 1);
    }
  }

  /** The cache invariant holds initially and every call keeps it. */
  lemma SpromCacheStaysValid(c: SpromCache, pool: MacPool, bus: int, slot: int, out: Mac)
    requires Valid(c)
    ensures Valid(INITIAL_SPROMS)
    ensures Valid(GetSpromMacAddress(c, pool, bus, slot, out).cache)
  {
  }

  /** Asking again for a pair that was answered returns the same address
      and takes nothing more from the MAC pool. */
  lemma RepeatedPairIsCached(c: SpromCache, pool: MacPool, bus: int, slot: int, out1: Mac, out2: Mac)
    requires WellFormed(c)
    requires GetSpromMacAddress(c, pool, bus, slot, out1).status == 0
    ensures var first := GetSpromMacAddress(c, pool, bus, slot, out1);
      GetSpromMacAddress(first.cache, first.pool, bus, slot, out2)
        == SpromResult(0, first.mac, first.cache, first.pool)
  {
  }

  /** A new pair once both entries are taken gets -EINVAL and changes
      nothing. */
  lemma NewPairBeyondCapacityFails(c: SpromCache, pool: MacPool, bus: int, slot: int, out: Mac)
    requires WellFormed(c) && c.num == NVRAM_MAX_SPROMS
    requires FindSprom(c, bus, slot, 0).None?
    ensures GetSpromMacAddress(c, pool, bus, slot, out) == SpromResult(-EINVAL, out, c, pool)
  {
  }

  /** A failed fetch for a new pair still uses up an entry, which keeps
      bus = slot = -1; the pool is left as it was. */
  lemma FailedFetchUsesUpEntry(c: SpromCache, pool: MacPool, bus: int, slot: int, out: Mac)
    requires Valid(c) && c.num < NVRAM_MAX_SPROMS
    requires FindSprom(c, bus, slot, 0).None?
    requires FetchMacAddress(pool, ZERO_MAC).status != 0
    ensures var r := GetSpromMacAddress(c, pool, bus, slot, out);
      && r.status == -ENODEV
      && r.cache.num == c.num + 1
      && r.cache.entries[c.num] == UNUSED_SPROM
      && r.pool == pool
  {
  }

  /** Consequence of the above: with an empty pool, two different pairs
      exhaust the cache and a third pair is refused with -EINVAL even
      though no address was ever handed out. */
  lemma EmptyPoolExhaustsCache(pool: MacPool, out: Mac)
    requires pool.used >= pool.count
    ensures var r1 := GetSpromMacAddress(INITIAL_SPROMS, pool, 0, 1, out);
      var r2 := GetSpromMacAddress(r1.cache, r1.pool, 0, 2, out);
      var r3 := GetSpromMacAddress(r2.cache, r2.pool, 0, 3, out);
      r1.status == -ENODEV && r2.status == -ENODEV && r3.status == -EINVAL
  {
    var r1 := GetSpromMacAddress(INITIAL_SPROMS, pool, 0, 1, out);
    assert r1.cache.entries == [UNUSED_SPROM, UNUSED_SPROM];
    var r2 := GetSpromMacAddress(r1.cache, r1.pool, 0, 2, out);
    assert r2.cache.num == 2;
    assert FindSprom(r2.cache, 0, 3, 0).None?;
  }
}

=== FILE: rt2x00_fixup.dfy ===
/** The Ralink rt2x00 PCI fixup table: at most two registrations, each
    naming a PCI slot, an EEPROM file and a MAC address drawn from the
    NVRAM pool; a PCI device gets the platform data of the first
    registration for its slot. */
module Rt2x00Fixup {
  import opened Kernel
  import opened Bytes
  import opened Nvram

  /** ARRAY_SIZE(rt2x00_fixups) */
  const MAX_FIXUPS: nat := 2

  /** Slot number the static entries start with. */
  const INITIAL_SLOT: nat := 255

  /** struct rt2x00_platform_data, as far as the fixup fills it. */
  datatype PlatformData = PlatformData(eepromFileName: Option<Bytes>, macAddress: Option<Mac>)

  /** struct rt2x00_fixup */
  datatype Fixup = Fixup(slot: nat, mac: Mac, pdata: PlatformData)

  const UNUSED_FIXUP: Fixup := Fixup(INITIAL_SLOT, ZERO_MAC, PlatformData(None, None))

  /** rt2x00_fixups and rt2x00_num_fixups */
  datatype FixupTable = FixupTable(fixups: seq<Fixup>, num: nat)

  const INITIAL_TABLE: FixupTable := FixupTable([UNUSED_FIXUP, UNUSED_FIXUP], 0)

  predicate WellFormed(t: FixupTable) {
    |t.fixups| == MAX_FIXUPS && t.num <= MAX_FIXUPS
  }

  datatype EnableResult = EnableResult(table: FixupTable, pool: MacPool)

  /** pci_enable_rt2x00_fixup: once the table is full the call does
      nothing. Otherwise the next entry gets the slot and EEPROM name and
      a MAC address from the pool; only when that address was obtained
      does the entry's platform data point at it and the count grow. */
  function EnableFixup(t: FixupTable, pool: MacPool, slot: nat, eeprom: Bytes): (r: EnableResult)
    requires WellFormed(t)
    ensures WellFormed(r.table)
    ensures t.num >= MAX_FIXUPS ==> r == EnableResult(t, pool)
    ensures t.num < MAX_FIXUPS ==>
      var f := FetchMacAddress(pool, t.fixups[t.num].mac);
      && r.pool == f.pool
      && r.table.fixups[t.num].slot == slot
      && r.table.fixups[t.num].pdata.eepromFileName == Some(eeprom)
      && r.table.fixups[t.num].mac == f.mac
      && (f.status == 0 ==>
            r.table.num == t.num + 1 && r.table.fixups[t.num].pdata.macAddress == Some(f.mac))
      && (f.status != 0 ==> r.table.num == t.num)
    ensures forall i :: 0 <= i < MAX_FIXUPS && i != t.num ==> r.table.fixups[i] == t.fixups[i]
  {
    if t.num >= MAX_FIXUPS then EnableResult(t, pool)
    else
      var i := t.num;
      var old_entry := t.fixups[i];
      var named := old_entry.(slot := slot, pdata := old_entry.pdata.(eepromFileName := Some(eeprom)));
      var f := FetchMacAddress(pool, named.mac);
      if f.status != 0 then
        EnableResult(t.(fixups := t.fixups[i := named.(mac := f.mac)]), f.pool)
      else
        var done := named.(mac := f.mac, pdata := named.pdata.(macAddress := Some(f.mac)));
        EnableResult(FixupTable(t.fixups[i := done], t.num + 1), f.pool)
  }

  /** PCI_SLOT(devfn) */
  function PciSlot(devfn: nat): nat {
    (devfn / 8) % 32
  }

  /** Index of the first registered entry (below the count) for `slot`. */
  function FindFixup(t: FixupTable, slot: nat, from: nat): (r: Option<nat>)
    requires WellFormed(t)
    ensures r.Some? ==>
      && from <= r.value < t.num
      && t.fixups[r.value].slot == slot
      && forall j :: from <= j < r.value ==> t.fixups[j].slot != slot
    ensures r.None? ==> forall j :: from <= j < t.num ==> t.fixups[j].slot != slot
    decreases t.num - from
  {
    if from >= t.num then None
    else if t.fixups[from].slot == slot then Some(from)
    else FindFixup(t, slot, from + 1)
  }

  /** rt2x00_pci_fixup: the platform data handed to the device, or None
      (NULL) when no registered entry has its slot. */
  function PciFixup(t: FixupTable, devfn: nat): (r: Option<PlatformData>)
    requires WellFormed(t)
    ensures r.Some? <==> exists i :: 0 <= i < t.num && t.fixups[i].slot == PciSlot(devfn)
    ensures r.Some? ==>
      exists i :: (&& 0 <= i < t.num && t.fixups[i].slot == PciSlot(devfn)
                   && r.value == t.fixups[i].pdata
                   && forall j :: 0 <= j < i ==> t.fixups[j].slot != PciSlot(devfn))
  {
    match FindFixup(t, PciSlot(devfn), 0)
    case Some(i) => Some(t.fixups[i].pdata)
    case None => None
  }

  /** Entries at or past the count are never matched, whatever they hold. */
  lemma UnregisteredEntriesInvisible(t: FixupTable, u: FixupTable, devfn: nat)
    requires WellFormed(t) && WellFormed(u)
    requires t.num == u.num
    requires forall i :: 0 <= i < t.num ==> t.fixups[i] == u.fixups[i]
    ensures PciFixup(t, devfn) == PciFixup(u, devfn)
  {
    FindFixupSamePrefix(t, u, PciSlot(devfn), 0);
  }

  lemma {:induction false} FindFixupSamePrefix(t: FixupTable, u: FixupTable, slot: nat, from: nat)
    requires WellFormed(t) && WellFormed(u)
    requires t.num == u.num
    requires forall i :: 0 <= i < t.num ==> t.fixups[i] == u.fixups[i]
    ensures FindFixup(t, slot, from) == FindFixup(u, slot, from)
    decreases t.num - from
  {
    if from < t.num {
      FindFixupSamePrefix(t, u, slot, from + 1);
    }
  }

  /** A registration whose MAC fetch fails is invisible to the PCI fixup,
      and the next registration writes over the same entry. */
  lemma FailedRegistrationIsOverwritten(t: FixupTable, pool: MacPool, slot1: nat, eeprom1: Bytes,
                                         slot2: nat, eeprom2: Bytes, devfn: nat)
    requires WellFormed(t) && t.num < MAX_FIXUPS
    requires FetchMacAddress(pool, t.fixups[t.num].mac).status != 0
    ensures var r1 := EnableFixup(t, pool, slot1, eeprom1);
      && r1.table.num == t.num
      && PciFixup(r1.table, devfn) == PciFixup(t, devfn)
      && EnableFixup(r1.table, r1.pool, slot2, eeprom2).table.fixups[t.num].slot == slot2
  {
    var r1 := EnableFixup(t, pool, slot1, eeprom1);
    UnregisteredEntriesInvisible(t, r1.table, devfn);
  }

  /** After a successful registration the PCI fixup finds the new entry
      for its slot unless an earlier entry already claims that slot. */
  lemma RegisteredSlotIsFound(t: FixupTable, pool: MacPool, slot: nat, eeprom: Bytes, devfn: nat)
    requires WellFormed(t) && t.num < MAX_FIXUPS
    requires FetchMacAddress(pool, t.fixups[t.num].mac).status == 0
    requires PciSlot(devfn) == slot
    requires forall i :: 0 <= i < t.num ==> t.fixups[i].slot != slot
    ensures var r := EnableFixup(t, pool, slot, eeprom);
      && PciFixup(r.table, devfn).Some?
      && PciFixup(r.table, devfn).value.eepromFileName == Some(eeprom)
      && PciFixup(r.table, devfn).value.macAddress == Some(FetchMacAddress(pool, t.fixups[t.num].mac).mac)
  {
  }
}

=== FILE: setup.dfy ===
/** Platform setup: choosing the built-in device tree for the board by a
    walk over the blobs linked between __dtb_start and __dtb_end, and the
    register writes of a machine reboot. */
module Setup {
  import opened Kernel
  import opened Bytes

  /** Magic of a flattened device tree header. */
  const OF_DT_HEADER: u32 := 0xd00dfeed
  /** Header offsets of magic and totalsize. */
  const MAGIC_OFFSET: nat := 0
  const TOTALSIZE_OFFSET: nat := 4
  /** Built-in blobs are aligned to this many bytes. */
  const DTB_ALIGN: nat := 32
  /** Bytes of the board name copied into the compatible string. */
  const BOARDID_LEN: nat := 16

  /** roundup(x, 32) computed in 32-bit arithmetic: x + 31 wraps for the
      largest sizes, and the result is then 0. */
  function RoundUp32(x: u32): (r: u32)
    ensures r % DTB_ALIGN == 0
    ensures x + 31 < 0x1_0000_0000 ==> x <= r < x + DTB_ALIGN
    ensures x + 31 >= 0x1_0000_0000 ==> r == 0
  {
    (((x + 31) % 0x1_0000_0000) / DTB_ALIGN) * DTB_ALIGN
  }

  /** The outcome of find_compatible_tree: the offset of the blob found,
      NULL, or a walk that never ends (a bad magic is skipped with
      `continue` without advancing, and a zero step does not advance). */
  datatype Walk = Found(offset: nat) | NotFound | Hangs

  /** `isCompatible(blob, compat)` stands for of_flat_dt_is_compatible on
      the root of the blob's `totalsize` bytes. */
  type CompatOracle = (Bytes, Bytes) -> bool

  function Shift(w: Walk, delta: nat): (r: Walk)
    ensures r.Found? <==> w.Found?
    ensures r.Found? ==> r.offset == w.offset + delta
    ensures !w.Found? ==> r == w
  {
    if w.Found? then Found(w.offset + delta) else w
  }

  /** The blob header at the start of a window. */
  function Magic(m: Bytes): u32 { BE32(m, MAGIC_OFFSET) }
  function TotalSize(m: Bytes): u32 { BE32(m, TOTALSIZE_OFFSET) }

  /** The walk over the window `m` that runs from the cursor to
      __dtb_end; offsets are relative to the cursor. */
  function FindCompatibleTree(m: Bytes, compat: Bytes, isCompatible: CompatOracle): (r: Walk)
    ensures r.Found? ==> r.offset < |m|
    ensures |m| == 0 ==> r == NotFound
    ensures |m| > 0 && Magic(m) != OF_DT_HEADER ==> r == Hangs
    decreases |m|
  {
    if |m| == 0 then NotFound
    else if Magic(m) != OF_DT_HEADER then Hangs
    else if isCompatible(Slice(m, 0, TotalSize(m)), compat) then Found(0)
    else
      var step := RoundUp32(TotalSize(m));
      if step == 0 then Hangs
      else if step >= |m| then NotFound
      else Shift(FindCompatibleTree(m[step..], compat, isCompatible), step)
  }

  lemma AlignedSum(x: nat, y: nat)
    requires x % DTB_ALIGN == 0 && y % DTB_ALIGN == 0
    ensures (x + y) % DTB_ALIGN == 0
  {
  }

  /** The blob found starts on a 32-byte boundary from the start of the
      walk, carries the magic and is compatible. */
  lemma {:induction false} FoundBlobIsCompatible(m: Bytes, compat: Bytes, isCompatible: CompatOracle)
    requires FindCompatibleTree(m, compat, isCompatible).Found?
    ensures var o := FindCompatibleTree(m, compat, isCompatible).offset;
      && o % DTB_ALIGN == 0
      && Magic(m[o..]) == OF_DT_HEADER
      && isCompatible(Slice(m[o..], 0, TotalSize(m[o..])), compat)
    decreases |m|
  {
    var r := FindCompatibleTree(m, compat, isCompatible);
    if r.offset != 0 {
      var step := RoundUp32(TotalSize(m));
      var rest := m[step..];
      FoundBlobIsCompatible(rest, compat, isCompatible);
      var o' := FindCompatibleTree(rest, compat, isCompatible).offset;
      assert r.offset == step + o';
      assert rest[o'..] == m[r.offset..];
      AlignedSum(step, o');
    }
  }

  /** One probe of the walk at a nonempty window whose header carries the
      magic, given the oracle's answer for the blob there: either the
      walk stops here (a blob found at offset 0, a hang, or the end of
      the blobs), or it skips `step` bytes to the next header. */
  datatype Probe = Stop(w: Walk) | Skip(step: nat)

  function ProbeAt(m: Bytes, compat: Bytes, isCompatible: CompatOracle, compatible: bool): (p: Probe)
    requires |m| > 0 && Magic(m) == OF_DT_HEADER
    requires compatible == isCompatible(Slice(m, 0, TotalSize(m)), compat)
    ensures p.Stop? ==> FindCompatibleTree(m, compat, isCompatible) == p.w
    ensures p.Stop? && p.w.Found? ==> p.w.offset == 0
    ensures p.Skip? ==>
      && 0 < p.step < |m|
      && FindCompatibleTree(m, compat, isCompatible) == Shift(FindCompatibleTree(m[p.step..], compat, isCompatible), p.step)
  {
    if compatible then Stop(Found(0))
    else
      var step := RoundUp32(TotalSize(m));
      if step == 0 then Stop(Hangs)
      else if step >= |m| then Stop(NotFound)
      else Skip(step)
  }

  /** One probe that skips a blob keeps the outcome of the walk, seen
      from the start of the blobs. */
  lemma SkipKeepsWalk(w: Bytes, cur: nat, step: nat, compat: Bytes, isCompatible: CompatOracle)
    requires 0 < step < |w|
    requires FindCompatibleTree(w, compat, isCompatible) == Shift(FindCompatibleTree(w[step..], compat, isCompatible), step)
    ensures Shift(FindCompatibleTree(w[step..], compat, isCompatible), cur + step)
         == Shift(FindCompatibleTree(w, compat, isCompatible), cur)
  {
    ShiftTwice(FindCompatibleTree(w[step..], compat, isCompatible), step, cur);
  }

  lemma ShiftZero(w: Walk)
    ensures Shift(w, 0) == w
  {
  }

  lemma ShiftTwice(w: Walk, a: nat, b: nat)
    ensures Shift(Shift(w, a), b) == Shift(w, a + b)
  {
  }

  /** The tree a boot-params pointer at `offset` into the built-in blobs
      makes of_get_flat_dt_root read: `totalsize` bytes from there. A
      pointer past __dtb_end reads as no bytes. */
  function TreeAt(dtbs: Bytes, offset: nat): (t: Bytes)
    ensures offset < |dtbs| ==> |t| == TotalSize(dtbs[offset..])
    ensures offset >= |dtbs| ==> t == []
  {
    if offset < |dtbs| then Slice(dtbs[offset..], 0, TotalSize(dtbs[offset..])) else []
  }

  /** bcm63xx_is_compatible(devtree, compat): initial_boot_params is
      pointed at the blob at `devtree` while the root is checked, and the
      previous pointer `initialBootParams` is restored. */
  function IsCompatible(initialBootParams: nat, devtree: nat, dtbs: Bytes, compat: Bytes,
                        isCompatible: CompatOracle): (r: (bool, nat))
    ensures r.1 == initialBootParams
    ensures devtree < |dtbs| ==>
      r.0 == isCompatible(Slice(dtbs[devtree..], 0, TotalSize(dtbs[devtree..])), compat)
    ensures devtree >= |dtbs| ==> r.0 == isCompatible([], compat)
  {
    var during := devtree;
    var ret := isCompatible(TreeAt(dtbs, during), compat);
    (ret, initialBootParams)
  }

  /** The answer does not depend on where initial_boot_params pointed
      before the call. */
  lemma IsCompatibleIgnoresOldPointer(ibp1: nat, ibp2: nat, devtree: nat, dtbs: Bytes, compat: Bytes,
                                      isCompatible: CompatOracle)
    ensures IsCompatible(ibp1, devtree, dtbs, compat, isCompatible).0
         == IsCompatible(ibp2, devtree, dtbs, compat, isCompatible).0
  {
  }

  /** find_compatible_tree as a loop over a cursor `cur` from __dtb_start:
      `window` is the bytes from the cursor to __dtb_end, and each blob
      with the magic is checked by bcm63xx_is_compatible. The C loop
      spins forever where the walk hangs; this method stops there and
      reports it. initial_boot_params is the same afterwards. */
  method FindCompatibleTreeLoop(dtbs: Bytes, compat: Bytes, isCompatible: CompatOracle, ibp: nat)
    returns (r: Walk, ibpAfter: nat)
    ensures r == FindCompatibleTree(dtbs, compat, isCompatible)
    ensures ibpAfter == ibp
  {
    var cur: nat := 0;
    var window := dtbs;
    ibpAfter := ibp;
    ShiftZero(FindCompatibleTree(dtbs, compat, isCompatible));
    while |window| > 0
      invariant cur <= |dtbs| && window == dtbs[cur..]
      invariant ibpAfter == ibp
      invariant Shift(FindCompatibleTree(window, compat, isCompatible), cur)
             == FindCompatibleTree(dtbs, compat, isCompatible)
      decreases |window|
    {
      if Magic(window) != OF_DT_HEADER {
        return Hangs, ibpAfter;
      }
      var answer := IsCompatible(ibpAfter, cur, dtbs, compat, isCompatible);
      ibpAfter := answer.1;
      var p := ProbeAt(window, compat, isCompatible, answer.0);
      if p.Stop? {
        return Shift(p.w, cur), ibpAfter;
      }
      SkipKeepsWalk(window, cur, p.step, compat, isCompatible);
      window := window[p.step..];
      cur := cur + p.step;
    }
    return NotFound, ibpAfter;
  }

  // ---------------------------------------------------------------------
  // A well-formed set of built-in blobs, laid out back to back

  /** A blob whose header carries the magic and its own length. */
  predicate WellFormedBlob(b: Bytes) {
    8 <= |b| < 0x1_0000_0000 - 31 && Magic(b) == OF_DT_HEADER && TotalSize(b) == |b|
  }

  function Zeros(n: nat): (z: Bytes)
    ensures |z| == n
  {
    seq(n, _ => 0)
  }

  /** A blob padded with zeros to the 32-byte alignment. */
  function Padded(b: Bytes): (p: Bytes)
    requires WellFormedBlob(b)
    ensures b <= p && |p| == RoundUp32(|b|)
  {
    b + Zeros(RoundUp32(|b|) - |b|)
  }

  /** The blobs laid out one after another. */
  function Layout(blobs: seq<Bytes>): Bytes
    requires forall i :: 0 <= i < |blobs| ==> WellFormedBlob(blobs[i])
  {
    if |blobs| == 0 then [] else Padded(blobs[0]) + Layout(blobs[1..])
  }

  /** Offset of blob `k` in the layout. */
  function OffsetOf(blobs: seq<Bytes>, k: nat): nat
    requires k <= |blobs|
    requires forall i :: 0 <= i < |blobs| ==> WellFormedBlob(blobs[i])
  {
    if k == 0 then 0 else |Padded(blobs[0])| + OffsetOf(blobs[1..], k - 1)
  }

  /** Index of the first blob compatible with `compat`, if any. */
  function FirstCompatible(blobs: seq<Bytes>, compat: Bytes, isCompatible: CompatOracle): (r: Option<nat>)
    ensures r.Some? ==> r.value < |blobs| && isCompatible(blobs[r.value], compat)
    ensures r.Some? ==> forall j :: 0 <= j < r.value ==> !isCompatible(blobs[j], compat)
    ensures r.None? ==> forall j :: 0 <= j < |blobs| ==> !isCompatible(blobs[j], compat)
  {
    if |blobs| == 0 then None
    else if isCompatible(blobs[0], compat) then Some(0)
    else
      var r := FirstCompatible(blobs[1..], compat, isCompatible);
      if r.Some? then Some(r.value + 1) else None
  }

  lemma HeaderOfPrefix(p: Bytes, rest: Bytes)
    requires 8 <= |p|
    ensures Magic(p + rest) == Magic(p) && TotalSize(p + rest) == TotalSize(p)
  {
    assert forall i :: 0 <= i < 8 ==> At(p + rest, i) == At(p, i);
  }

  /** The head of a layout: the first blob's header, its bytes, and the
      padded step that leads to the rest of the layout. */
  lemma LayoutHead(blobs: seq<Bytes>)
    requires forall i :: 0 <= i < |blobs| ==> WellFormedBlob(blobs[i])
    requires |blobs| > 0
    ensures var m := Layout(blobs);
      var step := RoundUp32(TotalSize(m));
      && |m| > 0 && Magic(m) == OF_DT_HEADER
      && Slice(m, 0, TotalSize(m)) == blobs[0]
      && step == |Padded(blobs[0])| && 0 < step <= |m|
      && m[step..] == Layout(blobs[1..])
  {
    assert Layout(blobs) == Padded(blobs[0]) + Layout(blobs[1..]);
    PaddedHead(blobs[0], Layout(blobs[1..]));
  }

  /** A padded blob followed by anything: the header is the blob's own. */
  lemma PaddedHead(b: Bytes, rest: Bytes)
    requires WellFormedBlob(b)
    ensures var m := Padded(b) + rest;
      var step := RoundUp32(TotalSize(m));
      && |m| > 0 && Magic(m) == OF_DT_HEADER
      && Slice(m, 0, TotalSize(m)) == b
      && step == |Padded(b)| && 0 < step <= |m|
      && m[step..] == rest
  {
    var m := Padded(b) + rest;
    assert b <= m;
    assert b + m[|b|..] == m;
    HeaderOfPrefix(b, m[|b|..]);
    assert TotalSize(m) == |b|;
    SliceOfPrefix(b, m);
  }

  lemma SliceOfPrefix(b: Bytes, m: Bytes)
    requires b <= m
    ensures Slice(m, 0, |b|) == b
  {
    assert forall k :: 0 <= k < |b| ==> Slice(m, 0, |b|)[k] == b[k];
  }

  lemma FirstCompatibleTail(blobs: seq<Bytes>, compat: Bytes, isCompatible: CompatOracle)
    requires |blobs| > 0 && !isCompatible(blobs[0], compat)
    ensures var k := FirstCompatible(blobs[1..], compat, isCompatible);
      FirstCompatible(blobs, compat, isCompatible) == if k.Some? then Some(k.value + 1) else None
  {
  }

  /** Over well-formed blobs laid out back to back, the walk returns the
      first compatible blob, at its offset, and NULL when none is. */
  lemma {:induction false} WalkFindsFirstCompatible(blobs: seq<Bytes>, compat: Bytes, isCompatible: CompatOracle)
    requires forall i :: 0 <= i < |blobs| ==> WellFormedBlob(blobs[i])
    ensures var k := FirstCompatible(blobs, compat, isCompatible);
      FindCompatibleTree(Layout(blobs), compat, isCompatible)
        == if k.Some? then Found(OffsetOf(blobs, k.value)) else NotFound
  {
    if |blobs| > 0 {
      LayoutWalkStep(blobs, compat, isCompatible);
      WalkFindsFirstCompatible(blobs[1..], compat, isCompatible);
      FirstCompatibleStep(blobs, compat, isCompatible,
        FindCompatibleTree(Layout(blobs), compat, isCompatible),
        FindCompatibleTree(Layout(blobs[1..]), compat, isCompatible));
    }
  }

  /** A walk that finds the first blob at offset 0 or else goes on past
      its padding, over a rest that finds the first compatible blob of
      the rest, finds the first compatible blob. */
  lemma FirstCompatibleStep(blobs: seq<Bytes>, compat: Bytes, isCompatible: CompatOracle, w: Walk, rest: Walk)
    requires forall i :: 0 <= i < |blobs| ==> WellFormedBlob(blobs[i])
    requires |blobs| > 0
    requires w == if isCompatible(blobs[0], compat) then Found(0) else Shift(rest, |Padded(blobs[0])|)
    requires var k := FirstCompatible(blobs[1..], compat, isCompatible);
      rest == if k.Some? then Found(OffsetOf(blobs[1..], k.value)) else NotFound
    ensures var k := FirstCompatible(blobs, compat, isCompatible);
      w == if k.Some? then Found(OffsetOf(blobs, k.value)) else NotFound
  {
    if !isCompatible(blobs[0], compat) {
      var k := FirstCompatible(blobs[1..], compat, isCompatible);
      FirstCompatibleTail(blobs, compat, isCompatible);
      if k.Some? {
        assert OffsetOf(blobs, k.value + 1) == |Padded(blobs[0])| + OffsetOf(blobs[1..], k.value);
      }
    }
  }

  /** One step of the walk over a layout: the first blob is found, or
      the walk goes on over the rest of the layout past its padding. */
  lemma LayoutWalkStep(blobs: seq<Bytes>, compat: Bytes, isCompatible: CompatOracle)
    requires forall i :: 0 <= i < |blobs| ==> WellFormedBlob(blobs[i])
    requires |blobs| > 0
    ensures FindCompatibleTree(Layout(blobs), compat, isCompatible)
      == if isCompatible(blobs[0], compat) then Found(0)
         else Shift(FindCompatibleTree(Layout(blobs[1..]), compat, isCompatible), |Padded(blobs[0])|)
  {
    LayoutHead(blobs);
    var m := Layout(blobs);
    var step := |Padded(blobs[0])|;
    if !isCompatible(blobs[0], compat) && step == |m| {
      assert |Layout(blobs[1..])| == 0;
    }
  }

  // ---------------------------------------------------------------------
  // device_tree_init

  /** The generic fallback compatible string "bcm9<cpu id in hex>-generic". */
  function GenericCompatible(cpu: nat): Bytes {
    Lit("bcm9") + Hex(cpu) + Lit("-generic")
  }

  /** The CPU id reads back out of the fallback compatible string. */
  lemma GenericCompatibleNamesCpu(cpu: nat)
    ensures var g := GenericCompatible(cpu);
      && g[..4] == Lit("bcm9") && g[|g| - 8..] == Lit("-generic")
      && FromDigits(g[4..|g| - 8], 16) == cpu
  {
    var g := GenericCompatible(cpu);
    assert g[4..|g| - 8] == Hex(cpu);
    DigitsRoundTrip(cpu, 16);
  }

  /** The tree device_tree_init settles on. */
  datatype TreeChoice = UseTree(offset: nat, compatible: Bytes) | Panic | Hang

  /** device_tree_init: the board name (at most 16 bytes of it) first,
      then the generic tree for the CPU; no tree at all panics. */
  function DeviceTreeInit(dtbs: Bytes, boardName: Bytes, cpu: nat, isCompatible: CompatOracle): (r: TreeChoice)
    ensures var byName := FindCompatibleTree(dtbs, CString(Take(boardName, BOARDID_LEN)), isCompatible);
      var generic := FindCompatibleTree(dtbs, GenericCompatible(cpu), isCompatible);
      && (byName.Found? ==> r == UseTree(byName.offset, CString(Take(boardName, BOARDID_LEN))))
      && (byName.Hangs? ==> r == Hang)
      && (byName.NotFound? && generic.Found? ==> r == UseTree(generic.offset, GenericCompatible(cpu)))
      && (byName.NotFound? && generic.Hangs? ==> r == Hang)
      && (r == Panic <==> byName.NotFound? && generic.NotFound?)
  {
    var name := CString(Take(boardName, BOARDID_LEN));
    match FindCompatibleTree(dtbs, name, isCompatible)
    case Found(o) => UseTree(o, name)
    case Hangs => Hang
    case NotFound =>
      match FindCompatibleTree(dtbs, GenericCompatible(cpu), isCompatible)
      case Found(o) => UseTree(o, GenericCompatible(cpu))
      case Hangs => Hang
      case NotFound => Panic
  }

  /** With well-formed built-in blobs the selection never hangs: it is the
      first blob compatible with the board name, else the first generic
      one, else a panic. */
  lemma DeviceTreeInitOverLayout(blobs: seq<Bytes>, boardName: Bytes, cpu: nat, isCompatible: CompatOracle)
    requires forall i :: 0 <= i < |blobs| ==> WellFormedBlob(blobs[i])
    ensures var name := CString(Take(boardName, BOARDID_LEN));
      var byName := FirstCompatible(blobs, name, isCompatible);
      var generic := FirstCompatible(blobs, GenericCompatible(cpu), isCompatible);
      DeviceTreeInit(Layout(blobs), boardName, cpu, isCompatible)
        == if byName.Some? then UseTree(OffsetOf(blobs, byName.value), name)
           else if generic.Some? then UseTree(OffsetOf(blobs, generic.value), GenericCompatible(cpu))
           else Panic
  {
    WalkFindsFirstCompatible(blobs, CString(Take(boardName, BOARDID_LEN)), isCompatible);
    WalkFindsFirstCompatible(blobs, GenericCompatible(cpu), isCompatible);
  }

  // ---------------------------------------------------------------------
  // bcm63xx_machine_reboot

  /** Register offsets and bit masks the reboot uses. */
  datatype RebootLayout = RebootLayout(
    extIrqCfg3368: nat, extIrqCfg6328: nat, extIrqCfg6338: nat, extIrqCfg6345: nat,
    extIrqCfg6348: nat, extIrqCfg6358: nat, extIrqCfg6362: nat,
    maskAll: Word, clearAll: Word, maskAll6348: Word, clearAll6348: Word,
    softReset6348All: Word, sysPllSoftReset: Word)

  /** The register values the reboot reads. */
  datatype RebootReads = RebootReads(extIrqCfg: Word, softReset1: Word, softReset2: Word, sysPllCtl: Word)

  datatype RebootStep =
    | WriteExtIrqCfg(reg: nat, value: Word)
    | WriteSoftReset(value: Word)
    | DelayMs(ms: nat)
    | JumpToResetVector
    | WriteWdtSoftReset(word: u32)
    | WriteSysPllCtl(value: Word)

  const CPU_REV_6348_A1: nat := 0xa1

  /** perf_regs[0]: the external IRQ configuration register of the CPU,
      None (0) for the CPUs the switch does not list. */
  function ExtIrqRegister(cpu: nat, l: RebootLayout): (r: Option<nat>)
    ensures r.None? <==> cpu !in {BCM3368_CPU_ID, BCM6328_CPU_ID, BCM6338_CPU_ID, BCM6345_CPU_ID,
                                  BCM6348_CPU_ID, BCM6358_CPU_ID, BCM6362_CPU_ID}
    ensures r.Some? ==> r.value in {l.extIrqCfg3368, l.extIrqCfg6328, l.extIrqCfg6338, l.extIrqCfg6345,
                                    l.extIrqCfg6348, l.extIrqCfg6358, l.extIrqCfg6362}
    ensures cpu == BCM6348_CPU_ID ==> r == Some(l.extIrqCfg6348)
    ensures cpu == BCM6328_CPU_ID ==> r == Some(l.extIrqCfg6328)
  {
    if cpu == BCM3368_CPU_ID then Some(l.extIrqCfg3368)
    else if cpu == BCM6328_CPU_ID then Some(l.extIrqCfg6328)
    else if cpu == BCM6338_CPU_ID then Some(l.extIrqCfg6338)
    else if cpu == BCM6345_CPU_ID then Some(l.extIrqCfg6345)
    else if cpu == BCM6348_CPU_ID then Some(l.extIrqCfg6348)
    else if cpu == BCM6358_CPU_ID then Some(l.extIrqCfg6358)
    else if cpu == BCM6362_CPU_ID then Some(l.extIrqCfg6362)
    else None
  }

  /** Masks and clears every external IRQ: (reg & ~mask) | clear. */
  function MaskExtIrq(v: Word, mask: Word, clear: Word): (w: Word)
    ensures clear <= w
    ensures w - (mask + clear) == v - (mask + clear)
    ensures mask !! clear ==> w !! mask
  {
    (v - mask) + clear
  }

  /** The writes bcm63xx_machine_reboot performs before it spins. */
  function Reboot(cpu: nat, rev: nat, l: RebootLayout, regs: RebootReads): (steps: seq<RebootStep>)
    ensures |steps| >= 1
    ensures var irq := ExtIrqRegister(cpu, l);
      |steps| == (if irq.Some? && irq.value != 0 then 1 else 0)
                 + (if cpu == BCM6348_CPU_ID && rev == CPU_REV_6348_A1 then 5 else 1)
    ensures var irq := ExtIrqRegister(cpu, l);
      && (irq.Some? && irq.value != 0 <==> |steps| >= 2 && steps[0].WriteExtIrqCfg?)
      && (irq.Some? && irq.value != 0 ==> steps[0].reg == irq.value)
    ensures var irq := ExtIrqRegister(cpu, l);
      irq.Some? && irq.value != 0 ==>
        steps[0].value == if cpu == BCM6348_CPU_ID
                          then MaskExtIrq(regs.extIrqCfg, l.maskAll6348, l.clearAll6348)
                          else MaskExtIrq(regs.extIrqCfg, l.maskAll, l.clearAll)
    ensures cpu == BCM6348_CPU_ID && rev == CPU_REV_6348_A1 <==> steps[|steps| - 1] == JumpToResetVector
    ensures cpu == BCM6348_CPU_ID && rev == CPU_REV_6348_A1 ==>
      var k, all := |steps|, l.softReset6348All;
      && k >= 5
      && steps[k - 5].WriteSoftReset? && steps[k - 5].value !! all
      && steps[k - 5].value + all == regs.softReset1 + all
      && steps[k - 4] == DelayMs(10)
      && steps[k - 3].WriteSoftReset? && all <= steps[k - 3].value
      && steps[k - 3].value - all == regs.softReset2 - all
      && steps[k - 2] == DelayMs(10)
    ensures cpu == BCM6328_CPU_ID ==> steps[|steps| - 1] == WriteWdtSoftReset(1)
    ensures cpu != BCM6328_CPU_ID && !(cpu == BCM6348_CPU_ID && rev == CPU_REV_6348_A1) ==>
      && steps[|steps| - 1].WriteSysPllCtl?
      && l.sysPllSoftReset <= steps[|steps| - 1].value
      && steps[|steps| - 1].value - l.sysPllSoftReset == regs.sysPllCtl - l.sysPllSoftReset
  {
    var irq := ExtIrqRegister(cpu, l);
    var masked := if irq.Some? && irq.value != 0 then
        if cpu == BCM6348_CPU_ID
        then [WriteExtIrqCfg(irq.value, MaskExtIrq(regs.extIrqCfg, l.maskAll6348, l.clearAll6348))]
        else [WriteExtIrqCfg(irq.value, MaskExtIrq(regs.extIrqCfg, l.maskAll, l.clearAll))]
      else [];
    var reset :=
      if cpu == BCM6348_CPU_ID && rev == CPU_REV_6348_A1 then
        [WriteSoftReset(regs.softReset1 - l.softReset6348All), DelayMs(10),
         WriteSoftReset(regs.softReset2 + l.softReset6348All), DelayMs(10),
         JumpToResetVector]
      else if cpu == BCM6328_CPU_ID then [WriteWdtSoftReset(1)]
      else [WriteSysPllCtl(regs.sysPllCtl + l.sysPllSoftReset)];
    masked + reset
  }

  /** A write that resets the chip. */
  predicate IsResetTrigger(s: RebootStep) {
    s.JumpToResetVector? || s.WriteWdtSoftReset? || s.WriteSysPllCtl?
  }

  /** Every reboot ends in exactly one reset trigger, its last write, and
      when the masks and the clear bits are disjoint, the IRQ write before
      it leaves every external IRQ masked. */
  lemma RebootTriggersOnceAfterMasking(cpu: nat, rev: nat, l: RebootLayout, regs: RebootReads)
    ensures var steps := Reboot(cpu, rev, l, regs);
      && IsResetTrigger(steps[|steps| - 1])
      && (forall i :: 0 <= i < |steps| - 1 ==> !IsResetTrigger(steps[i]))
    ensures var steps := Reboot(cpu, rev, l, regs);
      var mask := if cpu == BCM6348_CPU_ID then l.maskAll6348 else l.maskAll;
      var clear := if cpu == BCM6348_CPU_ID then l.clearAll6348 else l.clearAll;
      mask !! clear ==>
        forall i :: 0 <= i < |steps| && steps[i].WriteExtIrqCfg? ==> steps[i].value !! mask
  {
    var steps := Reboot(cpu, rev, l, regs);
    var irq := ExtIrqRegister(cpu, l);
    var m := if irq.Some? && irq.value != 0 then 1 else 0;
    assert forall i :: m <= i < |steps| ==> !steps[i].WriteExtIrqCfg?;
  }

  /** CPUs outside the switch (6318, 6368, 63268, ...) skip the IRQ
      masking and go straight to the PLL soft reset. */
  lemma UnlistedCpuSkipsIrqMasking(cpu: nat, rev: nat, l: RebootLayout, regs: RebootReads)
    requires cpu !in {BCM3368_CPU_ID, BCM6328_CPU_ID, BCM6338_CPU_ID, BCM6345_CPU_ID,
                      BCM6348_CPU_ID, BCM6358_CPU_ID, BCM6362_CPU_ID}
    ensures Reboot(cpu, rev, l, regs) == [WriteSysPllCtl(regs.sysPllCtl + l.sysPllSoftReset)]
  {
  }
}
